=== FILE: README.md ===
# OpenHarmony ets_utils core, modelled in Dafny

This project models five parts of the OpenHarmony `commonlibrary_ets_utils` repository and
proves properties of them.

- **Base64 codec** (`js_util_module/util/js_base64.cpp`). The synchronous and asynchronous
  alphabet lookups, the encoder with its URL-safe shrink, the `equalCount` and
  `decodeOutLen` length arithmetic, and the decoder's four-characters-at-a-time loop.
  Modules `Base64`, `Base64Proofs` and `Base64Vectors`.
- **Buffer byte arithmetic** (`js_api_module/buffer/src/js_buffer.ts`). Fixed-width
  integer reads and writes from 8 to 64 bits in both byte orders, the variable-width
  `readIntBE`/`writeUIntLE` family, and the offset and value guards. Also `compare`,
  `equals`, `subarray`, the byte swaps, `fill`, the hex helpers, `normalizeEncoding`,
  `getBase64ByteLength` and the pool allocator. Modules `BufferInt` and `BufferBytes`,
  over the reference two's-complement encoding of `ByteCodec`. `JsInt` gives the
  JavaScript bit operators.
- **URL and URI helpers** (`js_api_module/url/src/js_url.ts`,
  `js_api_module/uri/src/js_uri.ts`). `decodeSafelyOut`, the `customEncode…` helpers, the
  `href` serializer of `setHref` and the setters that refresh it, the search-params
  `toString`/`forEach`/`append` and the iterable check. On the URI side: the query
  getters, segments, and the authority and SSP getters with their bracket handling.
  Modules `UrlCommon`, `Url` and `Uri`. `JsString` gives `split`, `join`, `indexOf`,
  `toLowerCase` and global `replace`.
- **Containers**: LinkedList, Deque and Stack (`js_util_module/container/...`), each as a
  sequence or ring of slots with the index proxy. Modules `LinkedList`, `Deque` and
  `Stack`.
- **Taskpool** (`js_concurrent_module/taskpool/task_group.cpp`, `sequence_runner.cpp`).
  TaskGroup construction, `addTask`, member lookup, promotion of queued executions,
  cancellation and rejection. SequenceRunner construction, `execute` and the destructor.
  Modules `TaskTypes`, `TaskGroup` and `SequenceRunner`.

Native parts that the TypeScript or C++ code calls are not modelled, because their code
is not part of this model. Each one enters as a function parameter and is named where it
is used:
- the URL and URI parsers;
- `encodeURIComponent` and `decodeURIComponent`;
- the native search-params splitter;
- the string encoders of `fill`;
- the task manager's lookups;
- the native search-params append (`NativeAppend`);
- the native Buffer compare that `compareInner` calls for a Buffer target (`NativeCompare`).

Where the code has a defect, there are two definitions side by side. The `…AsWritten`
definition follows the code. The corrected one, which the rest of the model uses, carries
the properties. Both are listed under "Findings".

## Model

| member | source | states |
|---|---|---|
| Base64.Finds | js_util_module/util/js_base64.cpp:344-359 | The synchronous lookup answers the first table index holding the character, and that index's table entry is the character. It fails exactly for characters outside the alphabet of the mode; the URL-safe table has no '='. |
| Base64.LastMatchTable | js_util_module/util/js_base64.cpp:642-657 | The asynchronous loop, which remembers the last match, ends on the unique index of the character, or keeps its start value when there is none. |
| Base64.FindsAsync | js_util_module/util/js_base64.cpp:642-657 | The asynchronous lookup never fails: it agrees with the synchronous one and maps an unsupported character to 0. |
| Base64.Encode | js_util_module/util/js_base64.cpp:103-169 | Every character the encoder writes is '=' or one of the 64 of the mode's table; with padding the text is a whole number of quadruples. |
| Base64.EncodeSync | js_util_module/util/js_base64.cpp:45-76 | Encoding fails with the parameter error exactly when the argument is not a non-empty Uint8Array; otherwise the answer is the encoder's output. |
| Base64.EqualCount | js_util_module/util/js_base64.cpp:244-250 | The count is at most 2. It is 2 exactly when the last two characters are '=', and 0 exactly when neither is. |
| Base64.DecodeOut | js_util_module/util/js_base64.cpp:321-341 | The allocation size is positive. The amount taken off `decodeOutLen` is the padding count for 0 to 2, else nothing. |
| Base64.DecodeOutLenFits | js_util_module/util/js_base64.cpp:240-285 | The corrected `decodeOutLen` never exceeds the bytes the decode loop writes for the characters before the padding. |
| Base64.DecodeAchieve | js_util_module/util/js_base64.cpp:240-318 | Decoding fails exactly when a character before the padding is outside the alphabet; a success has length `decodeOutLen`. |
| Base64.DecodeSync | js_util_module/util/js_base64.cpp:194-237 | An empty string gives error "-2"; an empty array or another type gives the parameter error. A non-empty Uint8Array is decoded as it is, and a non-empty string as its UTF-8 bytes. |
| Base64.Utf8 | js_util_module/util/js_base64.cpp:205-225 | The bytes a string hands the decoder are at least as many as its characters, each below 0x100. |
| Base64.Utf8Ascii | js_util_module/util/js_base64.cpp:205-225 | An ASCII string reaches the decoder unchanged. |
| Base64.NonAsciiRejected | js_util_module/util/js_base64.cpp:194-237 | A string holding a character from 0x80 on fails with the unsupported-character error, because its UTF-8 bytes are in no table. |
| Base64Proofs.GroupRoundTrip | js_util_module/util/js_base64.cpp:138-169 | The decoder's bit unpacking of one encoder group gives back the group's bytes, plus one zero byte for a short group. |
| Base64Proofs.DecodeSextets | js_util_module/util/js_base64.cpp:287-318 | Decoding all the encoder's sextets gives back the input, plus one zero byte when the last group is short. |
| Base64Proofs.EncodeLength | js_util_module/util/js_base64.cpp:103-136 | The encoder emits exactly `outputLen` characters, less 2 or 1 in URL-safe mode for a short last group. |
| Base64Proofs.EqualCountOfEncode | js_util_module/util/js_base64.cpp:244-250 | The decoder's `equalCount` of an encoded text is exactly the padding the encoder appended. |
| Base64Proofs.LengthFormulaOfEncoded | js_util_module/util/js_base64.cpp:240-285 | The decoder's length formula inverts the encoder's output length in all four modes. |
| Base64Proofs.DecodeOutLenOfEncode | js_util_module/util/js_base64.cpp:240-285 | `decodeOutLen` of an encoded text is the length of the encoder's input. |
| Base64Proofs.RoundTrip | js_util_module/util/js_base64.cpp:173-237 | Decoding the encoder's output in the same mode gives back every non-empty byte sequence. |
| Base64Proofs.EncodeIsAscii | js_util_module/util/js_base64.cpp:103-169 | Every character the encoder writes is below 0x80, so decoding its text as UTF-8 changes nothing. |
| Base64Vectors.EncodeThreeBytes | js_util_module/util/js_base64.cpp:45-76 | "s13" encodes to "czEz". |
| Base64Vectors.DecodeThreeBytes | js_util_module/util/js_base64.cpp:173-237 | "czEz" decodes to "s13". |
| Base64Vectors.EncodeFourBytesBasic | js_util_module/util/js_base64.cpp:138-169 | Bytes 168, 174, 155, 255 encode to "qK6b/w==" in the standard alphabet. |
| Base64Vectors.EncodeFourBytesUrlSafe | js_util_module/util/js_base64.cpp:138-169 | The same bytes encode to "qK6b_w" in URL-safe mode: '_' for 63 and no padding. |
| Base64Vectors.UrlSafeRejectsSlash | js_util_module/util/js_base64.cpp:344-359 | URL-safe decoding of standard output holding '/' fails on the unsupported character. |
| Base64Vectors.NonAsciiInput | js_util_module/util/js_base64.cpp:194-237 | Decoding "QQ=é" fails on the unsupported character: the é arrives as 0xC3 0xA9. |
| Base64Vectors.DecodeOutLenWraps | js_util_module/util/js_base64.cpp:321-341 | For "QQ=" the code's `decodeOutLen` wraps to 2^64-1, while the corrected one is 0 and the loop writes 2 bytes. |
| BufferInt.SetThenGet | js_api_module/buffer/src/js_buffer.ts:457-474 | An indexed store is refused at or past the length. Otherwise it keeps `value & 0xFF` at that index and changes no other index. |
| BufferInt.Read | js_api_module/buffer/src/js_buffer.ts:1017-1024 | A fixed-width read fails with an "offset" range error exactly when the field does not fit in the buffer. Otherwise it is the signed or unsigned reading of the field in its byte order, within the field's range. |
| BufferInt.ReadDecodes | js_api_module/buffer/src/js_buffer.ts:1134-1160 | Every reader's formula, with its 32-bit sign fill (val or-ed with `(val & 2^(8n-1)) * m`), equals the reference two's-complement reading of its bytes. |
| JsInt.SignFillSigned | js_api_module/buffer/src/js_buffer.ts:995-1000 | For a value of one to three bytes, val or-ed with `(val & 2^(8n-1)) * m` in 32-bit bit arithmetic, with the code's multipliers 0x1fffffe, 0x1fffe and 0x1fe, is the signed reading of the value. |
| BufferInt.StoredBytesEncode | js_api_module/buffer/src/js_buffer.ts:1091-1130 | Every writer's store loop, which keeps `x & 0xFF` after `>>> 8` steps, stores the reference encoding of the value. |
| BufferInt.Write | js_api_module/buffer/src/js_buffer.ts:1003-1016 | A write succeeds exactly when the offset fits and the value is representable. The error names "offset" before "value". A success returns `offset + size` and keeps the buffer's length. |
| BufferInt.WriteAsWritten | js_api_module/buffer/src/js_buffer.ts:868-879 | The code's writer fails with an "offset" error before a "value" error, using the code's own value bounds. |
| BufferInt.SourceRangeIsFits | js_api_module/buffer/src/js_buffer.ts:978-990 | Except for the signed 64-bit writers, the code's value bounds accept exactly the representable values. |
| BufferInt.WriteAsWrittenAgrees | js_api_module/buffer/src/js_buffer.ts:978-990 | Every writer of the code except the signed 64-bit ones behaves as the corrected Write. |
| BufferInt.WriteThenRead | js_api_module/buffer/src/js_buffer.ts:1295-1322 | Reading back a field just written gives the value, and no byte outside the field changes. |
| BufferInt.ReadThenWrite | js_api_module/buffer/src/js_buffer.ts:1314-1322 | Writing back the value just read leaves the buffer unchanged. |
| BufferInt.UInt16BEStoresHighByteFirst | js_api_module/buffer/src/js_buffer.ts:1515-1529 | writeUInt16BE stores `value / 256` then `value % 256` and returns `offset + 2`. |
| BufferInt.ReadData | js_api_module/buffer/src/js_buffer.ts:782-795 | A `byteLength` outside 1 to 6 gives a "byteLength" range error. Otherwise the answer is the reading of that width, in the style's signedness and byte order. |
| BufferInt.WriteDataAsWritten | js_api_module/buffer/src/js_buffer.ts:856-866 | The code's dispatch also rejects a `byteLength` outside 1 to 6 with a "byteLength" error. |
| BufferInt.WriteData | js_api_module/buffer/src/js_buffer.ts:856-866 | The corrected dispatch succeeds exactly for a width of 1 to 6, an offset that fits, and a value representable with the style's signedness. |
| BufferInt.WriteDataThenReadData | js_api_module/buffer/src/js_buffer.ts:1084-1294 | What the corrected writeData stores, readData of the same style reads back. |
| BufferInt.WriteDataAgrees | js_api_module/buffer/src/js_buffer.ts:796-815 | The unsigned styles, and the signed big-endian style at 1, 2 and 4 bytes, behave in the code as in the corrected dispatch. |
| BufferInt.BigInt64AcceptsTwoPow63 | js_api_module/buffer/src/js_buffer.ts:868-879 | writeBigInt64BE/LE accept 2^63, which is not representable and reads back as -2^63; the corrected Write refuses it. |
| BufferInt.WriteIntLERejectsNegative | js_api_module/buffer/src/js_buffer.ts:1162-1167 | writeIntLE in the code rejects every negative value, while the corrected dispatch accepts exactly the representable signed ones. |
| BufferInt.WriteIntBE24Misread | js_api_module/buffer/src/js_buffer.ts:796-815 | writeIntBE in the code accepts 0xFFFFFF at 3 bytes, and readIntBE gives back -1; the corrected dispatch refuses it. |
| BufferBytes.Compare | js_api_module/buffer/src/js_buffer.ts:2312-2352 | The module-level compare answers -1, 0 or 1. |
| BufferBytes.CompareIsLexicographic | js_api_module/buffer/src/js_buffer.ts:2312-2352 | compare is 0 exactly on equal contents and -1 exactly when the first sorts before the second lexicographically. Swapping the arguments negates it. |
| BufferBytes.CompareInner | js_api_module/buffer/src/js_buffer.ts:1556-1587 | compareInner answers -1, 0 or 1. For a Uint8Array target it is the comparison of the two selected ranges. For a Buffer target it is 0 exactly when the native compare answers 0 and the lengths are equal. |
| BufferBytes.CompareLoop | js_api_module/buffer/src/js_buffer.ts:1572-1584 | The byte loop from any position is the comparison of the two ranges from that position. |
| BufferBytes.BufferTargetAgrees | js_api_module/buffer/src/js_buffer.ts:1561-1571 | When the native compare orders the target range against this one, reading it as `val < 0 ? 1 : -1` gives the Uint8Array answer. |
| BufferBytes.BufferTargetReversed | js_api_module/buffer/src/js_buffer.ts:1561-1571 | When the native compare orders this range against the target, every answer the common prefix decides comes out negated. |
| BufferBytes.CompareRange | js_api_module/buffer/src/js_buffer.ts:1588-1618 | The compare method fails exactly when a start lies outside 0 to 2^32 or an end past its buffer, naming that parameter. An empty source range answers 0 or -1 and an empty target range 1. Otherwise it is compareInner; for a Uint8Array target that is the comparison of the two ranges. |
| BufferBytes.Equals | js_api_module/buffer/src/js_buffer.ts:1620-1624 | equals holds only for equal lengths. Between two non-empty Buffers it is the native answer 0 over the common length. |
| BufferBytes.EqualsIsEquality | js_api_module/buffer/src/js_buffer.ts:1620-1624 | equals with a Uint8Array holds exactly for equal contents. |
| BufferBytes.EqualsBufferIsEquality | js_api_module/buffer/src/js_buffer.ts:1620-1624 | equals with a Buffer holds exactly for equal contents when the native compare answers 0 exactly on equal prefixes. |
| BufferBytes.Subarray | js_api_module/buffer/src/js_buffer.ts:1626-1637 | subarray is empty when a bound is negative or the end is not past the start. Otherwise it is the bytes from the start to the end, clipped at the length. |
| BufferBytes.SubarrayIsSlice | js_api_module/buffer/src/js_buffer.ts:1626-1637 | For non-negative bounds subarray selects what compare's range selection does, and the whole buffer is its own subarray. |
| BufferBytes.SubarraySplit | js_api_module/buffer/src/js_buffer.ts:1626-1637 | Two adjacent subarrays make up the subarray of their union. |
| BufferBytes.SubarrayOfSubarray | js_api_module/buffer/src/js_buffer.ts:1626-1637 | A subarray of a subarray is the subarray of the parent at the summed offsets, clipped at the first end. |
| BufferBytes.ReverseChunk | js_api_module/buffer/src/js_buffer.ts:1795-1811 | The inner swap loop reverses one chunk and leaves every other byte in place. |
| BufferBytes.ReverseBits | js_api_module/buffer/src/js_buffer.ts:1795-1811 | reverseBits reverses every chunk of the given width. |
| BufferBytes.Swap | js_api_module/buffer/src/js_buffer.ts:1812-1837 | swap16/32/64 fail with the buffer size error exactly when the length is not a multiple of the width. |
| BufferBytes.SwapTwice | js_api_module/buffer/src/js_buffer.ts:1812-1837 | Swapping twice restores the buffer. |
| BufferBytes.SwapChangesByteOrder | js_api_module/buffer/src/js_buffer.ts:1812-1837 | After a swap, each chunk reads big-endian as it read little-endian before. |
| BufferBytes.NormalizeEncoding | js_api_module/buffer/src/js_buffer.ts:2021-2034 | An encoding is accepted exactly when its lower-case form is listed, and the answer is a canonical name. |
| BufferBytes.NormalizeEncodingProperties | js_api_module/buffer/src/js_buffer.ts:2021-2034 | Normalising ignores letter case and is idempotent. |
| BufferBytes.HexStrToNumbers | js_api_module/buffer/src/js_buffer.ts:2104-2119 | hexStrtoNumbers throws exactly when the string is non-empty and its first pair is unreadable. |
| BufferBytes.ToHex | js_api_module/buffer/src/js_buffer.ts:2213-2222 | toHex writes two characters per byte. |
| BufferBytes.HexRoundTrip | js_api_module/buffer/src/js_buffer.ts:2104-2119 | Parsing what toHex prints gives the bytes back. |
| BufferBytes.HexStopsEarly | js_api_module/buffer/src/js_buffer.ts:2104-2119 | An odd last character is dropped, a bad pair ends the parse, a bad first pair throws, and trailing white space is trimmed inside a pair. |
| BufferBytes.FillInner | js_api_module/buffer/src/js_buffer.ts:540-572 | fill keeps the length. It fails with the type error on an unknown encoding and with the "offset" range error on an offset outside 0 to 2^32. An empty range leaves the buffer as it was. |
| BufferBytes.FillNumberSetsRange | js_api_module/buffer/src/js_buffer.ts:540-572 | Filling with a number sets each byte of the range to its low byte and no other. |
| BufferBytes.Base64ByteLength | js_api_module/buffer/src/js_buffer.ts:2302-2310 | getBase64ByteLength starts from the string's `length` in UTF-16 code units (Utf16Length), subtracts every '=' in the string, with a floor of 1, then takes `(bytes * 3) >>> 2` in 32 bits. |
| JsString.Utf16Length | js_api_module/buffer/src/js_buffer.ts:2303 | `str.length` counts UTF-16 code units: between one and two per character, exactly one each when no character lies above U+FFFF. |
| JsString.AstralLength | js_api_module/buffer/src/js_buffer.ts:2303 | a character above U+FFFF, such as U+1F600, has `length` 2. |
| BufferBytes.AlignPool | js_api_module/buffer/src/js_buffer.ts:296-301 | alignPool raises the offset to the next multiple of 8 and changes it exactly when it was not one. |
| BufferBytes.PoolAlloc | js_api_module/buffer/src/js_buffer.ts:1998-2013 | The allocation fails exactly for a size outside 0 to 2^32 and keeps the pool valid. A pooled placement ends at or before the new offset. |
| BufferBytes.PoolAllocDisjoint | js_api_module/buffer/src/js_buffer.ts:1998-2013 | Two pooled allocations in a row do not overlap. |
| UrlCommon.DecodeSafelyOut | js_api_module/url/src/js_url.ts:92-118 | Text without escapes, or given to a decoder that rejects every escape, comes back unchanged. |
| UrlCommon.UndecodableKept | js_api_module/url/src/js_url.ts:92-118 | From any point where no later escape decodes, the loop appends the rest of the text verbatim. |
| UrlCommon.DecodesOneEscape | js_api_module/url/src/js_url.ts:92-118 | A lone escape that decodes is replaced by its decoding, and the text around it is kept. |
| Url.CustomEncodeKeepsPlain | js_api_module/url/src/js_url.ts:136-147 | customEncodeURI's replacements leave text holding none of the listed escapes unchanged. |
| Url.EncodeForToString | js_api_module/url/src/js_url.ts:120-134 | After customEncodeForToString no mark `!'()~` is left and no "%20" remains; no '&' appears unless encodeURIComponent wrote one. |
| Url.EscapeMarks | js_api_module/url/src/js_url.ts:120-134 | Every mark is escaped, text without marks is unchanged, and no new characters appear apart from '%' and hex digits. |
| Url.MarkEscapes | js_api_module/url/src/js_url.ts:120-134 | The marks are written %21, %27, %28, %29 and %7E. |
| Url.EncodeParam | js_api_module/url/src/js_url.ts:213-225 | A key or value as toString writes it holds no '=', and no '&' unless the encoder wrote one. |
| Url.ParamsToString | js_api_module/url/src/js_url.ts:213-225 | toString is the `key=value` texts of the pairs joined with '&', one text per key. |
| Url.ParamsToStringParses | js_api_module/url/src/js_url.ts:213-225 | Splitting toString's output on '&' and then on '=' gives one piece per key, each holding the encoded key and value. A trailing key gets "undefined". |
| Url.ForEachFrom | js_api_module/url/src/js_url.ts:266-283 | forEach calls back once per complete pair, with (value, key). |
| Url.ForEach | js_api_module/url/src/js_url.ts:266-283 | forEach calls back once per complete pair, in order, with (value, key); a trailing key is skipped. |
| Url.IteratorMethodThrow | js_api_module/url/src/js_url.ts:482-503 | The iterable check fails exactly when some entry does not have two elements. Otherwise it lays the pairs out key, value, in order. |
| Url.ForEachOfPairs | js_api_module/url/src/js_url.ts:266-283 | Iterating params built from pairs calls back once per pair with value then key. |
| Url.SearchTextChars | js_api_module/url/src/js_url.ts:535-547 | The splitter gets the input after one optional leading '?', with every '+' read as a space. |
| Url.InitToStringSearchParams | js_api_module/url/src/js_url.ts:535-547 | There is one decoded string per piece the native splitter returns. |
| Url.ParameterProcessing | js_api_module/url/src/js_url.ts:425-451 | An empty string gives no parameters; any other string goes through initToStringSeachParams. |
| Url.Append | js_api_module/url/src/js_url.ts:167-180 | append throws the parameter type error exactly when the key or the value is missing. Otherwise the array is the native append's answer. With a parent URL, its params become that array, its search is set to the array's toString, and nothing else changes except the refreshed href; without one, no URL is touched. |
| Url.AppendIteratesLast | js_api_module/url/src/js_url.ts:167-180 | When the native append pushes the key and value onto an array of whole pairs, iteration after append ends with the new pair. |
| Url.SetHref | js_api_module/url/src/js_url.ts:846-876 | setHref makes the href the serialization of the other fields and changes nothing else. |
| Url.Serialize | js_api_module/url/src/js_url.ts:846-876 | The href opens with the protocol and is at least as long as protocol, path, search and hash together; SerializeShape gives its ending. |
| Url.SerializeShape | js_api_module/url/src/js_url.ts:846-876 | Without a host the href has no authority, except that `file:` keeps its "//". With a host it starts with the protocol and "//". It always ends with path, search and hash. |
| Url.CredentialsMarked | js_api_module/url/src/js_url.ts:846-876 | With a host and fields free of '@', the href holds '@' exactly when there is a username or a password. |
| Url.Origin | js_api_module/url/src/js_url.ts:699-711 | The origin is the stored one for a special scheme and "null" otherwise. |
| Url.FromNative | js_api_module/url/src/js_url.ts:566-621 | A parsed URL stores the parser's protocol, port, search and `protocol//host` origin, the bare host for IPv6, and a consistent href. |
| Url.OriginOfParsed | js_api_module/url/src/js_url.ts:699-711 | A parsed URL's origin is "null" exactly when its scheme is not special. |
| Url.New | js_api_module/url/src/js_url.ts:566-621 | The constructor fails with the parameter error exactly on an empty input without a base, or an empty base. A parse failure leaves a blank object, and a success is consistent. |
| Url.ParseUrl | js_api_module/url/src/js_url.ts:623-676 | parseURL gives the parameter error exactly for an empty base and the syntax error exactly when the parser fails. |
| Url.NewAgreesWithParseUrl | js_api_module/url/src/js_url.ts:566-676 | Where both accept the input, the constructor and parseURL build the same object. |
| Url.SetProtocol | js_api_module/url/src/js_url.ts:688-698 | The protocol setter is ignored for an empty scheme or a host-less `file:` URL. Otherwise it changes only the protocol and the refreshed href. |
| Url.SetUsername | js_api_module/url/src/js_url.ts:715-723 | The username setter is ignored without a host or for `file:`. Otherwise it stores the customEncodeURI form, and only the username and href change. |
| Url.SetPassword | js_api_module/url/src/js_url.ts:727-735 | The password setter behaves like the username setter, for the password. |
| Url.SetPort | js_api_module/url/src/js_url.ts:789-796 | The port setter is also ignored for an empty port; otherwise only the port and href change. |
| Url.FileUrlIgnoresCredentials | js_api_module/url/src/js_url.ts:715-796 | A `file:` URL keeps its href whatever username, password or port is assigned. |
| Uri.New | js_api_module/uri/src/js_uri.ts:66-77 | An empty input is the parameter error, and a parser complaint is the syntax error. Otherwise the answer is the parser's object. |
| Uri.CreateFromParts | js_api_module/uri/src/js_uri.ts:79-95 | createFromParts never gives the parameter error and succeeds exactly when the parser accepts its text. |
| Uri.PartsTextReadsBack | js_api_module/uri/src/js_uri.ts:79-95 | The text built from the parts reads back: the scheme before the first ':', and the encoded fragment after '#'. |
| Uri.DecodeInner | js_api_module/uri/src/js_uri.ts:206-217 | decodeSafelyInner keeps the empty string, takes decodeURIComponent's answer where there is one, and otherwise uses decodeSafelyOut. |
| Uri.EncodedAuthority | js_api_module/uri/src/js_uri.ts:478-492 | null stays null, and an authority without '[' is given as stored. |
| Uri.Authority | js_api_module/uri/src/js_uri.ts:335-351 | null stays null, and an authority without '[' is decoded whole. |
| Uri.EncodedSsp | js_api_module/uri/src/js_uri.ts:494-505 | An SSP without '[' is given as stored. |
| Uri.Ssp | js_api_module/uri/src/js_uri.ts:360-373 | An SSP without '[' is decoded whole. |
| Uri.BracketsKept | js_api_module/uri/src/js_uri.ts:335-351 | For `pre[mid]post`, the encoded getters give the text back, and the decoding getters decode `pre` and `post` but keep `[mid]`. |
| Uri.GetQueryValue | js_api_module/uri/src/js_uri.ts:155-176 | getQueryValue is null without a query. Otherwise it is null exactly when no `&`-item is named by the key, and else the value of the first such item. |
| Uri.QueryValueIsFirstMatch | js_api_module/uri/src/js_uri.ts:155-176 | getQueryValue finds a value exactly when some item is named by the key. The value is then that of the first such item, with '+' read as a space. |
| Uri.Matches | js_api_module/uri/src/js_uri.ts:247-257 | The positions, from a given one on, of the `&`-items whose decoded name is the key: each is in range and names the key, and they strictly increase. |
| Uri.MatchesComplete | js_api_module/uri/src/js_uri.ts:247-257 | Every item named by the key has its position among the matches. |
| Uri.QueryValues | js_api_module/uri/src/js_uri.ts:239-260 | The corrected getQueryValues loop has at most one value per item and is empty exactly when no item is named by the key. |
| Uri.QueryValuesInOrder | js_api_module/uri/src/js_uri.ts:239-260 | The corrected loop's entries are, in order, the values of the matching items: one entry per match, entry j the value of the j-th matching item. |
| Uri.GetQueryValues | js_api_module/uri/src/js_uri.ts:239-260 | getQueryValues as written: empty without a query, at most two values per item, and empty exactly when getQueryValue is null. |
| Uri.GetQueryValuesCorrected | js_api_module/uri/src/js_uri.ts:239-260 | The corrected getQueryValues: empty without a query; otherwise one entry per item named by the key, in the items' order, each that item's value; empty exactly when getQueryValue is null. |
| Uri.GetQueryValuesAgrees | js_api_module/uri/src/js_uri.ts:239-260 | The code and the corrected getQueryValues agree unless the key is empty and the query has an empty item. |
| Uri.GetQueryValuesRepeats | js_api_module/uri/src/js_uri.ts:248-251 | On the empty query with the empty key the code answers ['', ''] and the corrected getQueryValues ['']. |
| Uri.QueryValuesAsWritten | js_api_module/uri/src/js_uri.ts:239-260 | The code's loop gives at most two values per item, and is empty exactly when no item is named by the key. |
| Uri.QueryValuesCorrection | js_api_module/uri/src/js_uri.ts:239-260 | The code's loop and the corrected one agree unless the key is empty and an item is empty. |
| Uri.QueryValuesAsWrittenRepeats | js_api_module/uri/src/js_uri.ts:239-260 | With an empty query and an empty key, the code reports "" twice where the corrected loop reports it once. |
| Uri.ValueIsFirstOfValues | js_api_module/uri/src/js_uri.ts:155-260 | getQueryValue finds a value exactly when getQueryValues is non-empty, and both then read the first matching item. |
| Uri.PlainValue | js_api_module/uri/src/js_uri.ts:155-260 | Without '+' in an item, the two getters read the same value. |
| Uri.GetBooleanQueryValue | js_api_module/uri/src/js_uri.ts:262-275 | Without a value the answer is the default. Otherwise it is false exactly when the value lower-cased is "false" or "0". |
| Uri.BooleanSpellings | js_api_module/uri/src/js_uri.ts:262-275 | "FALSE", "False" and "0" read false; "" and "no" read true. |
| Uri.ItemsFromSplit | js_api_module/uri/src/js_uri.ts:219-237 | The items the indexOf loop visits are the '&'-pieces of the query, without a trailing empty one. |
| Uri.GetQueryNames | js_api_module/uri/src/js_uri.ts:219-237 | getQueryNames adds each item's decoded name in order, skipping repeats, and is empty without a query. |
| Uri.QueryNamesAreItemNames | js_api_module/uri/src/js_uri.ts:219-237 | The names reported are distinct and are exactly the decoded item names. |
| Uri.GetSegment | js_api_module/uri/src/js_uri.ts:285-298 | A null or empty path has no segments. |
| Uri.SegmentsOfAbsolutePath | js_api_module/uri/src/js_uri.ts:285-298 | A path `/s1/.../sn` of non-empty segments gives exactly those segments, decoded. |
| Uri.GetLastSegment | js_api_module/uri/src/js_uri.ts:277-283 | Nothing or an empty segment gives the empty string; anything else is decoded. |
| Uri.LastSegmentIsLastOfSegments | js_api_module/uri/src/js_uri.ts:277-298 | For such a path, getLastSegment is the last of getSegment. |
| LinkedList.Add | js_util_module/container/linkedlist/js_linkedlist.ts:161-174 | add puts the element at the tail and keeps the others in place. |
| LinkedList.AddFirst | js_util_module/container/linkedlist/js_linkedlist.ts:176-186 | addFirst puts the element at the head and moves the others up one. |
| LinkedList.Get | js_util_module/container/linkedlist/js_linkedlist.ts:149-160 | get answers the element at the index, and undefined exactly outside 0 to length-1. |
| LinkedList.AddThenGet | js_util_module/container/linkedlist/js_linkedlist.ts:149-174 | After add, the element is at the end and is the last, and earlier indices are unchanged. |
| LinkedList.AddFirstThenGet | js_util_module/container/linkedlist/js_linkedlist.ts:149-186 | After addFirst, the element is first and earlier elements sit one index later. |
| LinkedList.GetFirst | js_util_module/container/linkedlist/js_linkedlist.ts:313-319 | getFirst is get at 0. |
| LinkedList.GetLast | js_util_module/container/linkedlist/js_linkedlist.ts:320-326 | getLast is get at length-1. |
| LinkedList.Insert | js_util_module/container/linkedlist/js_linkedlist.ts:327-357 | insert gives a range error exactly outside 0 to length. Otherwise it places the element at the index and shifts the rest up. |
| LinkedList.Set | js_util_module/container/linkedlist/js_linkedlist.ts:358-366 | set gives a range error exactly outside 0 to length-1. Otherwise it replaces only that element and returns the new one. |
| LinkedList.RemoveByIndex | js_util_module/container/linkedlist/js_linkedlist.ts:243-277 | The corrected removeByIndex gives a range error exactly outside 0 to length-1. Otherwise it takes out the element at the index and returns it, keeping the rest in order. |
| LinkedList.RemoveByIndexAsWritten | js_util_module/container/linkedlist/js_linkedlist.ts:243-277 | The code fails exactly outside 0 to length-1 or on a one-element list. |
| LinkedList.InsertThenRemove | js_util_module/container/linkedlist/js_linkedlist.ts:243-357 | Inserting then removing at the same index restores the list and returns the element. |
| LinkedList.RemoveThenInsert | js_util_module/container/linkedlist/js_linkedlist.ts:243-357 | Removing then inserting the removed element at its index restores the list. |
| LinkedList.RemoveOnlyElement | js_util_module/container/linkedlist/js_linkedlist.ts:250-254 | On a one-element list the code throws a TypeError where the corrected version removes the element. |
| LinkedList.RemoveReturnsWrongElement | js_util_module/container/linkedlist/js_linkedlist.ts:243-277 | On [a, b, c] the code returns b for index 2 and a for index 1, where c and b are removed. |
| LinkedList.RemoveAsWrittenAgrees | js_util_module/container/linkedlist/js_linkedlist.ts:243-277 | From two elements on the code leaves the right list. It returns the removed element only at index 0, the one before it at the last index, and the head in between. |
| LinkedList.RemoveFirst | js_util_module/container/linkedlist/js_linkedlist.ts:187-193 | Over the corrected removeByIndex, removeFirst gives the empty-container error exactly on an empty list; otherwise it takes off the head. |
| LinkedList.RemoveLast | js_util_module/container/linkedlist/js_linkedlist.ts:194-200 | Over the corrected removeByIndex, removeLast gives the empty-container error exactly on an empty list; otherwise it takes off the tail. |
| LinkedList.RemoveUndoesAdd | js_util_module/container/linkedlist/js_linkedlist.ts:161-200 | Over the corrected removeByIndex, removeFirst undoes addFirst, and removeLast undoes add. |
| LinkedList.RemoveFirstAsWritten | js_util_module/container/linkedlist/js_linkedlist.ts:187-193 | The code's removeFirst fails exactly on a list of at most one element, the one-element list with the TypeError; on any other list it does what the corrected one does. |
| LinkedList.RemoveLastAsWritten | js_util_module/container/linkedlist/js_linkedlist.ts:194-200 | The code's removeLast likewise fails exactly on at most one element, and otherwise does what the corrected one does. |
| LinkedList.RemoveUndoesAddAsWritten | js_util_module/container/linkedlist/js_linkedlist.ts:161-200 | In the code, removeFirst after addFirst and removeLast after add throw the TypeError exactly when the list started empty; otherwise they give back the element and the list. |
| LinkedList.GetIndexOf | js_util_module/container/linkedlist/js_linkedlist.ts:223-232 | getIndexOf is -1 exactly when the element is absent, else its lowest index. |
| LinkedList.GetLastIndexOf | js_util_module/container/linkedlist/js_linkedlist.ts:233-242 | getLastIndexOf is -1 exactly when the element is absent, else its highest index. |
| LinkedList.Has | js_util_module/container/linkedlist/js_linkedlist.ts:207-222 | has is true exactly when the element is present. |
| LinkedList.Remove | js_util_module/container/linkedlist/js_linkedlist.ts:278-290 | The corrected remove is false and changes nothing exactly when the element is absent. Otherwise it takes out the first occurrence. |
| LinkedList.RemoveFirstFound | js_util_module/container/linkedlist/js_linkedlist.ts:291-300 | The corrected removeFirstFound throws exactly on an empty list, else acts as remove. |
| LinkedList.RemoveLastFound | js_util_module/container/linkedlist/js_linkedlist.ts:301-312 | The corrected removeLastFound throws exactly on an empty list. Otherwise it takes out the last occurrence, or changes nothing and answers false. |
| LinkedList.RemoveOneOccurrence | js_util_module/container/linkedlist/js_linkedlist.ts:278-290 | The corrected remove takes out exactly one copy of the element: the multiset loses one and the length drops by one. |
| LinkedList.RemoveAsWritten | js_util_module/container/linkedlist/js_linkedlist.ts:278-290 | The code's remove throws the TypeError exactly on the list holding just the element; otherwise it does what the corrected remove does. |
| LinkedList.RemoveFirstFoundAsWritten | js_util_module/container/linkedlist/js_linkedlist.ts:291-300 | The code's removeFirstFound fails exactly on an empty list or the list holding just the element, the latter with the TypeError; otherwise it is the corrected one. |
| LinkedList.RemoveLastFoundAsWritten | js_util_module/container/linkedlist/js_linkedlist.ts:301-312 | The code's removeLastFound fails the same way, and otherwise is the corrected one. |
| LinkedList.ConvertToArray | js_util_module/container/linkedlist/js_linkedlist.ts:367-383 | convertToArray gives the elements from head to tail. |
| LinkedList.Clone | js_util_module/container/linkedlist/js_linkedlist.ts:384-393 | clone gives a list with the same elements in the same order. |
| LinkedList.ProxyGet | js_util_module/container/linkedlist/js_linkedlist.ts:38-49 | Reading `list[i]` gives a range error exactly outside 0 to length-1, else get. |
| LinkedList.ProxySet | js_util_module/container/linkedlist/js_linkedlist.ts:50-67 | Writing `list[i]` fails exactly outside 0 to length-1, else it is set. |
| LinkedList.ProxyDelete | js_util_module/container/linkedlist/js_linkedlist.ts:68-77 | Over the corrected removeByIndex, deleting `list[i]` fails exactly outside 0 to length-1, else it is removeByIndex. |
| LinkedList.ProxyDeleteAsWritten | js_util_module/container/linkedlist/js_linkedlist.ts:68-77 | The code's delete fails exactly outside 0 to length-1 or on a one-element list, the latter with the TypeError; otherwise it is the corrected delete. |
| Deque.New | js_util_module/container/deque/js_deque.ts:98-104 | A new deque is a valid empty ring. |
| Deque.Read | js_util_module/container/deque/js_deque.ts:37-49 | Reading through the proxy fails exactly for a negative index. |
| Deque.Length | js_util_module/container/deque/js_deque.ts:105-109 | The length is below the capacity. Inside the ring it is 0 exactly when front and rear meet, and `rear - front` when rear is not behind front. |
| Deque.IsFull | js_util_module/container/deque/js_deque.ts:203-205 | A full deque, inside the ring, holds one element fewer than its capacity. |
| Deque.FullIff | js_util_module/container/deque/js_deque.ts:203-205 | isFull holds exactly when the deque holds one element fewer than its capacity. |
| Deque.GrowFull | js_util_module/container/deque/js_deque.ts:185-202 | increaseCapacity on a valid full deque ends, doubles the capacity, keeps the elements in order and leaves room. |
| Deque.IncreaseCapacity | js_util_module/container/deque/js_deque.ts:185-202 | When its loop ends, increaseCapacity doubles the capacity. |
| Deque.InsertFront | js_util_module/container/deque/js_deque.ts:110-117 | insertFront keeps the ring valid and puts the element first. |
| Deque.InsertEnd | js_util_module/container/deque/js_deque.ts:118-125 | The corrected insertEnd keeps the ring valid and puts the element last. |
| Deque.GetFirst | js_util_module/container/deque/js_deque.ts:126-132 | getFirst is undefined exactly when empty, else the first element. |
| Deque.GetLast | js_util_module/container/deque/js_deque.ts:133-139 | The corrected getLast is undefined exactly when empty, else the last element. |
| Deque.PopFirst | js_util_module/container/deque/js_deque.ts:150-159 | The corrected popFirst changes nothing when empty. Otherwise it takes off and returns the first element, keeping the ring valid. |
| Deque.PopLast | js_util_module/container/deque/js_deque.ts:160-169 | The corrected popLast changes nothing when empty. Otherwise it takes off and returns the last element, keeping the ring valid. |
| Deque.InsertThenPop | js_util_module/container/deque/js_deque.ts:110-169 | Inserting at one end then popping at that end gives back the element and the elements. |
| Deque.InsertFrontAsWritten | js_util_module/container/deque/js_deque.ts:110-117 | The code's insertFront keeps front and rear within 0 to capacity. |
| Deque.InsertEndAsWritten | js_util_module/container/deque/js_deque.ts:118-125 | The code's insertEnd keeps front and rear within 0 to capacity. |
| Deque.GetFirstAsWritten | js_util_module/container/deque/js_deque.ts:126-132 | The code's getFirst is undefined on an empty deque. |
| Deque.GetLastAsWritten | js_util_module/container/deque/js_deque.ts:133-139 | The code's getLast reads index -1, which the proxy refuses, exactly when the deque is not empty and rear is 0. |
| Deque.PopFirstAsWritten | js_util_module/container/deque/js_deque.ts:150-159 | The code's popFirst changes nothing when empty and keeps front and rear within 0 to capacity. |
| Deque.PopLastAsWritten | js_util_module/container/deque/js_deque.ts:160-169 | The code's popLast fails exactly when the deque is not empty and rear is 0. |
| Deque.FrontAgrees | js_util_module/container/deque/js_deque.ts:110-132 | At the front, insertFront and getFirst of the code do what the ring does. |
| Deque.InsertEndAgrees | js_util_module/container/deque/js_deque.ts:118-125 | The code's insertEnd does what the ring does unless rear is the last slot of a deque that is not full. |
| Deque.LastAgrees | js_util_module/container/deque/js_deque.ts:133-169 | The code's getLast and popLast do what the ring does whenever rear is not 0. |
| Deque.PopFirstAgrees | js_util_module/container/deque/js_deque.ts:150-159 | The code's popFirst does what the ring does unless front is the last slot. |
| Deque.LastAfterInsertFront | js_util_module/container/deque/js_deque.ts:133-139 | After insertFront(x) on a new deque, the code's getLast throws, where the ring answers x. |
| Deque.FirstAfterWrap | js_util_module/container/deque/js_deque.ts:150-159 | insertFront(a), insertEnd(b), popFirst() leaves front at 8 with one element, and the code's getFirst answers undefined. |
| Deque.FirstAfterNoWrap | js_util_module/container/deque/js_deque.ts:150-159 | The same calls on the ring leave b first. |
| Deque.InsertEndNeverEnds | js_util_module/container/deque/js_deque.ts:185-202 | With rear at the capacity, an insertEnd that finds the deque full never ends its growth loop. |
| Deque.EndlessGrowth | js_util_module/container/deque/js_deque.ts:118-125 | Seven insertEnd calls, one popFirst and one more insertEnd leave rear at the capacity and the deque full. The next insertEnd then never ends. |
| Stack.New | js_util_module/container/stack/js_stack.ts:93-94 | A new stack is empty with capacity 10. |
| Stack.IsEmpty | js_util_module/container/stack/js_stack.ts:136-139 | isEmpty holds exactly when the length is 0. |
| Stack.IsFull | js_util_module/container/stack/js_stack.ts:148-150 | A full stack has a whole-number capacity equal to its length. |
| Stack.Push | js_util_module/container/stack/js_stack.ts:102-109 | push answers the element and puts it on top. The capacity grows by half exactly when the stack was full. |
| Stack.Pop | js_util_module/container/stack/js_stack.ts:110-119 | pop is undefined and changes nothing exactly when empty. Otherwise it takes off the top, and the capacity stays. |
| Stack.Peek | js_util_module/container/stack/js_stack.ts:120-126 | peek answers what pop would. |
| Stack.PushThenPop | js_util_module/container/stack/js_stack.ts:102-119 | Popping after a push gives back the element and the elements. |
| Stack.PopThenPush | js_util_module/container/stack/js_stack.ts:102-119 | Pushing back the popped element restores the elements. |
| Stack.CapacityFrozen | js_util_module/container/stack/js_stack.ts:148-153 | Once the capacity is not a whole number the stack is never full, so the capacity never changes again. |
| Stack.CapacityGrowth | js_util_module/container/stack/js_stack.ts:148-153 | From a new stack the capacity goes 10, 15, 22.5 and then stays. |
| Stack.Locate | js_util_module/container/stack/js_stack.ts:127-135 | locate is -1 exactly when the element is absent, else its lowest index. |
| Stack.ProxyGet | js_util_module/container/stack/js_stack.ts:37-62 | Reading `stack[i]` fails exactly outside 0 to length-1, else it answers that element. |
| Stack.ProxySet | js_util_module/container/stack/js_stack.ts:37-62 | Writing `stack[i]` fails exactly outside 0 to length-1, else it changes only that slot. |
| Stack.SetThenGet | js_util_module/container/stack/js_stack.ts:37-62 | A write then a read of the same index answers the written value. |
| TaskTypes.PriorityOf | platform/utils.h:21-28 | A number is a priority exactly from 0 up to NUMBER (4), and its ordinal is the number. |
| TaskTypes.PriorityRoundTrip | platform/utils.h:21-28 | Every priority comes back from its number. |
| TaskGroup.Construct | js_concurrent_module/taskpool/task_group.cpp:27-69 | The constructor fails exactly for more than one argument or a non-string one. Otherwise the group is new and empty, and named by the argument or "". |
| TaskGroup.AddTask | js_concurrent_module/taskpool/task_group.cpp:80-141 | addTask gives the type error with no argument or a group already started. It fails exactly on a bad argument, an unknown or refused task, or a failed function task. A success appends one member and changes nothing else in the pool. A task object's id is appended and its pool entry is retyped as a group common task with the group's id, every other field kept. A function's generated task is stored under its id with the group's id. |
| TaskGroup.GetTaskIndex | js_concurrent_module/taskpool/task_group.cpp:143-153 | The loop answers the position of the first occurrence of the id, or the member count. |
| TaskGroup.IndexIn | js_concurrent_module/taskpool/task_group.cpp:143-153 | That position holds the id and no earlier one does. |
| TaskGroup.AddedIsFound | js_concurrent_module/taskpool/task_group.cpp:80-153 | A new member is found at the old member count. |
| TaskGroup.EnqueueMembers | js_concurrent_module/taskpool/task_group.cpp:155-185 | The walk over the members extends the log with one Enqueue per member, in order, at the given priority. It stops at the first member without a stored task. |
| TaskGroup.EnqueuedWaiting | js_concurrent_module/taskpool/task_group.cpp:155-185 | Every member the walk enqueued is left waiting. |
| TaskGroup.NotifyGroupTask | js_concurrent_module/taskpool/task_group.cpp:155-185 | With nothing pending nothing changes. Otherwise the first pending execution becomes current, the group is waiting, and the members are enqueued at its priority. |
| TaskGroup.NoAddAfterNotify | js_concurrent_module/taskpool/task_group.cpp:80-185 | Once an execution is promoted, addTask gives the type error. |
| TaskGroup.NotifyInOrder | js_concurrent_module/taskpool/task_group.cpp:155-185 | Promoting executions one by one takes them in queue order. |
| TaskGroup.CancelPendingGroup | js_concurrent_module/taskpool/task_group.cpp:187-211 | Every pending execution's promise is rejected, in queue order, and the queue is emptied; the tasks are untouched. |
| TaskGroup.CancelPendingIdempotent | js_concurrent_module/taskpool/task_group.cpp:187-211 | Cancelling twice is cancelling once. |
| TaskGroup.RejectResult | js_concurrent_module/taskpool/task_group.cpp:222-229 | The current execution's promise is rejected and the current execution cleared. |
| TaskGroup.CancelGroupTask | js_concurrent_module/taskpool/task_group.cpp:213-220 | Something changes exactly when there is a current execution whose members have all finished. It is then rejected and cleared. |
| TaskGroup.RejectedIsSettled | js_concurrent_module/taskpool/task_group.cpp:213-229 | Once the current execution is rejected, cancelling the group task again changes nothing. |
| TaskGroup.CancelGroupTaskIdempotent | js_concurrent_module/taskpool/task_group.cpp:213-229 | Cancelling the group task twice is cancelling it once. |
| SequenceRunner.PriorityArg | js_concurrent_module/taskpool/sequence_runner.cpp:64-90 | A number argument is a priority exactly when its uint32 value is below NUMBER, and the priority has that value. |
| SequenceRunner.ParseArgs | js_concurrent_module/taskpool/sequence_runner.cpp:54-90 | The argument checks, per count: two arguments must be a string then a valid priority number; one must be a string or a valid number. Any other count keeps the empty name and the default priority. |
| SequenceRunner.PriorityBoundEnforced | js_concurrent_module/taskpool/sequence_runner.cpp:64-90 | A priority from NUMBER on is refused with one or two arguments. |
| SequenceRunner.Construct | js_concurrent_module/taskpool/sequence_runner.cpp:54-110 | Bad arguments give the type error, and a name selects the shared runner. Without a name the runner is new, idle, empty and at the parsed priority. |
| SequenceRunner.Execute | js_concurrent_module/taskpool/sequence_runner.cpp:112-165 | execute gives the type error without a task object. A success starts the task on an idle runner, or queues it on a busy one. The task then belongs to the runner and no other task changes. |
| SequenceRunner.ExecuteInOrder | js_concurrent_module/taskpool/sequence_runner.cpp:112-165 | execute keeps a runner that holds queued tasks only while it runs one. |
| SequenceRunner.TwoExecutes | js_concurrent_module/taskpool/sequence_runner.cpp:151-163 | Of two tasks given in turn to an idle runner, the first starts and is enqueued, and the second waits in the queue. |
| SequenceRunner.Destruct | js_concurrent_module/taskpool/sequence_runner.cpp:172-182 | A global runner goes to the global destructor. A local one leaves the registry, and every other entry stays. |
| SequenceRunner.DestructUndoesRegister | js_concurrent_module/taskpool/sequence_runner.cpp:172-182 | Destroying a local runner leaves the registry as it was before the runner was entered. |

## Left out

- The NAPI plumbing is not modelled: argument fetching, `napi_throw_error` messages, promises and work queues, and memory allocation failures. Every allocation is taken to succeed.
- The asynchronous Base64 entry points (`Encode`, `Decode`, `EncodeToString` and their callbacks) only add a promise around the synchronous computation. The lookup they use differently, `Finds` at js_base64.cpp:642-657, is modelled as `FindsAsync`.
- Base64 MIME modes: js_base64.cpp treats `MIME` as `BASIC` and `MIME_URL_SAFE` as `BASIC_URL_SAFE`, so the model only asks whether a mode is URL-safe.
- Buffer: floating-point reads and writes (`readDoubleBE`, `writeFloatLE`, …) are left out because the model has no IEEE 754. The native string encoder that `fill` calls for a string value enters as a parameter.
- Buffer: `typeErrorCheck`, the `offset === null` default and non-integral numbers are left out. Offsets and values are integers, because the code's own type checks come before everything modelled.
- URL and URI parsing, host handling and percent-encoding are done by native objects. They enter as parameters (`Env`, `Parser`, `Encoder`, `Decoder`, `NativeSetter`).
- URL search params: `sort`, `delete`, `getAll`, `entries` and the other iterators are left out as outside the named core. `append`, `toString` and `forEach` are modelled on the flat key/value array.
- Uri.GetSegment: its contract covers a null or empty path and, through SegmentsOfAbsolutePath, absolute paths of non-empty segments. Paths with empty pieces are modelled but stated only through DecodedSegments.
- Containers: `forEach`, `replaceAllElements`, the `[Symbol.iterator]` generators and `checkBindError` are left out. The first three are callbacks and generators over the same element sequence; the last is a `this`-binding check.
- LinkedList.ProxyGet, Stack.ProxyGet, Deque.Read: `errorUtil.checkRangeError` is not part of this model. It is taken to throw a RangeError for an index outside the range it is given.
- The containers' `length` fields are modelled as the sequence length, not as separate counters.
- Stack capacity is a real number because `increaseCapacity` multiplies it by 1.5. Element counts are exact.
- Taskpool: TaskManager, TaskGroupManager, `CanForTaskGroup`, `CanForSequenceRunner`, `GenerateFunctionTask`, `GetTaskInfoPromise`, `CreateOrGetGlobalRunner` and `ExecuteTaskImmediately` are not part of this model. Their answers are parameters (`canForGroup`, `generated`, `canForRunner`, `promised`, `global`). An enqueue is an event in the pool's log.
- Taskpool: reference counts of the managers, the sub-environment counters, locks, and `TaskGroupDestructor` are left out, because they are memory management rather than behaviour the callers observe.
- SequenceRunner.Execute: when `GetTaskInfoPromise` fails the code has already set the task's runner id. The model answers `Refused` without that partial update. The task type `SEQRUNNER_TASK` that the code passes to `GetTaskInfoPromise` is not modelled either, since what that call does with it is not part of this model; a successful execute keeps the task's kind.
- TaskGroup.GetTaskIndex: the uint32 width of the id is not modelled; ids are natural numbers.
- Deque.IncreaseCapacity: the `while (true)` growth loop is given a fuel of `capacity + 1` steps (`Gather`), and its answer is None when the loop has not ended by then. The position it steps through takes at most `capacity` values, so a loop that has not ended by then never ends. That periodicity is stated here, not proved; GatherNeverMeets proves the endless case that the code reaches, `rear == capacity`.
- Base64.EqualCount: on a one-character input the code also reads the byte before the input (`input + inputLen - 2`), which is outside it. That read's outcome is undefined, so the model only looks inside the input.
- Base64.DecodeSync: a Dafny string cannot hold a lone surrogate, so the replacement that `napi_get_value_string_utf8` makes for one is not modelled.
- BufferBytes.CompareInner: the native compare of two Buffers is a parameter, and which range it orders first is not known here. Both readings are stated (BufferTargetAgrees, BufferTargetReversed), so its exact answer is not promised beyond the 0 case.
- BufferBytes.CompareRange: for a Buffer target it promises what CompareInner does, and no more.
- BufferBytes.Equals: with a Buffer it promises equality of contents only under the assumption about the native compare that EqualsBufferIsEquality states.
- BufferBytes.EqualsIsEquality: covers a Uint8Array argument; the Buffer case is EqualsBufferIsEquality.
- LinkedList.RemoveFirst: states the corrected removal. The code throws on a one-element list, which RemoveFirstAsWritten models.
- LinkedList.RemoveLast: states the corrected removal. The code throws on a one-element list, which RemoveLastAsWritten models.
- LinkedList.RemoveUndoesAdd: states the corrected callers. The code throws when the list started empty, which RemoveUndoesAddAsWritten states.
- LinkedList.Remove: states the corrected removal. The code throws on the list holding just the element, which RemoveAsWritten models.
- LinkedList.RemoveFirstFound: states the corrected removal; RemoveFirstFoundAsWritten models the code's throw on the list holding just the element.
- LinkedList.RemoveLastFound: states the corrected removal; RemoveLastFoundAsWritten models the code's throw on the list holding just the element.
- LinkedList.RemoveOneOccurrence: is about the corrected remove, which the code follows on every list but the one holding just the element.
- LinkedList.ProxyDelete: states the corrected delete. The code throws on a one-element list, which ProxyDeleteAsWritten models.
- SequenceRunner.PriorityArg: numbers are integers, wrapped into 32 bits as `GetUint32Value` does. A fractional or non-finite priority, which it truncates or maps to 0, is not modelled.
- SequenceRunner.ParseArgs: the same; its number arguments are integers.
- Uri.QueryValues: its own contract gives the size and the empty case; the entries, in order, are stated by QueryValuesInOrder and GetQueryValuesCorrected.
- JsString: positions (`indexOf`, `split`, slicing) count characters, not UTF-16 code units. The code units are modelled only where a count is the answer, in getBase64ByteLength. Positions agree whenever no character lies above U+FFFF.
- LinkedList.RemoveByIndexAsWritten: on a one-element list it models the TypeError only. The state a caller catching it would see is not modelled: the code has already cleared `head` (js_linkedlist.ts:250) and kept `tail` and `elementNum == 1`.
- Url.Append: the native `urlClass.append` is a parameter (`NativeAppend`). AppendIteratesLast assumes it pushes the key then the value.

## Findings

| source | as written | input that shows it | evidently intended | confidence | as-written member | corrected member |
|---|---|---|---|---|---|---|
| js_util_module/util/js_base64.cpp:321-341 | `decodeOutLen -= equalCount` on a `size_t` that can be below the padding count | decoding "QQ=": retLen is 0 and one '=' takes it to 2^64-1 | the output length never below zero and never past the bytes written | not executed | Base64Vectors.DecodeOutLenWraps | Base64.DecodeOutLenFits |
| js_api_module/buffer/src/js_buffer.ts:868-879 | writeBigInt64BE/LE check `value <= 2n ** 63n` | writeBigInt64BE(2n ** 63n) is accepted and reads back as -2^63 | an upper bound of `2n ** 63n - 1n` | not executed | BufferInt.BigInt64AcceptsTwoPow63 | BufferInt.WriteThenRead |
| js_api_module/buffer/src/js_buffer.ts:856-866 | writeData sends `intLE` to the unsigned little-endian writers | writeIntLE(-1, 0, 2) throws a range error | signed values of the width accepted | not executed | BufferInt.WriteIntLERejectsNegative | BufferInt.WriteDataThenReadData |
| js_api_module/buffer/src/js_buffer.ts:796-815 | writeIntBEType uses the unsigned writers for 3, 5 and 6 bytes | writeIntBE(0xFFFFFF, 0, 3) is accepted and readIntBE reads -1 | the signed range of the width | not executed | BufferInt.WriteIntBE24Misread | BufferInt.WriteDataThenReadData |
| js_api_module/uri/src/js_uri.ts:239-260 | an empty item pushes `''` for the empty key, then pushes again | getQueryValues('') on an empty query answers ['', ''] | one value per matching item | not executed | Uri.GetQueryValuesRepeats | Uri.GetQueryValuesCorrected |
| js_util_module/container/linkedlist/js_linkedlist.ts:250-254 | removing the only node sets `this.head.prev` after `head` became undefined | removeByIndex(0) on [x] throws a TypeError, after `head` is cleared while `tail` and the count of 1 stay | the list becomes empty and x is returned | not executed | LinkedList.RemoveOnlyElement | LinkedList.RemoveByIndex |
| js_util_module/container/linkedlist/js_linkedlist.ts:243-277 | the returned element is read from the wrong node | removeByIndex(2) on [a, b, c] returns b, and removeByIndex(1) returns a | the removed element is returned | not executed | LinkedList.RemoveReturnsWrongElement | LinkedList.InsertThenRemove |
| js_util_module/container/deque/js_deque.ts:133-139 | getLast reads `this[this.rear - 1]` without wrapping | insertFront(x) on a new deque, then getLast() reads index -1 and throws; popLast (js_deque.ts:160-169) reads the same slot | the slot before rear around the ring | not executed | Deque.LastAfterInsertFront | Deque.GetLast |
| js_util_module/container/deque/js_deque.ts:150-159 | popFirst steps `front` modulo `capacity + 1` | insertFront(a), insertEnd(b), popFirst() leaves front at 8, and getFirst() answers undefined | front modulo capacity, so b is first | not executed | Deque.FirstAfterWrap | Deque.PopFirst |
| js_util_module/container/deque/js_deque.ts:118-125 | insertEnd steps `rear` modulo `capacity + 1`, and increaseCapacity then searches for rear modulo capacity | seven insertEnd, one popFirst and one more insertEnd put rear at the capacity; the next insertEnd loops forever | rear modulo capacity, so growth always ends | not executed | Deque.EndlessGrowth | Deque.InsertEnd |

=== FILE: Base64.dfy ===
/** Base64 codec of the util module (js_util_module/util/js_base64.cpp): the synchronous
    encoder and decoder, the alphabet lookups of both the synchronous and the asynchronous
    paths, and the argument checks.  Bytes are `bv8`; the source's `size_t bitWise`
    accumulator is a `bv32`, which is wide enough because no intermediate value exceeds
    25 bits. */
module Base64 {
  import opened Wrappers

  /** The four encoding types; only "URL-safe or not" changes the behaviour. */
  datatype Type = Basic | Mime | BasicUrlSafe | MimeUrlSafe {
    predicate UrlSafe() {
      this == BasicUrlSafe || this == MimeUrlSafe
    }
  }

  /** The errors the codec throws. */
  datatype Error =
    | ParameterError        // "401": argument of the wrong type or empty array
    | EncodeNull            // "-1": the encoder produced no buffer
    | UnsupportedCharacter  // "-1": a character outside the active alphabet
    | EmptyString           // "-2": an empty string given to the decoder

  function Code(e: Error): string {
    match e
    case ParameterError => "401"
    case EncodeNull => "-1"
    case UnsupportedCharacter => "-1"
    case EmptyString => "-2"
  }

  // ---------------------------------------------------------------------------------
  // Alphabets
  // ---------------------------------------------------------------------------------

  /** Character for sextet value `v`: section 4 of RFC 4648, or section 5 when `url`. */
  function AlphabetChar(v: nat, url: bool): char
    requires v < 64
  {
    if v < 26 then ('A' as int + v) as char
    else if v < 52 then ('a' as int + (v - 26)) as char
    else if v < 62 then ('0' as int + (v - 52)) as char
    else if v == 62 then (if url then '-' else '+')
    else (if url then '_' else '/')
  }

  /** Index of '=' in the standard table (the source's BIT_FLG). */
  const PadIndex: nat := 64

  /** BASE: the 64 standard characters followed by '=' (65 entries). */
  function BaseTable(): seq<char> {
    seq(64, i requires 0 <= i < 64 => AlphabetChar(i, false)) + "="
  }

  /** BASEURL: the 64 URL-safe characters, without '='. */
  function UrlTable(): seq<char> {
    seq(64, i requires 0 <= i < 64 => AlphabetChar(i, true))
  }

  function Table(t: Type): (table: seq<char>)
    ensures |table| == if t.UrlSafe() then 64 else 65
  {
    if t.UrlSafe() then UrlTable() else BaseTable()
  }

  /** Reference inverse of the tables, computed from character ranges. */
  function SextetOf(c: char, url: bool): Option<nat> {
    if 'A' <= c <= 'Z' then Some(c as int - 'A' as int)
    else if 'a' <= c <= 'z' then Some(c as int - 'a' as int + 26)
    else if '0' <= c <= '9' then Some(c as int - '0' as int + 52)
    else if c == (if url then '-' else '+') then Some(62)
    else if c == (if url then '_' else '/') then Some(63)
    else if !url && c == '=' then Some(PadIndex)
    else None
  }

  lemma TableEntry(t: Type, i: nat, c: char)
    requires i < |Table(t)|
    ensures Table(t)[i] == c <==> SextetOf(c, t.UrlSafe()) == Some(i)
  {
  }

  /** Linear search of `table` for `c` from position `i`: the synchronous `Finds` loop. */
  function FindFrom(table: seq<char>, c: char, i: nat): Option<nat>
    requires i <= |table|
    decreases |table| - i
  {
    if i == |table| then None
    else if table[i] == c then Some(i)
    else FindFrom(table, c, i + 1)
  }

  lemma {:induction false} FindFromTable(t: Type, c: char, i: nat)
    requires i <= |Table(t)|
    ensures FindFrom(Table(t), c, i) ==
      match SextetOf(c, t.UrlSafe())
      case Some(v) => if i <= v < |Table(t)| then Some(v) else None
      case None => None
    decreases |Table(t)| - i
  {
    if i < |Table(t)| {
      TableEntry(t, i, c);
      FindFromTable(t, c, i + 1);
    }
  }

  /** Synchronous lookup: the first table index holding `c`, or failure (error "-1").
      The URL-safe table has no '+', '/' or '='. */
  function Finds(c: char, t: Type): (r: Option<nat>)
    ensures r == SextetOf(c, t.UrlSafe())
    ensures r.Some? ==> r.value < |Table(t)| && Table(t)[r.value] == c
  {
    FindFromTable(t, c, 0);
    FindFrom(Table(t), c, 0)
  }

  /** The asynchronous lookup loop: remembers the last matching index, starting from 0. */
  function LastMatch(table: seq<char>, c: char, i: nat, couts: nat): nat
    requires i <= |table|
    decreases |table| - i
  {
    if i == |table| then couts
    else LastMatch(table, c, i + 1, if table[i] == c then i else couts)
  }

  lemma {:induction false} LastMatchTable(t: Type, c: char, i: nat, couts: nat)
    requires i <= |Table(t)|
    ensures LastMatch(Table(t), c, i, couts) ==
      match SextetOf(c, t.UrlSafe())
      case Some(v) => if i <= v < |Table(t)| then v else couts
      case None => couts
    decreases |Table(t)| - i
  {
    if i < |Table(t)| {
      TableEntry(t, i, c);
      LastMatchTable(t, c, i + 1, if Table(t)[i] == c then i else couts);
    }
  }

  /** Asynchronous lookup: never fails; an unknown character maps to index 0. */
  function FindsAsync(c: char, t: Type): (r: nat)
    ensures r < |Table(t)|
    ensures r == Finds(c, t).GetOr(0)
  {
    LastMatchTable(t, c, 0, 0);
    LastMatch(Table(t), c, 0, 0)
  }

  // ---------------------------------------------------------------------------------
  // Encoding
  // ---------------------------------------------------------------------------------

  /** The 24-bit group word: the bytes packed big-endian (`bitWise = (bitWise << 8) | byte`
      per byte), then shifted left by 8 bits per missing byte. */
  function GroupWord(g: seq<bv8>): bv32
    requires 1 <= |g| <= 3
  {
    if |g| == 1 then (g[0] as bv32) << 16
    else if |g| == 2 then (((g[0] as bv32) << 8) | (g[1] as bv32)) << 8
    else (((((g[0] as bv32) << 8) | (g[1] as bv32)) << 8) | (g[2] as bv32))
  }

  /** A table index: six bits, as the mask `& 0x3F` leaves them. */
  type SixBits = x: bv32 | x < 64

  /** Sextet `i` (0 = most significant) of a 24-bit word: `(w >> (3 - i) * 6) & 0x3F`. */
  function Sextet(w: bv32, i: nat): SixBits
    requires i < 4
  {
    if i == 0 then (w >> 18) & 0x3F
    else if i == 1 then (w >> 12) & 0x3F
    else if i == 2 then (w >> 6) & 0x3F
    else w & 0x3F
  }

  /** Table indices emitted for a group of `k` bytes: the first `k + 1` sextets. */
  function GroupSextets(g: seq<bv8>): (s: seq<SixBits>)
    requires 1 <= |g| <= 3
    ensures |s| == |g| + 1
  {
    var w := GroupWord(g);
    var all := [Sextet(w, 0), Sextet(w, 1), Sextet(w, 2), Sextet(w, 3)];
    all[..|g| + 1]
  }

  /** Table characters for a sequence of sextet values. */
  function TableChars(s: seq<SixBits>, t: Type): (r: seq<char>)
    ensures |r| == |s|
    ensures forall k :: 0 <= k < |s| ==> r[k] == Table(t)[s[k] as int]
  {
    if |s| == 0 then [] else [Table(t)[s[0] as int]] + TableChars(s[1..], t)
  }

  /** '=' padding of a short final group: none in URL-safe mode. */
  function Padding(k: nat, t: Type): (r: seq<char>)
    requires 1 <= k <= 3
    ensures |r| == if t.UrlSafe() then 0 else 3 - k
    ensures forall j :: 0 <= j < |r| ==> r[j] == '='
  {
    if t.UrlSafe() || k == 3 then [] else if k == 2 then "=" else "=="
  }

  /** One pass of the outer encode loop over a group of up to three bytes. */
  function EncodeGroup(g: seq<bv8>, t: Type): (r: seq<char>)
    requires 1 <= |g| <= 3
    ensures |r| == if t.UrlSafe() then |g| + 1 else 4
  {
    TableChars(GroupSextets(g), t) + Padding(|g|, t)
  }

  /** Size of the buffer the encoder allocates: `(n / 3) * 4`, plus 4 if `n % 3 > 0`. */
  function OutputLen(n: nat): nat {
    (n / 3) * 4 + (if n % 3 > 0 then 4 else 0)
  }

  /** `outputLen` after the URL-safe shrink: 2 less for one trailing byte, 1 less for two. */
  function EncodedLength(n: nat, t: Type): nat {
    if t.UrlSafe() && n % 3 == 1 then OutputLen(n) - 2
    else if t.UrlSafe() && n % 3 == 2 then OutputLen(n) - 1
    else OutputLen(n)
  }

  /** Every character is one of the 64 of the table or '='. */
  predicate InAlphabet(r: seq<char>, t: Type) {
    forall k :: 0 <= k < |r| ==> r[k] == '=' || r[k] in Table(t)[..64]
  }

  /** The encoder proper (EncodeAchieveInner): groups of three bytes, last group short.
      Its text is drawn from the alphabet, and with padding comes in whole quadruples. */
  function Encode(input: seq<bv8>, t: Type): (r: seq<char>)
    ensures InAlphabet(r, t)
    ensures !t.UrlSafe() ==> |r| % 4 == 0
    decreases |input|
  {
    if |input| == 0 then []
    else if |input| <= 3 then GroupAlphabet(input, t); EncodeGroup(input, t)
    else
      var g, rest := EncodeGroup(input[..3], t), Encode(input[3..], t);
      GroupAlphabet(input[..3], t);
      AlphabetConcat(g, rest, t);
      g + rest
  }

  /** The characters of one group are drawn from the alphabet. */
  lemma GroupAlphabet(g: seq<bv8>, t: Type)
    requires 1 <= |g| <= 3
    ensures InAlphabet(EncodeGroup(g, t), t)
  {
    var s := GroupSextets(g);
    var c, p := TableChars(s, t), Padding(|g|, t);
    forall k | 0 <= k < |c|
      ensures c[k] in Table(t)[..64]
    {
      assert c[k] == Table(t)[..64][s[k] as int];
    }
    AlphabetConcat(c, p, t);
  }

  lemma AlphabetConcat(a: seq<char>, b: seq<char>, t: Type)
    requires InAlphabet(a, t) && InAlphabet(b, t)
    ensures InAlphabet(a + b, t)
  {
    forall k | |a| <= k < |a| + |b|
      ensures (a + b)[k] == b[k - |a|]
    {
    }
  }

  /** The argument of `encodeSync`/`encodeToStringSync`. */
  datatype EncodeArg = Uint8Array(bytes: seq<bv8>) | OtherValue

  /** EncodeSync / EncodeToStringSync: a non-empty Uint8Array is encoded; anything else
      throws 401; an empty output buffer (EncodeAchieve returning null) throws "-1". */
  function EncodeSync(arg: EncodeArg, t: Type): (r: Result<seq<char>, Error>)
    ensures r.Failure? <==> !(arg.Uint8Array? && |arg.bytes| > 0)
    ensures r.Failure? ==> r.error == ParameterError
    ensures r.Success? ==> r.value == Encode(arg.bytes, t)
  {
    if !arg.Uint8Array? || |arg.bytes| == 0 then Failure(ParameterError)
    else if OutputLen(|arg.bytes|) == 0 then Failure(EncodeNull)
    else Success(Encode(arg.bytes, t))
  }

  // ---------------------------------------------------------------------------------
  // Decoding
  // ---------------------------------------------------------------------------------

  /** `equalCount`: how many of the last two characters are '='.  For a one-character
      input the source also reads the byte before the input; the model does not. */
  function EqualCount(input: seq<char>): (r: nat)
    requires |input| > 0
    ensures r <= 2 && r <= |input|
    ensures r == 2 <==> |input| >= 2 && input[|input| - 1] == '=' && input[|input| - 2] == '='
    ensures r == 0 <==> input[|input| - 1] != '=' && (|input| < 2 || input[|input| - 2] != '=')
  {
    (if input[|input| - 1] == '=' then 1 else 0) + (if |input| >= 2 && input[|input| - 2] == '=' then 1 else 0)
  }

  /** DecodeOut: the allocation size and the amount taken off `decodeOutLen`. */
  function DecodeOut(equalCount: nat, retLen: nat): (r: (nat, nat))
    ensures r.0 > 0
    ensures r.1 == if equalCount <= 2 then equalCount else 0
  {
    if equalCount == 0 then (retLen + 4, 0)
    else if equalCount == 1 then (retLen + 4, 1)
    else if equalCount == 2 then (retLen + 3, 2)
    else (retLen + 2, 0)
  }

  /** `decodeOutLen` computed over the integers from the input length and the padding
      count: `(len / 4) * 3` minus the padding, plus 1 or 2 in URL-safe mode for a
      length of 2 or 3 modulo 4.  May be negative. */
  function LengthFormula(len: nat, equalCount: nat, url: bool): int {
    var retLen := (len / 4) * 3;
    var taken := DecodeOut(equalCount, retLen).1;
    var extra := if !url then 0 else if len % 4 == 2 then 1 else if len % 4 == 3 then 2 else 0;
    retLen - taken + extra
  }

  function DecodeOutLenRaw(input: seq<char>, t: Type): int
    requires |input| > 0
  {
    LengthFormula(|input|, EqualCount(input), t.UrlSafe())
  }

  /** `decodeOutLen` as the source computes it, in `size_t` (wraps below zero). */
  function DecodeOutLenAsWritten(input: seq<char>, t: Type): nat
    requires |input| > 0
  {
    DecodeOutLenRaw(input, t) % 0x1_0000_0000_0000_0000
  }

  /** `decodeOutLen` with the wrap removed: never below zero. */
  function DecodeOutLen(input: seq<char>, t: Type): nat
    requires |input| > 0
  {
    var raw := DecodeOutLenRaw(input, t);
    if raw < 0 then 0 else raw
  }

  /** The group word of up to four indices (`bitWise = (bitWise << 6) | index` per
      index), shifted left by 6 bits per missing index. */
  function GroupBits(idx: seq<bv32>): bv32
    requires 1 <= |idx| <= 4
  {
    if |idx| == 1 then idx[0] << 18
    else if |idx| == 2 then ((idx[0] << 6) | idx[1]) << 12
    else if |idx| == 3 then ((((idx[0] << 6) | idx[1]) << 6) | idx[2]) << 6
    else (((((idx[0] << 6) | idx[1]) << 6) | idx[2]) << 6) | idx[3]
  }

  /** Byte `i` (0 = most significant) of a 24-bit word: `(w >> (2 - i) * 8) & 0xFF`. */
  function ByteOf(w: bv32, i: nat): bv8
    requires i < 3
  {
    if i == 0 then ((w >> 16) & 0xFF) as bv8
    else if i == 1 then ((w >> 8) & 0xFF) as bv8
    else (w & 0xFF) as bv8
  }

  /** One pass of the outer decode loop: a group of `temp` indices yields
      `min(temp, 3)` bytes. */
  function DecodeGroup(idx: seq<bv32>): (r: seq<bv8>)
    requires 1 <= |idx| <= 4
    ensures |r| == if |idx| == 4 then 3 else |idx|
  {
    var w := GroupBits(idx);
    var all := [ByteOf(w, 0), ByteOf(w, 1), ByteOf(w, 2)];
    if |idx| == 4 then all else all[..|idx|]
  }

  /** Bytes written for `n` indices: three per full group, one per index of a short one. */
  function ChunkBytes(n: nat): nat {
    (n / 4) * 3 + n % 4
  }

  /** The decode loop over the data characters' indices, four at a time. */
  function DecodeChunks(idx: seq<bv32>): (r: seq<bv8>)
    ensures |r| == ChunkBytes(|idx|)
    decreases |idx|
  {
    if |idx| == 0 then []
    else if |idx| <= 4 then DecodeGroup(idx)
    else DecodeGroup(idx[..4]) + DecodeChunks(idx[4..])
  }

  /** Some character of `data` is in neither alphabet of the table. */
  predicate Unsupported(data: seq<char>, t: Type) {
    exists k :: 0 <= k < |data| && Finds(data[k], t).None?
  }

  /** The characters before the trailing '=' padding. */
  function DataPart(input: seq<char>): (data: seq<char>)
    requires |input| > 0
    ensures |data| == |input| - EqualCount(input)
    ensures forall k :: 0 <= k < |data| ==> data[k] == input[k]
  {
    input[..|input| - EqualCount(input)]
  }

  /** Table indices of every character, or None at the first unsupported one. */
  function Indices(data: seq<char>, t: Type): (r: Option<seq<nat>>)
    ensures r.None? <==> Unsupported(data, t)
    ensures r.Some? ==> |r.value| == |data|
    ensures r.Some? ==> forall k :: 0 <= k < |data| ==> Finds(data[k], t) == Some(r.value[k])
  {
    if |data| == 0 then Some([])
    else match Finds(data[0], t)
      case None => None
      case Some(i) =>
        match Indices(data[1..], t)
        case None => None
        case Some(rest) => Some([i] + rest)
  }

  /** The indices as `size_t` words (`static_cast<size_t>(findsData)`). */
  function Words(idx: seq<nat>): (r: seq<bv32>)
    requires forall k :: 0 <= k < |idx| ==> idx[k] < 65
    ensures |r| == |idx|
  {
    seq(|idx|, k requires 0 <= k < |idx| => idx[k] as bv32)
  }

  /** The bytes the decode loop writes never run short of `decodeOutLen`. */
  lemma DecodeOutLenFits(input: seq<char>, t: Type)
    requires |input| > 0
    ensures DecodeOutLen(input, t) <= ChunkBytes(|input| - EqualCount(input))
  {
  }

  /** DecodeAchieve: decode the characters before the trailing '=' and keep the first
      `decodeOutLen` bytes; an unsupported character is error "-1". */
  function DecodeAchieve(input: seq<char>, t: Type): (r: Result<seq<bv8>, Error>)
    requires |input| > 0
    ensures r.Failure? <==> Unsupported(DataPart(input), t)
    ensures r.Failure? ==> r.error == UnsupportedCharacter
    ensures r.Success? ==> |r.value| == DecodeOutLen(input, t)
  {
    var data := DataPart(input);
    match Indices(data, t)
    case None => Failure(UnsupportedCharacter)
    case Some(idx) =>
      DecodeOutLenFits(input, t);
      var bytes := DecodeChunks(Words(idx));
      Success(bytes[..DecodeOutLen(input, t)])
  }

  /** The argument of `decodeSync`: a string, a typed array of bytes, or anything else. */
  datatype DecodeArg = Text(s: seq<char>) | Uint8Bytes(b: seq<bv8>) | OtherInput

  function BytesAsChars(b: seq<bv8>): (r: seq<char>)
    ensures |r| == |b|
    ensures forall k :: 0 <= k < |b| ==> r[k] as int == b[k] as int
  {
    seq(|b|, k requires 0 <= k < |b| => (b[k] as int) as char)
  }

  /** A byte value as the decoder's `char`. */
  function ByteChar(x: nat): (r: char)
    requires x < 0x100
    ensures r as int == x
  {
    x as char
  }

  /** A continuation byte: `10` followed by the low six bits of `x`. */
  function ContByte(x: nat): (r: char)
    ensures 0x80 <= r as int < 0x100
  {
    ByteChar(0x80 + x % 0x40)
  }

  /** The UTF-8 encoding of one character (section 3 of RFC 3629), each byte as a `char`:
      one byte below 0x80, otherwise a lead byte and continuation bytes, all of them 0x80
      or above. */
  function Utf8Char(c: char): (r: seq<char>)
    ensures c as int < 0x80 ==> r == [c]
    ensures c as int >= 0x80 ==> 2 <= |r| <= 4 && forall k :: 0 <= k < |r| ==> 0x80 <= r[k] as int < 0x100
  {
    var v := c as int;
    if v < 0x80 then [c]
    else if v < 0x800 then [ByteChar(0xC0 + v / 0x40), ContByte(v)]
    else if v < 0x1_0000 then [ByteChar(0xE0 + v / 0x1000), ContByte(v / 0x40), ContByte(v)]
    else [ByteChar(0xF0 + v / 0x4_0000), ContByte(v / 0x1000), ContByte(v / 0x40), ContByte(v)]
  }

  /** The bytes napi_get_value_string_utf8 hands the decoder for a string, each as a
      `char`. */
  function Utf8(s: seq<char>): (r: seq<char>)
    ensures |r| >= |s|
    ensures forall k :: 0 <= k < |r| ==> r[k] as int < 0x100
  {
    if s == [] then [] else Utf8Char(s[0]) + Utf8(s[1..])
  }

  /** DecodeSyncInner: a string is decoded as its UTF-8 bytes, and throws "-2" when there
      are none; a non-empty Uint8Array is decoded; anything else (including an empty
      array) throws 401. */
  function DecodeSync(arg: DecodeArg, t: Type): (r: Result<seq<bv8>, Error>)
    ensures arg.Text? && |arg.s| == 0 ==> r == Failure(EmptyString)
    ensures arg.OtherInput? || (arg.Uint8Bytes? && |arg.b| == 0) ==> r == Failure(ParameterError)
    ensures arg.Text? && |arg.s| > 0 ==> r == DecodeAchieve(Utf8(arg.s), t)
    ensures arg.Uint8Bytes? && |arg.b| > 0 ==> r == DecodeAchieve(BytesAsChars(arg.b), t)
  {
    match arg
    case Text(s) =>
      var bytes := Utf8(s);
      if |bytes| == 0 then Failure(EmptyString) else DecodeAchieve(bytes, t)
    case Uint8Bytes(b) => if |b| > 0 then DecodeAchieve(BytesAsChars(b), t) else Failure(ParameterError)
    case OtherInput => Failure(ParameterError)
  }

  /** An ASCII string reaches the decoder unchanged. */
  lemma {:induction false} Utf8Ascii(s: seq<char>)
    requires forall k :: 0 <= k < |s| ==> s[k] as int < 0x80
    ensures Utf8(s) == s
  {
    if s != [] {
      Utf8Ascii(s[1..]);
      assert s == [s[0]] + s[1..];
    }
  }

  lemma {:induction false} Utf8Append(a: seq<char>, b: seq<char>)
    ensures Utf8(a + b) == Utf8(a) + Utf8(b)
  {
    if a == [] {
      assert a + b == b;
    } else {
      assert (a + b)[0] == a[0] && (a + b)[1..] == a[1..] + b;
      Utf8Append(a[1..], b);
    }
  }

  /** The first two bytes of a character from 0x80 on, at the position its UTF-8
      encoding starts. */
  lemma Utf8NonAscii(s: seq<char>, k: nat)
    requires k < |s| && s[k] as int >= 0x80
    ensures var p := |Utf8(s[..k])|;
      p + 1 < |Utf8(s)| && Utf8(s)[p] as int >= 0x80 && Utf8(s)[p + 1] as int >= 0x80
  {
    assert s == s[..k] + ([s[k]] + s[k + 1..]);
    Utf8Append(s[..k], [s[k]] + s[k + 1..]);
    Utf8Append([s[k]], s[k + 1..]);
    assert Utf8([s[k]]) == Utf8Char(s[k]) by {
      assert [s[k]][1..] == [];
    }
  }

  /** Two adjacent characters from 0x80 on both come before the counted padding, which
      only ever covers '=' characters at the end. */
  lemma HighPairInData(input: seq<char>, p: nat)
    requires p + 1 < |input| && input[p] as int >= 0x80 && input[p + 1] as int >= 0x80
    ensures p < |DataPart(input)|
  {
  }

  /** A string with a character from 0x80 on is refused with error "-1": its bytes from
      0x80 on are in no table, and at least the first of them lies before any counted
      padding. */
  lemma NonAsciiRejected(s: seq<char>, t: Type, k: nat)
    requires k < |s| && s[k] as int >= 0x80
    ensures DecodeSync(Text(s), t) == Failure(UnsupportedCharacter)
  {
    Utf8NonAscii(s, k);
    var p := |Utf8(s[..k])|;
    var input := Utf8(s);
    HighPairInData(input, p);
    assert DataPart(input)[p] == input[p];
    assert Finds(DataPart(input)[p], t).None?;
  }
}

/** Properties of the Base64 model: group and whole-input round trips, the vectors of
    the unit tests, and the decoder's rejections. */
module Base64Proofs {
  import opened Wrappers
  import opened Base64

  // ---------------------------------------------------------------------------------
  // Bit-level facts
  // ---------------------------------------------------------------------------------

  lemma NarrowNat(x: bv32)
    requires x < 64
    ensures (x as nat) as bv32 == x
  {
  }

  /** Bit-level round trip of a full group. */
  lemma WordBits3(b0: bv8, b1: bv8, b2: bv8)
    ensures var w := ((((b0 as bv32) << 8) | (b1 as bv32)) << 8) | (b2 as bv32);
      var a := (((((Sextet(w, 0) << 6) | Sextet(w, 1)) << 6) | Sextet(w, 2)) << 6) | Sextet(w, 3);
      ByteOf(a, 0) == b0 && ByteOf(a, 1) == b1 && ByteOf(a, 2) == b2
  {
  }

  /** Bit-level round trip of a two-byte group: the third decoded byte is zero. */
  lemma WordBits2(b0: bv8, b1: bv8)
    ensures var w := (((b0 as bv32) << 8) | (b1 as bv32)) << 8;
      var a := ((((Sextet(w, 0) << 6) | Sextet(w, 1)) << 6) | Sextet(w, 2)) << 6;
      ByteOf(a, 0) == b0 && ByteOf(a, 1) == b1 && ByteOf(a, 2) == 0
  {
  }

  /** Bit-level round trip of a one-byte group: the second decoded byte is zero. */
  lemma WordBits1(b0: bv8)
    ensures var w := (b0 as bv32) << 16;
      var a := ((Sextet(w, 0) << 6) | Sextet(w, 1)) << 12;
      ByteOf(a, 0) == b0 && ByteOf(a, 1) == 0
  {
  }

  /** Decoding the sextets of a group restores its bytes, plus one zero byte for a short
      group (cut off later by the output length). */
  lemma GroupRoundTrip(g: seq<bv8>)
    requires 1 <= |g| <= 3
    ensures DecodeGroup(GroupSextets(g)) == g + (if |g| < 3 then [0] else [])
  {
    if |g| == 1 {
      WordBits1(g[0]);
    } else if |g| == 2 {
      WordBits2(g[0], g[1]);
    } else {
      WordBits3(g[0], g[1], g[2]);
    }
  }

  // ---------------------------------------------------------------------------------
  // Whole-input round trip
  // ---------------------------------------------------------------------------------

  /** The sextets of a whole input, group by group. */
  function SextetsOf(x: seq<bv8>): (s: seq<SixBits>)
    ensures |s| == (|x| / 3) * 4 + (if |x| % 3 == 0 then 0 else |x| % 3 + 1)
    decreases |x|
  {
    if |x| == 0 then []
    else if |x| <= 3 then GroupSextets(x)
    else GroupSextets(x[..3]) + SextetsOf(x[3..])
  }

  /** The padding after the last group. */
  function Trailing(n: nat, t: Type): (r: seq<char>)
    ensures |r| == if t.UrlSafe() || n % 3 == 0 then 0 else 3 - n % 3
    ensures forall j :: 0 <= j < |r| ==> r[j] == '='
  {
    if n % 3 == 0 then [] else Padding(n % 3, t)
  }

  lemma {:induction false} TableCharsAppend(a: seq<SixBits>, b: seq<SixBits>, t: Type)
    ensures TableChars(a + b, t) == TableChars(a, t) + TableChars(b, t)
    decreases |a|
  {
    if |a| == 0 {
      assert a + b == b;
    } else {
      assert (a + b)[1..] == a[1..] + b;
      TableCharsAppend(a[1..], b, t);
    }
  }

  /** Dropping one group of three leaves the remainder modulo 3 unchanged. */
  lemma DropGroup(n: nat)
    requires n >= 3
    ensures n / 3 == (n - 3) / 3 + 1
    ensures n % 3 == (n - 3) % 3
  {
  }

  lemma TrailingStep(n: nat, t: Type)
    requires n >= 3
    ensures Trailing(n - 3, t) == Trailing(n, t)
  {
    DropGroup(n);
  }

  /** Length of the output for a single group of one to three bytes. */
  lemma OneGroupLength(n: nat, t: Type)
    requires 1 <= n <= 3
    ensures OutputLen(n) == 4
    ensures EncodedLength(n, t) == if t.UrlSafe() then n + 1 else 4
  {
    assert n / 3 == (if n == 3 then 1 else 0);
  }

  lemma OutputLenStep(n: nat, t: Type)
    requires n > 3
    ensures OutputLen(n) == OutputLen(n - 3) + 4
    ensures EncodedLength(n, t) == EncodedLength(n - 3, t) + 4
  {
    DropGroup(n);
  }

  /** The encoder emits exactly `outputLen` characters: the allocated size, less the
      URL-safe shrink of the last group. */
  lemma {:induction false} EncodeLength(x: seq<bv8>, t: Type)
    ensures |Encode(x, t)| == EncodedLength(|x|, t)
    ensures !t.UrlSafe() ==> |Encode(x, t)| == OutputLen(|x|)
    decreases |x|
  {
    if |x| == 0 {
    } else if |x| <= 3 {
      OneGroupLength(|x|, t);
    } else {
      EncodeLength(x[3..], t);
      EncodeLengthStep(x, t);
    }
  }

  lemma EncodeLengthStep(x: seq<bv8>, t: Type)
    requires |x| > 3
    requires |Encode(x[3..], t)| == EncodedLength(|x| - 3, t)
    ensures |Encode(x, t)| == EncodedLength(|x|, t)
  {
    OutputLenStep(|x|, t);
  }

  /** A single short or full group: its characters and its padding. */
  lemma EncodeSplitGroup(x: seq<bv8>, t: Type)
    requires 1 <= |x| <= 3
    ensures Encode(x, t) == TableChars(SextetsOf(x), t) + Trailing(|x|, t)
  {
    assert Encode(x, t) == TableChars(GroupSextets(x), t) + Padding(|x|, t);
    if |x| == 3 {
      assert Trailing(|x|, t) == [] == Padding(|x|, t);
    } else {
      assert |x| % 3 == |x|;
    }
  }

  lemma ConcatAssoc<T>(a: seq<T>, b: seq<T>, c: seq<T>)
    ensures a + (b + c) == (a + b) + c
  {
  }

  /** `e = head + rest`, `rest = tail + pad` and `whole = head + tail` give `e = whole + pad`. */
  lemma ConcatChain<T>(e: seq<T>, head: seq<T>, rest: seq<T>, tail: seq<T>, pad: seq<T>, whole: seq<T>)
    requires e == head + rest && rest == tail + pad && whole == head + tail
    ensures e == whole + pad
  {
    assert head + (tail + pad) == (head + tail) + pad;
  }

  lemma AppendEmpty<T>(a: seq<T>)
    ensures a + [] == a
  {
  }

  lemma TakeDrop<T>(x: seq<T>, n: nat)
    requires n <= |x|
    ensures x[..n] + x[n..] == x
  {
  }

  lemma DecodeChunksStep(idx: seq<bv32>)
    requires |idx| > 4
    ensures DecodeChunks(idx) == DecodeGroup(idx[..4]) + DecodeChunks(idx[4..])
  {
  }

  lemma EncodeStep(x: seq<bv8>, t: Type)
    requires |x| > 3
    ensures Encode(x, t) == TableChars(GroupSextets(x[..3]), t) + Encode(x[3..], t)
  {
    var chars := TableChars(GroupSextets(x[..3]), t);
    assert Padding(3, t) == [];
    AppendEmpty(chars);
    assert EncodeGroup(x[..3], t) == chars;
  }

  /** One step of the encoder's recursion: the first group's characters are prepended. */
  lemma EncodeSplitStep(x: seq<bv8>, t: Type)
    requires |x| > 3
    requires Encode(x[3..], t) == TableChars(SextetsOf(x[3..]), t) + Trailing(|x| - 3, t)
    ensures Encode(x, t) == TableChars(SextetsOf(x), t) + Trailing(|x|, t)
  {
    var g := GroupSextets(x[..3]);
    var rest := SextetsOf(x[3..]);
    EncodeStep(x, t);
    TrailingStep(|x|, t);
    assert SextetsOf(x) == g + rest;
    TableCharsAppend(g, rest, t);
    ConcatChain(Encode(x, t), TableChars(g, t), Encode(x[3..], t), TableChars(rest, t),
                Trailing(|x|, t), TableChars(SextetsOf(x), t));
  }

  /** The encoder's output is the table characters of the sextets followed by padding. */
  lemma {:induction false} EncodeSplit(x: seq<bv8>, t: Type)
    ensures Encode(x, t) == TableChars(SextetsOf(x), t) + Trailing(|x|, t)
    decreases |x|
  {
    if |x| == 0 {
    } else if |x| <= 3 {
      EncodeSplitGroup(x, t);
    } else {
      EncodeSplit(x[3..], t);
      EncodeSplitStep(x, t);
    }
  }

  /** Decoding the sextets of a whole input restores it, plus one zero byte when the
      last group is short. */
  lemma {:induction false} DecodeSextets(x: seq<bv8>)
    ensures DecodeChunks(SextetsOf(x)) == x + (if |x| % 3 == 0 then [] else [0])
    decreases |x|
  {
    if |x| == 0 {
    } else if |x| <= 3 {
      GroupRoundTrip(x);
    } else {
      DecodeSextets(x[3..]);
      DecodeSextetsStep(x);
    }
  }

  /** One step of the decoder's recursion over the encoder's sextets. */
  lemma DecodeSextetsStep(x: seq<bv8>)
    requires |x| > 3
    requires DecodeChunks(SextetsOf(x[3..])) == x[3..] + (if (|x| - 3) % 3 == 0 then [] else [0])
    ensures DecodeChunks(SextetsOf(x)) == x + (if |x| % 3 == 0 then [] else [0])
  {
    var s := SextetsOf(x);
    var g := GroupSextets(x[..3]);
    var y := x[3..];
    var zero: seq<bv8> := if |x| % 3 == 0 then [] else [0];
    assert s[..4] == g && s[4..] == SextetsOf(y) by {
      assert s == g + SextetsOf(y);
    }
    DecodeChunksStep(s);
    assert DecodeGroup(g) == x[..3] by {
      GroupRoundTrip(x[..3]);
    }
    assert DecodeChunks(SextetsOf(y)) == y + zero by {
      DropGroup(|x|);
    }
    ConcatAssoc(x[..3], y, zero);
    TakeDrop(x, 3);
  }

  /** Looking up the table characters of sextets yields the sextets back. */
  lemma IndicesOfTableChars(s: seq<SixBits>, t: Type)
    ensures Indices(TableChars(s, t), t).Some?
    ensures Words(Indices(TableChars(s, t), t).value) == s
  {
    var data := TableChars(s, t);
    forall k | 0 <= k < |s|
      ensures Finds(data[k], t) == Some(s[k] as int)
    {
      TableEntry(t, s[k] as int, data[k]);
    }
    var idx := Indices(data, t).value;
    forall k | 0 <= k < |s|
      ensures Words(idx)[k] == s[k]
    {
      NarrowNat(s[k]);
    }
  }

  /** No table character of a sextet value is '='. */
  lemma TableCharNotPad(t: Type, v: nat)
    requires v < 64
    ensures Table(t)[v] != '='
  {
    TableEntry(t, v, '=');
  }

  /** Table characters followed by at most two '=' : the decoder counts the '='. */
  lemma EqualCountOfChars(s: seq<SixBits>, p: seq<char>, t: Type)
    requires |s| >= 2 && |p| <= 2
    requires forall j :: 0 <= j < |p| ==> p[j] == '='
    ensures EqualCount(TableChars(s, t) + p) == |p|
  {
    var c := TableChars(s, t);
    var e := c + p;
    var n := |e|;
    if |p| == 0 {
      assert e[n - 1] == c[|s| - 1] && e[n - 2] == c[|s| - 2];
      TableCharNotPad(t, s[|s| - 1] as int);
      TableCharNotPad(t, s[|s| - 2] as int);
    } else if |p| == 1 {
      assert e[n - 2] == c[|s| - 1];
      TableCharNotPad(t, s[|s| - 1] as int);
    } else {
      assert e[n - 1] == p[1] && e[n - 2] == p[0];
    }
  }

  /** The decoder counts exactly the encoder's padding. */
  lemma EqualCountOfEncode(x: seq<bv8>, t: Type)
    requires |x| > 0
    ensures EqualCount(Encode(x, t)) == |Trailing(|x|, t)|
  {
    assert Encode(x, t) == TableChars(SextetsOf(x), t) + Trailing(|x|, t) by {
      EncodeSplit(x, t);
    }
    EqualCountOfChars(SextetsOf(x), Trailing(|x|, t), t);
  }

  /** The length formula inverts the encoder's output length, in every mode. */
  lemma LengthFormulaOfEncoded(n: nat, t: Type)
    requires n > 0
    ensures LengthFormula(EncodedLength(n, t), |Trailing(n, t)|, t.UrlSafe()) == n
  {
    var q := n / 3;
    var len := EncodedLength(n, t);
    assert n == 3 * q + n % 3;
    if n % 3 == 0 {
      assert len == 4 * q;
      assert len / 4 == q && len % 4 == 0;
    } else if !t.UrlSafe() {
      assert len == 4 * q + 4;
      assert len / 4 == q + 1 && len % 4 == 0;
    } else if n % 3 == 1 {
      assert len == 4 * q + 2;
      assert len / 4 == q && len % 4 == 2;
    } else {
      assert len == 4 * q + 3;
      assert len / 4 == q && len % 4 == 3;
    }
  }

  /** The decoder's output length equals the encoder's input length. */
  lemma DecodeOutLenOfEncode(x: seq<bv8>, t: Type)
    requires |x| > 0
    ensures DecodeOutLen(Encode(x, t), t) == |x|
  {
    EncodeLength(x, t);
    EqualCountOfEncode(x, t);
    LengthFormulaOfEncoded(|x|, t);
  }

  /** Round trip: decoding the encoder's output restores the input, in every mode. */
  lemma RoundTrip(x: seq<bv8>, t: Type)
    requires |x| > 0
    ensures DecodeSync(Text(Encode(x, t)), t) == Success(x)
  {
    var e := Encode(x, t);
    var s := SextetsOf(x);
    assert DataPart(e) == TableChars(s, t) by {
      EncodeSplit(x, t);
      EqualCountOfEncode(x, t);
    }
    assert DecodeOutLen(e, t) == |x| by {
      DecodeOutLenOfEncode(x, t);
    }
    IndicesOfTableChars(s, t);
    var bytes := DecodeChunks(s);
    assert bytes[..|x|] == x by {
      DecodeSextets(x);
    }
    assert DecodeAchieve(e, t) == Success(x);
    EncodeIsAscii(x, t);
    Utf8Ascii(e);
  }

  /** The encoder writes only table characters and '=', all below 0x80. */
  lemma EncodeIsAscii(x: seq<bv8>, t: Type)
    ensures forall k :: 0 <= k < |Encode(x, t)| ==> Encode(x, t)[k] as int < 0x80
  {
    EncodeSplit(x, t);
    var s := SextetsOf(x);
    forall k | 0 <= k < |s|
      ensures TableChars(s, t)[k] as int < 0x80
    {
      assert TableChars(s, t)[k] == AlphabetChar(s[k] as int, t.UrlSafe());
    }
  }

}

=== FILE: Base64Vectors.dfy ===
/** Concrete vectors of the Base64 model, and the decoder's length wrap. */
module Base64Vectors {
  import opened Wrappers
  import opened Base64
  import opened Base64Proofs

  /** "s13" encodes to "czEz" in the standard alphabet. */
  lemma EncodeThreeBytes()
    ensures EncodeSync(Uint8Array([0x73, 0x31, 0x33]), Basic) == Success("czEz")
  {
    var g: seq<bv8> := [0x73, 0x31, 0x33];
    var s: seq<SixBits> := [28, 51, 4, 51];
    assert GroupSextets(g) == s;
    var c := TableChars(s, Basic);
    assert c[0] == 'c' && c[1] == 'z' && c[2] == 'E' && c[3] == 'z';
    assert c == "czEz";
    assert Encode(g, Basic) == c + Padding(3, Basic);
    AppendEmpty(c);
  }

  /** Decoding "czEz" yields "s13" again. */
  lemma DecodeThreeBytes()
    ensures DecodeSync(Text("czEz"), Basic) == Success([0x73, 0x31, 0x33])
  {
    EncodeThreeBytes();
    RoundTrip([0x73, 0x31, 0x33], Basic);
  }

  /** Four bytes: a full group and a one-byte group. */
  lemma EncodeFourBytesGroups(t: Type)
    ensures Encode([168, 174, 155, 255], t) ==
      TableChars([42, 10, 58, 27], t) + TableChars([63, 48], t) + Padding(1, t)
  {
    var x: seq<bv8> := [168, 174, 155, 255];
    assert GroupSextets(x[..3]) == [42, 10, 58, 27];
    assert GroupSextets(x[3..]) == [63, 48];
    EncodeStep(x, t);
    ConcatAssoc(TableChars([42, 10, 58, 27], t), TableChars([63, 48], t), Padding(1, t));
  }

  /** The standard alphabet pads the one-byte group with "==". */
  lemma EncodeFourBytesBasic()
    ensures Encode([168, 174, 155, 255], Basic) == "qK6b/w=="
  {
    EncodeFourBytesGroups(Basic);
    var c := TableChars([42, 10, 58, 27], Basic) + TableChars([63, 48], Basic);
    assert c == "qK6b/w";
  }

  /** The URL-safe alphabet writes '_' for sextet 63 and drops the padding. */
  lemma EncodeFourBytesUrlSafe()
    ensures Encode([168, 174, 155, 255], BasicUrlSafe) == "qK6b_w"
  {
    EncodeFourBytesGroups(BasicUrlSafe);
    var c := TableChars([42, 10, 58, 27], BasicUrlSafe) + TableChars([63, 48], BasicUrlSafe);
    assert c == "qK6b_w";
    AppendEmpty(c);
  }

  /** '/' is not in the URL-safe alphabet: decoding standard output URL-safe fails. */
  lemma UrlSafeRejectsSlash()
    ensures DecodeSync(Text("qK6b/w=="), BasicUrlSafe) == Failure(UnsupportedCharacter)
  {
    var e := "qK6b/w==";
    Utf8Ascii(e);
    SlashRejected(e);
  }

  /** The decode loop proper stops at the '/' of standard output. */
  lemma SlashRejected(e: string)
    requires e == "qK6b/w=="
    ensures DecodeAchieve(e, BasicUrlSafe) == Failure(UnsupportedCharacter)
  {
    assert EqualCount(e) == 2;
    assert DataPart(e)[4] == '/';
    assert Finds('/', BasicUrlSafe).None?;
  }

  /** A string is decoded as its UTF-8 bytes: the 'é' of "QQ=é" becomes 0xC3 0xA9, which
      no table holds, so the padding-like '=' before it does not save the input. */
  lemma NonAsciiInput()
    ensures DecodeSync(Text("QQ=\U{E9}"), Basic) == Failure(UnsupportedCharacter)
  {
    NonAsciiRejected("QQ=\U{E9}", Basic, 3);
  }

  /** A lone "QQ=" (three characters, one '='): the source's `decodeOutLen` starts at 0 and
      loses 1 for the '=', wrapping to 2^64 - 1 bytes although only one byte is decoded. */
  lemma DecodeOutLenWraps()
    ensures DecodeOutLenAsWritten("QQ=", Basic) == 0x1_0000_0000_0000_0000 - 1
    ensures ChunkBytes(|DataPart("QQ=")|) == 2
    ensures DecodeOutLen("QQ=", Basic) == 0
  {
    assert EqualCount("QQ=") == 1;
  }
}

=== FILE: BufferBytes.dfy ===
/** The byte-sequence operations of the ArkTS Buffer (js_api_module/buffer/src/js_buffer.ts):
    comparison and equality, the in-chunk byte swaps, `subarray`, `fill`, encoding-name
    normalisation, the hex parser and printer, the base64 length estimate and the
    allocation pool's alignment. */
module BufferBytes {
  import opened Wrappers
  import opened IntArith
  import opened ByteCodec
  import opened JsInt
  import opened BufferInt
  import opened JsString

  // ---------------------------------------------------------------------------------
  // compare and equals
  // ---------------------------------------------------------------------------------

  /** The loop of the module-level `compare` from index `i` on: the first differing byte
      decides, then the lengths. */
  function CompareFrom(a: seq<Byte>, b: seq<Byte>, i: nat): (r: int)
    requires i <= |a| && i <= |b|
    ensures r in {-1, 0, 1}
    decreases |a| - i
  {
    if i < |a| && i < |b| then
      if a[i] > b[i] then 1
      else if a[i] < b[i] then -1
      else CompareFrom(a, b, i + 1)
    else if |a| > |b| then 1
    else if |a| < |b| then -1
    else 0
  }

  /** Module-level `compare(buf1, buf2)`. */
  function Compare(a: seq<Byte>, b: seq<Byte>): (r: int)
    ensures r in {-1, 0, 1}
  {
    CompareFrom(a, b, 0)
  }

  /** Lexicographic order: a proper prefix comes first, otherwise the first difference
      decides. */
  predicate LexLess(a: seq<Byte>, b: seq<Byte>) {
    (|a| < |b| && a == b[..|a|]) ||
    (exists i :: 0 <= i < |a| && i < |b| && a[..i] == b[..i] && a[i] < b[i])
  }

  lemma {:induction false} CompareFromZero(a: seq<Byte>, b: seq<Byte>, i: nat)
    requires i <= |a| && i <= |b| && a[..i] == b[..i]
    ensures CompareFrom(a, b, i) == 0 <==> a == b
    decreases |a| - i
  {
    if i < |a| && i < |b| {
      if a[i] == b[i] {
        assert a[..i + 1] == a[..i] + [a[i]] && b[..i + 1] == b[..i] + [b[i]];
        CompareFromZero(a, b, i + 1);
      } else {
        assert a[i] != b[i];
      }
    } else if |a| == |b| {
      assert a == a[..i] && b == b[..i];
    } else {
      assert |a| != |b|;
    }
  }

  lemma {:induction false} CompareFromLess(a: seq<Byte>, b: seq<Byte>, i: nat)
    requires i <= |a| && i <= |b| && a[..i] == b[..i]
    ensures CompareFrom(a, b, i) == -1 <==> LexLess(a, b)
    decreases |a| - i
  {
    if i < |a| && i < |b| {
      if a[i] == b[i] {
        assert a[..i + 1] == a[..i] + [a[i]] && b[..i + 1] == b[..i] + [b[i]];
        CompareFromLess(a, b, i + 1);
      } else {
        FirstDifference(a, b, i);
      }
    } else {
      assert a == a[..i] || b == b[..i];
      NoDifferenceBefore(a, b, i);
    }
  }

  /** When `a` and `b` first differ at `i`, that position alone decides LexLess. */
  lemma FirstDifference(a: seq<Byte>, b: seq<Byte>, i: nat)
    requires i < |a| && i < |b| && a[..i] == b[..i] && a[i] != b[i]
    ensures LexLess(a, b) <==> a[i] < b[i]
  {
    if a[i] > b[i] {
      forall j | 0 <= j < |a| && j < |b| && a[..j] == b[..j]
        ensures a[j] >= b[j]
      {
        if j < i {
          assert a[..i][j] == b[..i][j];
        }
      }
    }
  }

  /** When one sequence is exhausted after a common prefix, LexLess is the proper-prefix
      case. */
  lemma NoDifferenceBefore(a: seq<Byte>, b: seq<Byte>, i: nat)
    requires i <= |a| && i <= |b| && a[..i] == b[..i] && (i == |a| || i == |b|)
    ensures LexLess(a, b) <==> |a| < |b|
  {
    if |a| < |b| {
      assert a == a[..i];
    } else {
      forall j | 0 <= j < |a| && j < |b| && a[..j] == b[..j]
        ensures a[j] >= b[j]
      {
        assert a[..i][j] == b[..i][j];
      }
    }
  }

  lemma {:induction false} CompareFromSwap(a: seq<Byte>, b: seq<Byte>, i: nat)
    requires i <= |a| && i <= |b|
    ensures CompareFrom(b, a, i) == -CompareFrom(a, b, i)
    decreases |a| - i
  {
    if i < |a| && i < |b| && a[i] == b[i] {
      CompareFromSwap(a, b, i + 1);
    }
  }

  /** compare is 0 exactly on equal contents, -1 exactly when `a` sorts first, and swapping
      the arguments negates it. */
  lemma CompareIsLexicographic(a: seq<Byte>, b: seq<Byte>)
    ensures Compare(a, b) == 0 <==> a == b
    ensures Compare(a, b) == -1 <==> LexLess(a, b)
    ensures Compare(a, b) == 1 <==> LexLess(b, a)
    ensures Compare(b, a) == -Compare(a, b)
  {
    assert a[..0] == b[..0];
    CompareFromZero(a, b, 0);
    CompareFromLess(a, b, 0);
    CompareFromLess(b, a, 0);
    CompareFromSwap(a, b, 0);
  }

  /** `start <= end` selects `buf[start..end]`; otherwise nothing. */
  function Slice(buf: seq<Byte>, start: int, end: int): seq<Byte>
    requires 0 <= start && end <= |buf|
  {
    if start < end then buf[start..end] else []
  }

  /** What compare and equals accept as the other side: a plain Uint8Array, or a Buffer,
      whose comparison goes to the native buffer. */
  datatype Target = Uint8(bytes: seq<Byte>) | OtherBuffer(bytes: seq<Byte>)

  /** The native buffer's `compare(target, targetStart, sourceStart, length)`, which is not
      part of this model: given this buffer's bytes, the target's bytes and the three
      numbers, it answers with a number whose sign the caller reads. */
  type NativeCompare = (seq<Byte>, seq<Byte>, nat, nat, nat) -> int

  function Sign(x: int): int {
    if x < 0 then -1 else if x > 0 then 1 else 0
  }

  /** Buffer.compare(target, targetStart, targetEnd, sourceStart, sourceEnd): the range
      checks in the source's order, the empty-range answers, then compareInner. */
  function CompareRange(self: seq<Byte>, target: Target, native: NativeCompare, targetStart: int,
                        targetEnd: int, sourceStart: int, sourceEnd: int): (r: Result<int, Error>)
    ensures r.Success? <==>
      0 <= targetStart <= TwoPow32 && 0 <= sourceStart <= TwoPow32 &&
      0 <= targetEnd <= |target.bytes| && 0 <= sourceEnd <= |self|
    ensures r.Failure? ==> r.error == RangeError(
      if !(0 <= targetStart <= TwoPow32) then "targetStart"
      else if !(0 <= sourceStart <= TwoPow32) then "sourceStart"
      else if !(0 <= targetEnd <= |target.bytes|) then "targetEnd"
      else "sourceEnd")
    ensures r.Success? && (sourceStart >= sourceEnd || targetStart >= targetEnd) ==>
      r.value == Compare(Slice(self, sourceStart, sourceEnd), Slice(target.bytes, targetStart, targetEnd))
    ensures r.Success? && target.Uint8? ==>
      r.value == Compare(Slice(self, sourceStart, sourceEnd), Slice(target.bytes, targetStart, targetEnd))
  {
    if !(0 <= targetStart <= TwoPow32) then Failure(RangeError("targetStart"))
    else if !(0 <= sourceStart <= TwoPow32) then Failure(RangeError("sourceStart"))
    else if !(0 <= targetEnd <= |target.bytes|) then Failure(RangeError("targetEnd"))
    else if !(0 <= sourceEnd <= |self|) then Failure(RangeError("sourceEnd"))
    else if sourceStart >= sourceEnd then
      assert Slice(self, sourceStart, sourceEnd) == [];
      Success(if targetStart >= targetEnd then 0 else -1)
    else if targetStart >= targetEnd then
      assert Slice(target.bytes, targetStart, targetEnd) == [];
      Success(1)
    else Success(CompareInner(self, target, native, targetStart, sourceStart, sourceEnd - sourceStart,
                              targetEnd - targetStart))
  }

  /** The shorter of the two range lengths, `length1 > length2 ? length2 : length1`. */
  function MinLength(length1: nat, length2: nat): nat {
    if length1 > length2 then length2 else length1
  }

  /** compareInner: a Buffer target goes to the native compare over the common length and
      reads its answer with the sign turned round (`val < 0 ? 1 : -1`), the lengths deciding
      when it answers 0; a Uint8Array target goes through the byte loop. */
  function CompareInner(self: seq<Byte>, target: Target, native: NativeCompare, targetStart: nat,
                        sourceStart: nat, length1: nat, length2: nat): (r: int)
    requires sourceStart + length1 <= |self| && targetStart + length2 <= |target.bytes|
    ensures r in {-1, 0, 1}
    ensures target.Uint8? ==>
      r == Compare(self[sourceStart..sourceStart + length1], target.bytes[targetStart..targetStart + length2])
    ensures target.OtherBuffer? ==>
      (r == 0 <==> native(self, target.bytes, targetStart, sourceStart, MinLength(length1, length2)) == 0
                   && length1 == length2)
  {
    match target
    case OtherBuffer(t) =>
      var val := native(self, t, targetStart, sourceStart, MinLength(length1, length2));
      if val == 0 then
        if length1 == length2 then 0 else if length1 < length2 then -1 else 1
      else if val < 0 then 1 else -1
    case Uint8(t) => CompareLoop(self, t, targetStart, sourceStart, length1, length2, 0)
  }

  /** The loop of compareInner over `min(length1, length2)` positions from the two starts. */
  function CompareLoop(self: seq<Byte>, target: seq<Byte>, targetStart: nat, sourceStart: nat,
                       length1: nat, length2: nat, i: nat): (r: int)
    requires sourceStart + length1 <= |self| && targetStart + length2 <= |target|
    requires i <= length1 && i <= length2
    ensures r == CompareFrom(self[sourceStart..sourceStart + length1],
                             target[targetStart..targetStart + length2], i)
    decreases length1 - i
  {
    if i < length1 && i < length2 then
      var v1, v2 := self[i + sourceStart], target[i + targetStart];
      if v1 == v2 then CompareLoop(self, target, targetStart, sourceStart, length1, length2, i + 1)
      else if v1 < v2 then -1
      else 1
    else if length1 == length2 then 0
    else if length1 < length2 then -1
    else 1
  }

  /** The ordering of two lengths, which decides when one range is a prefix of the other. */
  function LengthOrder(n1: nat, n2: nat): int {
    if n1 == n2 then 0 else if n1 < n2 then -1 else 1
  }

  /** The comparison from `i` is that of the common-length prefixes, and the lengths when
      those are equal. */
  lemma {:induction false} CompareFromPrefix(a: seq<Byte>, b: seq<Byte>, i: nat)
    requires i <= MinLength(|a|, |b|)
    ensures var m := MinLength(|a|, |b|);
      var c := CompareFrom(a[..m], b[..m], i);
      CompareFrom(a, b, i) == if c != 0 then c else LengthOrder(|a|, |b|)
    decreases |a| - i
  {
    var m := MinLength(|a|, |b|);
    if i < m {
      assert a[..m][i] == a[i] && b[..m][i] == b[i];
      if a[i] == b[i] {
        CompareFromPrefix(a, b, i + 1);
      }
    }
  }

  /** compareInner over Buffer target `t`, taking the native answer to order the target's
      common-length range against this buffer's (as the `val < 0 ? 1 : -1` reading
      expects), agrees with the byte loop a Uint8Array target gets. */
  lemma BufferTargetAgrees(self: seq<Byte>, t: seq<Byte>, native: NativeCompare, targetStart: nat,
                           sourceStart: nat, length1: nat, length2: nat)
    requires sourceStart + length1 <= |self| && targetStart + length2 <= |t|
    requires var m := MinLength(length1, length2);
      Sign(native(self, t, targetStart, sourceStart, m)) ==
        Compare(t[targetStart..targetStart + m], self[sourceStart..sourceStart + m])
    ensures CompareInner(self, OtherBuffer(t), native, targetStart, sourceStart, length1, length2) ==
            CompareInner(self, Uint8(t), native, targetStart, sourceStart, length1, length2)
  {
    CommonPrefix(self, t, targetStart, sourceStart, length1, length2);
    var m := MinLength(length1, length2);
    CompareFromSwap(t[targetStart..targetStart + m], self[sourceStart..sourceStart + m], 0);
    CompareIsLexicographic(t[targetStart..targetStart + m], self[sourceStart..sourceStart + m]);
  }

  /** If the native answer instead orders this buffer's range against the target's, every
      comparison the common prefix decides comes out reversed for a Buffer target. */
  lemma BufferTargetReversed(self: seq<Byte>, t: seq<Byte>, native: NativeCompare, targetStart: nat,
                             sourceStart: nat, length1: nat, length2: nat)
    requires sourceStart + length1 <= |self| && targetStart + length2 <= |t|
    requires var m := MinLength(length1, length2);
      && self[sourceStart..sourceStart + m] != t[targetStart..targetStart + m]
      && Sign(native(self, t, targetStart, sourceStart, m)) ==
           Compare(self[sourceStart..sourceStart + m], t[targetStart..targetStart + m])
    ensures CompareInner(self, OtherBuffer(t), native, targetStart, sourceStart, length1, length2) ==
            -CompareInner(self, Uint8(t), native, targetStart, sourceStart, length1, length2)
    ensures CompareInner(self, OtherBuffer(t), native, targetStart, sourceStart, length1, length2) != 0
  {
    CommonPrefix(self, t, targetStart, sourceStart, length1, length2);
    var m := MinLength(length1, length2);
    CompareIsLexicographic(self[sourceStart..sourceStart + m], t[targetStart..targetStart + m]);
  }

  /** The byte loop's answer from the common-length prefixes of the two ranges. */
  lemma CommonPrefix(self: seq<Byte>, t: seq<Byte>, targetStart: nat, sourceStart: nat,
                     length1: nat, length2: nat)
    requires sourceStart + length1 <= |self| && targetStart + length2 <= |t|
    ensures var m := MinLength(length1, length2);
      var c := Compare(self[sourceStart..sourceStart + m], t[targetStart..targetStart + m]);
      Compare(self[sourceStart..sourceStart + length1], t[targetStart..targetStart + length2]) ==
        if c != 0 then c else LengthOrder(length1, length2)
  {
    var a, b := self[sourceStart..sourceStart + length1], t[targetStart..targetStart + length2];
    var m := MinLength(length1, length2);
    assert a[..m] == self[sourceStart..sourceStart + m] && b[..m] == t[targetStart..targetStart + m];
    CompareFromPrefix(a, b, 0);
  }

  /** Buffer.equals(other): compare over both whole buffers is 0.  Only equal lengths
      can be equal; between two non-empty Buffers it is the native answer over the
      common length. */
  function Equals(self: seq<Byte>, other: Target, native: NativeCompare): (r: bool)
    ensures r ==> |self| == |other.bytes|
    ensures other.OtherBuffer? && self != [] && other.bytes != [] ==>
      (r <==> |self| == |other.bytes| && native(self, other.bytes, 0, 0, MinLength(|self|, |other.bytes|)) == 0)
  {
    assert Slice(self, 0, |self|) == self && Slice(other.bytes, 0, |other.bytes|) == other.bytes;
    CompareIsLexicographic(self, other.bytes);
    CompareRange(self, other, native, 0, |other.bytes|, 0, |self|) == Success(0)
  }

  /** equals with a Uint8Array is equality of the contents. */
  lemma EqualsIsEquality(self: seq<Byte>, other: seq<Byte>, native: NativeCompare)
    ensures Equals(self, Uint8(other), native) <==> self == other
  {
    assert Slice(self, 0, |self|) == self;
    assert Slice(other, 0, |other|) == other;
    CompareIsLexicographic(self, other);
  }

  /** equals with a Buffer is equality of the contents whenever the native compare answers
      0 exactly on equal common-length prefixes, whichever way round it orders them. */
  lemma EqualsBufferIsEquality(self: seq<Byte>, other: seq<Byte>, native: NativeCompare)
    requires var m := MinLength(|self|, |other|);
      native(self, other, 0, 0, m) == 0 <==> self[..m] == other[..m]
    ensures Equals(self, OtherBuffer(other), native) <==> self == other
  {
    var m := MinLength(|self|, |other|);
    if self != [] && other != [] && self[..m] == other[..m] && |self| == |other| {
      assert self == self[..m] && other == other[..m];
    }
    assert self[0..|self|] == self && other[0..|other|] == other;
  }

  // ---------------------------------------------------------------------------------
  // swap16, swap32, swap64
  // ---------------------------------------------------------------------------------

  /** Position holding, after the swap, the byte at `k`: its mirror within its chunk. */
  function Mirror(k: nat, n: nat): (m: nat)
    requires n > 0
  {
    (k / n) * n + (n - 1 - k % n)
  }

  lemma MirrorInChunk(k: nat, n: nat, c: nat)
    requires n > 0 && c * n <= k < c * n + n
    ensures Mirror(k, n) == c * n + (c * n + n - 1) - k
    ensures c * n <= Mirror(k, n) < c * n + n
  {
    ModUnique(k, n, c, k - c * n);
  }

  lemma MirrorBound(k: nat, n: nat, len: nat)
    requires n > 0 && len % n == 0 && k < len
    ensures Mirror(k, n) < len
  {
    var c := k / n;
    assert c * n <= k < c * n + n by {
      ModUnique(k, n, k / n, k % n);
    }
    MirrorInChunk(k, n, c);
    assert len == (len / n) * n;
    if c + 1 > len / n {
      MulAtMost(n, len / n, c);
    } else {
      MulAtMost(n, c + 1, len / n);
    }
  }

  /** The buffer with the bytes of every `n`-byte chunk in reverse order. */
  function Swapped(buf: seq<Byte>, n: nat): (r: seq<Byte>)
    requires n > 0 && |buf| % n == 0
    ensures |r| == |buf|
  {
    seq(|buf|, k requires 0 <= k < |buf| => MirrorBound(k, n, |buf|); buf[Mirror(k, n)])
  }

  lemma SwappedInChunk(buf: seq<Byte>, n: nat, c: nat, k: nat)
    requires n > 0 && |buf| % n == 0 && c * n <= k < c * n + n <= |buf|
    ensures Swapped(buf, n)[k] == buf[2 * (n * c) + n - 1 - k]
  {
    MirrorInChunk(k, n, c);
  }

  /** The inner loop of reverseBits: swap positions `start + times` and `end - times` of
      the chunk `[start, end]` for `times < dealLen / 2`. */
  method ReverseChunk(r0: seq<Byte>, start: nat, dealLen: nat) returns (r: seq<Byte>)
    requires dealLen > 0 && start + dealLen <= |r0|
    ensures |r| == |r0|
    ensures forall k :: 0 <= k < |r0| && !(start <= k < start + dealLen) ==> r[k] == r0[k]
    ensures forall k :: start <= k < start + dealLen ==> r[k] == r0[2 * start + dealLen - 1 - k]
  {
    var end := start + dealLen - 1;
    r := r0;
    var times := 0;
    while times < dealLen / 2
      invariant 0 <= times <= dealLen / 2 && |r| == |r0|
      invariant forall k :: 0 <= k < |r0| && !(start <= k <= end) ==> r[k] == r0[k]
      invariant forall k :: start <= k < start + times ==> r[k] == r0[start + end - k]
      invariant forall k :: end - times < k <= end ==> r[k] == r0[start + end - k]
      invariant forall k :: start + times <= k <= end - times ==> r[k] == r0[k]
    {
      var tmp := r[start + times];
      r := r[start + times := r[end - times]];
      r := r[end - times := tmp];
      times := times + 1;
    }
  }

  /** reverseBits(dealLen): reverse each `dealLen`-byte chunk in turn. */
  method ReverseBits(buf: seq<Byte>, dealLen: nat) returns (r: seq<Byte>)
    requires dealLen > 0 && |buf| % dealLen == 0
    ensures r == Swapped(buf, dealLen)
  {
    r := buf;
    var i, start := 0, 0;
    while i < |buf| / dealLen
      invariant 0 <= i <= |buf| / dealLen && start == dealLen * i && |r| == |buf|
      invariant forall k :: 0 <= k < start ==> r[k] == Swapped(buf, dealLen)[k]
      invariant forall k :: start <= k < |buf| ==> r[k] == buf[k]
    {
      assert start + dealLen <= |buf| by {
        MulAtMost(dealLen, i + 1, |buf| / dealLen);
        ModUnique(|buf|, dealLen, |buf| / dealLen, 0);
      }
      var r' := ReverseChunk(r, start, dealLen);
      forall k | start <= k < start + dealLen
        ensures r'[k] == Swapped(buf, dealLen)[k]
      {
        SwappedInChunk(buf, dealLen, i, k);
      }
      r := r';
      i, start := i + 1, start + dealLen;
    }
    ModUnique(|buf|, dealLen, |buf| / dealLen, 0);
  }

  /** swap16/swap32/swap64: a length that is not a multiple of the width throws
      BufferSizeError; otherwise the bytes of each chunk are reversed. */
  function Swap(buf: seq<Byte>, width: nat): (r: Result<seq<Byte>, Error>)
    requires width in {2, 4, 8}
    ensures r.Failure? <==> |buf| % width != 0
    ensures r.Failure? ==> r.error == BufferSizeError
  {
    if |buf| % width != 0 then Failure(BufferSizeError) else Success(Swapped(buf, width))
  }

  /** Swapping twice restores the buffer. */
  lemma SwapTwice(buf: seq<Byte>, width: nat)
    requires width in {2, 4, 8} && Swap(buf, width).Success?
    ensures Swap(Swap(buf, width).value, width) == Success(buf)
  {
    var once := Swapped(buf, width);
    var twice := Swapped(once, width);
    forall k | 0 <= k < |buf|
      ensures twice[k] == buf[k]
    {
      var c := k / width;
      assert c * width <= k < c * width + width by {
        ModUnique(k, width, c, k % width);
      }
      MirrorBound(k, width, |buf|);
      MirrorInChunk(k, width, c);
      MirrorInChunk(Mirror(k, width), width, c);
    }
    assert twice == buf;
  }

  /** After a swap, each chunk read big-endian gives what it gave little-endian before. */
  lemma SwapChangesByteOrder(buf: seq<Byte>, width: nat, c: nat, signed: bool)
    requires width in {2, 4, 8} && Swap(buf, width).Success? && (c + 1) * width <= |buf|
    ensures Decode(Swap(buf, width).value[c * width..c * width + width], signed, BE)
         == Decode(buf[c * width..c * width + width], signed, LE)
  {
    var r := Swapped(buf, width);
    var x, y := buf[c * width..c * width + width], r[c * width..c * width + width];
    forall j | 0 <= j < width
      ensures y[j] == x[width - 1 - j]
    {
      MirrorInChunk(c * width + j, width, c);
    }
    ReversedValue(x, y);
  }

  /** A run read big-endian is its reversal read little-endian. */
  lemma {:induction false} ReversedValue(x: seq<Byte>, y: seq<Byte>)
    requires |x| == |y| && forall j :: 0 <= j < |y| ==> y[j] == x[|x| - 1 - j]
    ensures ValueBE(y) == ValueLE(x)
  {
    if x != [] {
      var y', x' := y[..|y| - 1], x[1..];
      ReversedValue(x', y');
    }
  }

  // ---------------------------------------------------------------------------------
  // subarray
  // ---------------------------------------------------------------------------------

  /** subarray(start, end): `end` is clamped to the length; a negative bound or an empty
      range gives an empty buffer.  The result shares the parent's memory in the source;
      here it is the selected bytes. */
  function Subarray(buf: seq<Byte>, start: int, end: int): (r: seq<Byte>)
    ensures var e := if end > |buf| then |buf| else end;
      if start < 0 || e < 0 || e <= start then r == []
      else |r| == e - start && forall k :: 0 <= k < |r| ==> r[k] == buf[start + k]
  {
    var e := if end > |buf| then |buf| else end;
    if start < 0 || e < 0 || e <= start then [] else buf[start..e]
  }

  /** The whole buffer is its own subarray, and a subarray is the Slice that compare
      selects, with the end clamped to the length. */
  lemma SubarrayIsSlice(buf: seq<Byte>, start: int, end: int)
    requires 0 <= start && 0 <= end
    ensures Subarray(buf, start, end) == Slice(buf, start, if end > |buf| then |buf| else end)
    ensures Subarray(buf, 0, |buf|) == buf
  {
  }

  /** Two adjacent subarrays make up the subarray of their union. */
  lemma SubarraySplit(buf: seq<Byte>, start: int, mid: int, end: int)
    requires 0 <= start <= mid <= end
    ensures Subarray(buf, start, mid) + Subarray(buf, mid, end) == Subarray(buf, start, end)
  {
    var e := if end > |buf| then |buf| else end;
    var m := if mid > |buf| then |buf| else mid;
    if start < m && m < e {
      assert buf[start..m] + buf[m..e] == buf[start..e];
    }
  }

  /** A subarray of a subarray is the subarray of the parent at the summed offsets. */
  lemma SubarrayOfSubarray(buf: seq<Byte>, s: int, e: int, s2: int, e2: int)
    requires 0 <= s && 0 <= s2
    ensures Subarray(Subarray(buf, s, e), s2, e2) ==
            Subarray(buf, s + s2, if s + e2 < e then s + e2 else e)
  {
    var inner := Subarray(buf, s, e);
    var outer := Subarray(inner, s2, e2);
    var right := Subarray(buf, s + s2, if s + e2 < e then s + e2 else e);
    assert |outer| == |right|;
    forall k | 0 <= k < |outer|
      ensures outer[k] == right[k]
    {
    }
  }

  // ---------------------------------------------------------------------------------
  // Encoding names
  // ---------------------------------------------------------------------------------

  /** The bufferEncoding list. */
  function BufferEncodings(): seq<string> {
    ["ascii", "utf8", "utf-8", "utf16le", "utf-16le", "ucs2", "ucs-2",
     "base64", "base64url", "latin1", "binary", "hex"]
  }

  /** The names normalizeEncoding can return.  Lower, on the letters A to Z only, decides
      membership in the list exactly: no other character lowers to a character of a
      listed name. */
  function CanonicalEncodings(): set<string> {
    {"ascii", "utf8", "utf16le", "base64", "base64url", "latin1", "binary", "hex"}
  }

  /** normalizeEncoding: lower-case, keep listed names, fold the UCS-2 and UTF-16 spellings
      into "utf16le" and "utf-8" into "utf8"; anything else is undefined. */
  function NormalizeEncoding(enc: string): (r: Option<string>)
    ensures r.Some? <==> Lower(enc) in BufferEncodings()
    ensures r.Some? ==> r.value in CanonicalEncodings()
  {
    var e := Lower(enc);
    if e in BufferEncodings() then
      if e == "ucs2" || e == "ucs-2" || e == "utf-16le" then Some("utf16le")
      else if e == "utf-8" then Some("utf8")
      else Some(e)
    else None
  }

  /** Normalising is insensitive to case and is idempotent. */
  lemma NormalizeEncodingProperties(enc: string)
    ensures NormalizeEncoding(Lower(enc)) == NormalizeEncoding(enc)
    ensures NormalizeEncoding(enc).Some? ==>
      NormalizeEncoding(NormalizeEncoding(enc).value) == NormalizeEncoding(enc)
  {
    LowerLower(enc);
    var r := NormalizeEncoding(enc);
    if r.Some? {
      var c := r.value;
      assert Lower(c) == c by {
        assert c in CanonicalEncodings();
      }
      assert c in BufferEncodings();
    }
  }

  // ---------------------------------------------------------------------------------
  // Hex strings
  // ---------------------------------------------------------------------------------

  function HexDigitValue(c: char): Option<nat> {
    if '0' <= c <= '9' then Some(c as int - '0' as int)
    else if 'a' <= c <= 'f' then Some(c as int - 'a' as int + 10)
    else if 'A' <= c <= 'F' then Some(c as int - 'A' as int + 10)
    else None
  }

  /** StrWhiteSpaceChar: what `Number` trims from the end of its argument. */
  predicate IsJsSpace(c: char) {
    c == '\t' || c == '\n' || c == '\U{000B}' || c == '\U{000C}' || c == '\r' || c == ' ' ||
    c == '\U{00A0}' || c == '\U{1680}' || ('\U{2000}' <= c <= '\U{200A}') ||
    c == '\U{2028}' || c == '\U{2029}' || c == '\U{202F}' || c == '\U{205F}' ||
    c == '\U{3000}' || c == '\U{FEFF}'
  }

  /** `Number('0x' + c1 + c2)` where `c2` is absent (`undefined`) past the end of an odd
      length string: a hex literal needs at least one digit, and a trailing white space
      character is trimmed. */
  function HexPair(c1: char, c2: Option<char>): (r: Option<Byte>)
    ensures r.Some? ==> HexDigitValue(c1).Some?
  {
    match HexDigitValue(c1)
    case None => None
    case Some(h1) =>
      match c2
      case None => None
      case Some(c) =>
        if HexDigitValue(c).Some? then Some(16 * h1 + HexDigitValue(c).value)
        else if IsJsSpace(c) then Some(h1)
        else None
  }

  /** The pair starting at character `2 * i`. */
  function PairAt(s: string, i: nat): Option<Byte>
    requires 2 * i < |s|
  {
    HexPair(s[2 * i], if 2 * i + 1 < |s| then Some(s[2 * i + 1]) else None)
  }

  /** The loop of hexStrtoNumbers from pair `i` on: it stops at the first pair `Number`
      cannot read. */
  function HexFrom(s: string, i: nat): (r: seq<Byte>)
    ensures 2 * i <= |s| + 1 ==> 2 * (i + |r|) <= |s| + 1
    decreases |s| - 2 * i
  {
    if 2 * i >= |s| then []
    else match PairAt(s, i)
      case None => []
      case Some(b) => [b] + HexFrom(s, i + 1)
  }

  /** hexStrtoNumbers: a string whose first pair is unreadable throws; otherwise the
      readable pairs before the first unreadable one. */
  function HexStrToNumbers(s: string): (r: Result<seq<Byte>, Error>)
    ensures r.Failure? <==> |s| > 0 && PairAt(s, 0).None?
    ensures r.Failure? ==> r.error == InvalidArgument
  {
    if |s| > 0 && PairAt(s, 0).None? then Failure(InvalidArgument) else Success(HexFrom(s, 0))
  }

  function LowerHexDigit(d: nat): char
    requires d < 16
  {
    if d < 10 then ('0' as int + d) as char else ('a' as int + d - 10) as char
  }

  /** `Number(b).toString(16)`, prefixed with '0' when it has one digit. */
  function ByteHex(b: Byte): (r: string)
    ensures |r| == 2
  {
    var t := if b < 16 then [LowerHexDigit(b)] else [LowerHexDigit(b / 16), LowerHexDigit(b % 16)];
    if |t| == 1 then "0" + t else t
  }

  /** toHex: two lower-case hex digits per byte. */
  function ToHex(b: seq<Byte>): (r: string)
    ensures |r| == 2 * |b|
  {
    if b == [] then "" else ByteHex(b[0]) + ToHex(b[1..])
  }

  lemma {:induction false} ToHexAt(b: seq<Byte>, i: nat)
    requires i < |b|
    ensures ToHex(b)[2 * i] == ByteHex(b[i])[0] && ToHex(b)[2 * i + 1] == ByteHex(b[i])[1]
  {
    if i > 0 {
      ToHexAt(b[1..], i - 1);
    }
  }

  lemma ByteHexReads(b: Byte)
    ensures HexPair(ByteHex(b)[0], Some(ByteHex(b)[1])) == Some(b)
  {
  }

  lemma {:induction false} HexFromToHex(b: seq<Byte>, i: nat)
    requires i <= |b|
    ensures HexFrom(ToHex(b), i) == b[i..]
    decreases |b| - i
  {
    if i < |b| {
      ToHexAt(b, i);
      ByteHexReads(b[i]);
      assert PairAt(ToHex(b), i) == Some(b[i]);
      HexFromToHex(b, i + 1);
      assert b[i..] == [b[i]] + b[i + 1..];
    }
  }

  /** Parsing what toHex prints gives the bytes back. */
  lemma HexRoundTrip(b: seq<Byte>)
    ensures HexStrToNumbers(ToHex(b)) == Success(b)
  {
    HexFromToHex(b, 0);
    if b != [] {
      ToHexAt(b, 0);
      ByteHexReads(b[0]);
    }
  }

  /** An odd-length string drops its last character, and a pair that `Number` cannot read
      ends the result: "abc" gives [0xab], "ab!!cd" gives [0xab], "!!" throws. */
  lemma HexStopsEarly()
    ensures HexStrToNumbers("abc") == Success([0xab])
    ensures HexStrToNumbers("ab!!cd") == Success([0xab])
    ensures HexStrToNumbers("!!") == Failure(InvalidArgument)
    ensures HexStrToNumbers("a ") == Success([0xa])
  {
    assert HexDigitValue('a') == Some(10) && HexDigitValue('b') == Some(11);
    assert HexPair('a', Some('b')) == Some(0xab);
    assert PairAt("abc", 0) == Some(0xab);
    assert HexFrom("abc", 1) == [];
    assert HexFrom("abc", 0) == [0xab];
    assert PairAt("ab!!cd", 0) == Some(0xab) && HexFrom("ab!!cd", 1) == [];
    assert HexPair('a', Some(' ')) == Some(0xa);
    assert PairAt("a ", 0) == Some(0xa);
    assert HexFrom("a ", 1) == [];
    assert HexFrom("a ", 0) == [0xa];
  }

  // ---------------------------------------------------------------------------------
  // fill
  // ---------------------------------------------------------------------------------

  /** The values fill accepts: a number, the bytes of a Buffer or Uint8Array, or a string. */
  datatype FillValue = FillNumber(n: int) | FillBytes(b: seq<Byte>) | FillString(s: string)

  /** The buffer with the pattern repeated over `[offset, end)`; an empty pattern leaves it
      unchanged (the native fill routines are taken to repeat their input). */
  function FillPattern(buf: seq<Byte>, pattern: seq<Byte>, offset: nat, end: nat): (r: seq<Byte>)
    requires offset <= end <= |buf|
    ensures |r| == |buf|
  {
    if pattern == [] then buf
    else
      seq(|buf|, k requires 0 <= k < |buf| =>
        if offset <= k < end then pattern[(k - offset) % |pattern|] else buf[k])
  }

  /** fillInner: the encoding is normalised first (an unknown name is a TypeError), then
      `offset` must lie in [0, 2^32] and `end` in [0, length]; `offset > end - 1` changes
      nothing.  A number fills with its low byte, a hex string with hexStrtoNumbers of it,
      another string with the bytes `encode(s, encoding)` produces (the native encoder is a
      parameter). */
  function FillInner(buf: seq<Byte>, value: FillValue, offset: int, end: int, encoding: string,
                     encode: (string, string) -> seq<Byte>): (r: Result<seq<Byte>, Error>)
    ensures r.Success? ==> |r.value| == |buf|
    ensures NormalizeEncoding(encoding).None? ==> r == Failure(TypeError)
    ensures NormalizeEncoding(encoding).Some? && !(0 <= offset <= TwoPow32) ==>
      r == Failure(RangeError("offset"))
    ensures r.Success? && (offset > end - 1) ==> r.value == buf
  {
    match NormalizeEncoding(encoding)
    case None => Failure(TypeError)
    case Some(enc) =>
      if !(0 <= offset <= TwoPow32) then Failure(RangeError("offset"))
      else if !(0 <= end <= |buf|) then Failure(RangeError("end"))
      else if offset > end - 1 then Success(buf)
      else
        match value
        case FillNumber(n) => Success(FillPattern(buf, [Low8(n)], offset, end))
        case FillBytes(b) => Success(FillPattern(buf, b, offset, end))
        case FillString(s) =>
          if enc == "hex" then
            match HexStrToNumbers(s)
            case Failure(e) => Failure(e)
            case Success(nums) => Success(FillPattern(buf, nums, offset, end))
          else Success(FillPattern(buf, encode(s, enc), offset, end))
  }

  /** Filling with a number sets every byte of `[offset, end)` to its low byte and no other. */
  lemma FillNumberSetsRange(buf: seq<Byte>, n: int, offset: int, end: int, encoding: string,
                            encode: (string, string) -> seq<Byte>)
    requires FillInner(buf, FillNumber(n), offset, end, encoding, encode).Success?
    ensures var r := FillInner(buf, FillNumber(n), offset, end, encoding, encode).value;
      forall k :: 0 <= k < |buf| ==> r[k] == if offset <= k < end then n % 256 else buf[k]
  {
  }

  // ---------------------------------------------------------------------------------
  // Base64 byte-length estimate
  // ---------------------------------------------------------------------------------

  /** Number of occurrences of `c` in `s[from..]`. */
  function CountFrom(s: string, c: char, from: nat): (n: nat)
    ensures n <= |s| - from || from > |s|
    decreases |s| - from
  {
    if from >= |s| then 0 else (if s[from] == c then 1 else 0) + CountFrom(s, c, from + 1)
  }

  lemma {:induction false} CountSkip(s: string, c: char, from: nat, to: nat)
    requires from <= to <= |s| && forall k :: from <= k < to ==> s[k] != c
    ensures CountFrom(s, c, from) == CountFrom(s, c, to)
    decreases (to as int) - from
  {
    if from < to {
      CountSkip(s, c, from + 1, to);
    }
  }

  /** getBase64ByteLength: the count starts from the string's `length` in UTF-16 code units;
      every '=' anywhere in the string lowers it, stopping at 1; the result is
      `(bytes * 3) >>> 2`. */
  method Base64ByteLength(str: string) returns (r: nat)
    ensures var bytes := if |str| == 0 then 0 else Max(Utf16Length(str) - CountFrom(str, '=', 0), 1);
      r == ToUint32(bytes * 3) / 4
  {
    var bytes := Utf16Length(str);
    var pos := 0;
    var found := IndexOf(str, '=', pos);
    while bytes > 1 && found.Some?
      invariant 0 <= pos <= |str|
      invariant found == IndexOf(str, '=', pos)
      invariant |str| > 0 ==> 1 <= bytes
      invariant |str| == 0 ==> bytes == 0
      invariant bytes == Utf16Length(str) - (CountFrom(str, '=', 0) - CountFrom(str, '=', pos))
      invariant CountFrom(str, '=', pos) <= CountFrom(str, '=', 0)
      decreases |str| - pos
    {
      CountSkip(str, '=', pos, found.value);
      bytes := bytes - 1;
      pos := found.value + 1;
      found := IndexOf(str, '=', pos);
    }
    if found.None? {
      CountSkip(str, '=', pos, |str|);
    }
    r := ToUint32(bytes * 3) / 4;
  }

  function Max(a: int, b: int): int {
    if a > b then a else b
  }

  // ---------------------------------------------------------------------------------
  // Allocation pool
  // ---------------------------------------------------------------------------------

  /** alignPool: an offset with any of its low three bits set is raised to the next
      multiple of 8 (`offset |= 7; offset++`). */
  function AlignPool(offset: nat): (r: nat)
    ensures r % 8 == 0 && offset <= r < offset + 8
    ensures r == offset <==> offset % 8 == 0
  {
    if offset % 8 != 0 then (offset / 8) * 8 + 7 + 1 else offset
  }

  const InitialPoolSize: nat := 8 * 1024

  /** The shared pool: its size and the next free offset. */
  datatype Pool = Pool(size: nat, offset: nat)

  predicate PoolValid(p: Pool) {
    p.size == InitialPoolSize && p.offset <= p.size && p.offset % 8 == 0
  }

  /** Where an allocation landed: a slice of the pool from `start`, or a fresh buffer. */
  datatype Placement = InPool(start: nat) | Fresh

  /** allocUninitializedFromPool(size): sizes outside [0, 2^32] are a TypeError; sizes
      below half the pool are cut from the pool (a fresh pool when the rest is too short),
      and the offset is then aligned; larger sizes get their own buffer. */
  function PoolAlloc(p: Pool, size: int): (r: Result<(Pool, Placement), Error>)
    requires PoolValid(p)
    ensures r.Failure? <==> !(0 <= size <= TwoPow32)
    ensures r.Success? ==> PoolValid(r.value.0)
    ensures r.Success? && r.value.1.InPool? ==>
      r.value.1.start + size <= r.value.0.offset <= p.size
  {
    if !(0 <= size <= TwoPow32) then Failure(TypeError)
    else if size < p.size / 2 then
      var q := if size > p.size - p.offset then Pool(InitialPoolSize, 0) else p;
      Success((Pool(q.size, AlignPool(q.offset + size)), InPool(q.offset)))
    else Success((p, Fresh))
  }

  /** Two allocations from the same pool, one after the other, do not overlap. */
  lemma PoolAllocDisjoint(p: Pool, size1: nat, size2: nat)
    requires PoolValid(p) && PoolAlloc(p, size1).Success?
    requires var (q, a) := PoolAlloc(p, size1).value;
      a.InPool? && PoolAlloc(q, size2).Success? && PoolAlloc(q, size2).value.1.InPool? &&
      size2 <= q.size - q.offset
    ensures var (q, a) := PoolAlloc(p, size1).value;
      a.start + size1 <= PoolAlloc(q, size2).value.1.start
  {
  }
}

=== FILE: BufferInt.dfy ===
/** Fixed-width integer reads and writes of the ArkTS Buffer
    (js_api_module/buffer/src/js_buffer.ts) over the buffer's bytes: 8 to 48-bit signed and
    unsigned fields in both byte orders, the 64-bit bigint fields, the variable-width
    `readIntBE`/`writeUIntLE` family that dispatches on `byteLength`, and the offset and
    value range guards.  Each reader and writer is given as the source computes it (shift
    chains, byte stores that keep `x & 0xFF`, the int32 sign fill) and is proved equal to
    the reference encoding of ByteCodec. */
module BufferInt {
  import opened Wrappers
  import opened IntArith
  import opened ByteCodec
  import opened JsInt

  /** The errors the buffer throws: BusinessErrors with a code, and the plain Error of the
      hex parser. */
  datatype Error =
    | TypeError                 // 401
    | RangeError(param: string) // 10200001, naming the offending parameter
    | BufferSizeError           // 10200009
    | InvalidArgument           // plain Error, no code

  function Code(e: Error): Option<int> {
    match e
    case TypeError => Some(401)
    case RangeError(_) => Some(10200001)
    case BufferSizeError => Some(10200009)
    case InvalidArgument => None
  }

  /** Field widths in bytes: 1 to 6 (the `byteLength` accessors) and 8 (the bigint ones). */
  predicate ValidSize(n: int) {
    1 <= n <= 6 || n == 8
  }

  datatype Format = Format(size: nat, signed: bool, endian: Endian)

  // ---------------------------------------------------------------------------------
  // Indexed access through the proxy handler
  // ---------------------------------------------------------------------------------

  /** HandlerBuffer.get: `undefined` at or past the length. */
  function GetIndex(buf: seq<Byte>, i: nat): Option<Byte> {
    if i >= |buf| then None else Some(buf[i])
  }

  /** HandlerBuffer.set: refused at or past the length, otherwise stores `value & 0xFF`. */
  function SetIndex(buf: seq<Byte>, i: nat, value: int): Option<seq<Byte>> {
    if i >= |buf| then None else Some(buf[i := Low8(value)])
  }

  lemma SetThenGet(buf: seq<Byte>, i: nat, j: nat, value: int)
    ensures SetIndex(buf, i, value).None? <==> i >= |buf|
    ensures SetIndex(buf, i, value).Some? ==>
      GetIndex(SetIndex(buf, i, value).value, j) ==
        (if j == i then Some(value % 256) else GetIndex(buf, j))
  {
  }

  // ---------------------------------------------------------------------------------
  // Byte runs as the source stores and reads them
  // ---------------------------------------------------------------------------------

  /** The bytes the source's `n`-byte writer stores for `v`, in buffer order, each as its
      chain of `>>> 8`, `>> 8` and `Math.floor(v * 2 ** -32)` leaves it.  The 32-bit
      writers store through the native buffer, taken here as the reference encoding. */
  function StoredBytes(v: int, n: nat, e: Endian): (s: seq<Byte>)
    requires ValidSize(n)
    ensures |s| == n
  {
    var b0, b1 := Low8(v), Low8(Ushr8(v));
    var b2, b3 := Low8(Ushr8(Ushr8(v))), Low8(Ushr8(Ushr8(Ushr8(v))));
    var h := High32(v);
    if n == 1 then
      [b0]
    else if n == 2 then
      if e == BE then [b1, b0] else [b0, b1]
    else if n == 3 then
      if e == BE then [b2, b1, b0] else [b0, b1, b2]
    else if n == 4 then
      Encode(v, 4, e)
    else if n == 5 then
      if e == BE then [Low8(h), b3, b2, b1, b0] else [b0, b1, b2, b3, Low8(h)]
    else if n == 6 then
      if e == BE then [Low8(Ushr8(h)), Low8(h), b3, b2, b1, b0]
      else [b0, b1, b2, b3, Low8(h), Low8(Ushr8(h))]
    else
      // convertToBig64BE/LE: the low and high words, each shifted with `>> 8`
      var lo, hi := ToUint32(v), ToUint32(h);
      var l := [Low8(lo), Low8(Sar8(lo)), Low8(Sar8(Sar8(lo))), Low8(Sar8(Sar8(Sar8(lo))))];
      var u := [Low8(hi), Low8(Sar8(hi)), Low8(Sar8(Sar8(hi))), Low8(Sar8(Sar8(Sar8(hi))))];
      if e == BE then [u[3], u[2], u[1], u[0], l[3], l[2], l[1], l[0]] else l + u
  }

  /** The value the source's `n`-byte reader computes from the bytes at the offset.  The
      signed 8, 16 and 24-bit parts go through the int32 sign fill `val | (val & 2^(k-1)) * M`
      (SignFill); the 32-bit readers are native, taken here as the reference reading. */
  function ReadAsWritten(s: seq<Byte>, signed: bool, e: Endian): int
    requires ValidSize(|s|)
  {
    var n := |s|;
    if n == 1 then
      if signed then SignFill(s[0], 1) else s[0]
    else if n == 2 then
      var v := if e == BE then (s[0] as int) * 256 + s[1] else s[0] + (s[1] as int) * 256;
      if signed then SignFill(v, 2) else v
    else if n == 3 then
      if signed then SignFill(Value(s, e), 3) else Value(s, e)
    else if n == 4 then
      Decode(s, signed, e)
    else if n == 5 then
      if e == BE then
        if signed then SignFill(s[0], 1) * TwoPow32 + ValueBE(s[1..]) else ValueBE(s)
      else
        if signed then SignFill(s[4], 1) * TwoPow32 + ValueLE(s[..4]) else ValueLE(s)
    else if n == 6 then
      if e == BE then
        var hi := ValueBE(s[..2]);
        (if signed then SignFill(hi, 2) else hi) * TwoPow32 + ValueBE(s[2..])
      else
        var hi := ValueLE(s[4..]);
        ValueLE(s[..4]) + (if signed then SignFill(hi, 2) else hi) * TwoPow32
    else if e == BE then
      if signed then (Shl24(s[0]) + ValueBE(s[1..4])) * TwoPow32 + ValueBE(s[4..])
      else ValueBE(s[..4]) * TwoPow32 + ValueBE(s[4..])
    else
      if signed then (ValueLE(s[4..7]) + Shl24(s[7])) * TwoPow32 + ValueLE(s[..4])
      else ValueLE(s[..4]) + ValueLE(s[4..]) * TwoPow32
  }

  /** The value range the source's writer checks (rangeErrorCheck with the literal bounds
      of each method), or None where the source has no writer: there is no signed 24, 40
      or 48-bit writer.  The signed 64-bit bound is written inclusive of 2^63. */
  function SourceRange(n: nat, signed: bool): Option<(int, int)> {
    if n == 1 then Some(if signed then (-128, 127) else (0, 255))
    else if n == 2 then Some(if signed then (-0x8000, 0x7FFF) else (0, 0xFFFF))
    else if n == 3 then (if signed then None else Some((0, 0xFF_FFFF)))
    else if n == 4 then Some(if signed then (-0x8000_0000, 0x7FFF_FFFF) else (0, 0xFFFF_FFFF))
    else if n == 5 then (if signed then None else Some((0, 0xFF_FFFF_FFFF)))
    else if n == 6 then (if signed then None else Some((0, 0xFFFF_FFFF_FFFF)))
    else if n == 8 then
      Some(if signed then (-0x8000_0000_0000_0000, 0x8000_0000_0000_0000)
           else (0, 0xFFFF_FFFF_FFFF_FFFF))
    else None
  }

  // ---------------------------------------------------------------------------------
  // Reads and writes at an offset
  // ---------------------------------------------------------------------------------

  /** checkOffsetRange: `rangeErrorCheck(offset, 'offset', 0, this.length - size)`. */
  predicate OffsetOk(len: nat, offset: int, size: nat) {
    0 <= offset <= len - size
  }

  datatype Written = Written(buf: seq<Byte>, next: int)

  /** Replaces the bytes from `offset` on by `bytes`. */
  function Store(buf: seq<Byte>, offset: nat, bytes: seq<Byte>): (r: seq<Byte>)
    requires offset + |bytes| <= |buf|
    ensures |r| == |buf|
    ensures r[offset..offset + |bytes|] == bytes
    ensures forall i :: 0 <= i < |buf| && !(offset <= i < offset + |bytes|) ==> r[i] == buf[i]
  {
    buf[..offset] + bytes + buf[offset + |bytes|..]
  }

  /** A fixed-width read: the offset guard, then the source's formula on the field. */
  function Read(buf: seq<Byte>, offset: int, f: Format): (r: Result<int, Error>)
    requires ValidSize(f.size)
    ensures r.Failure? <==> !OffsetOk(|buf|, offset, f.size)
    ensures r.Failure? ==> r.error == RangeError("offset")
    ensures r.Success? ==>
      r.value == Decode(buf[offset..offset + f.size], f.signed, f.endian) &&
      Fits(r.value, f.size, f.signed)
  {
    if !OffsetOk(|buf|, offset, f.size) then Failure(RangeError("offset"))
    else
      var s := buf[offset..offset + f.size];
      ReadDecodes(s, f.signed, f.endian);
      DecodeFits(s, f.signed, f.endian);
      Success(ReadAsWritten(s, f.signed, f.endian))
  }

  /** A fixed-width write as the source performs it: the offset guard, the value guard of
      SourceRange, then the stores; it returns the offset past the field. */
  function WriteAsWritten(buf: seq<Byte>, value: int, offset: int, f: Format): (r: Result<Written, Error>)
    requires ValidSize(f.size) && SourceRange(f.size, f.signed).Some?
    ensures r.Failure? ==>
      r.error == RangeError(if OffsetOk(|buf|, offset, f.size) then "value" else "offset")
  {
    var range := SourceRange(f.size, f.signed).value;
    if !OffsetOk(|buf|, offset, f.size) then Failure(RangeError("offset"))
    else if value < range.0 || value > range.1 then Failure(RangeError("value"))
    else Success(Written(Store(buf, offset, StoredBytes(value, f.size, f.endian)), offset + f.size))
  }

  /** The write the rest of the model uses: the value guard accepts exactly the values
      the field represents (for the signed 64-bit field this excludes 2^63). */
  function Write(buf: seq<Byte>, value: int, offset: int, f: Format): (r: Result<Written, Error>)
    requires ValidSize(f.size)
    ensures r.Success? <==> OffsetOk(|buf|, offset, f.size) && Fits(value, f.size, f.signed)
    ensures r.Failure? ==>
      r.error == RangeError(if OffsetOk(|buf|, offset, f.size) then "value" else "offset")
    ensures r.Success? ==> r.value.next == offset + f.size && |r.value.buf| == |buf|
  {
    if !OffsetOk(|buf|, offset, f.size) then Failure(RangeError("offset"))
    else if !Fits(value, f.size, f.signed) then Failure(RangeError("value"))
    else Success(Written(Store(buf, offset, Encode(value, f.size, f.endian)), offset + f.size))
  }

  // ---------------------------------------------------------------------------------
  // The byteLength dispatch of readIntBE, writeUIntLE and the rest
  // ---------------------------------------------------------------------------------

  /** The four Style values of readData/writeData. */
  datatype Style = IntBE | IntLE | UIntBE | UIntLE {
    predicate Signed() {
      this == IntBE || this == IntLE
    }
    function Order(): Endian {
      if this == IntBE || this == UIntBE then BE else LE
    }
  }

  /** readData: `byteLength` must lie in [1, 6]; then the reader of that width and style. */
  function ReadData(buf: seq<Byte>, offset: int, byteLength: int, style: Style): (r: Result<int, Error>)
    ensures !(1 <= byteLength <= 6) ==> r == Failure(RangeError("byteLength"))
    ensures r.Success? <==> 1 <= byteLength <= 6 && OffsetOk(|buf|, offset, byteLength)
    ensures r.Success? ==>
      r.value == Decode(buf[offset..offset + byteLength], style.Signed(), style.Order())
  {
    if !(1 <= byteLength <= 6) then Failure(RangeError("byteLength"))
    else Read(buf, offset, Format(byteLength, style.Signed(), style.Order()))
  }

  /** The writer writeData picks, as written: writeIntBEType sends 3, 5 and 6 bytes to
      the unsigned writers, and writeIntLE goes through writeUIntLEType for every width. */
  function WriterFormatAsWritten(byteLength: nat, style: Style): (f: Format)
    requires 1 <= byteLength <= 6
    ensures SourceRange(f.size, f.signed).Some?
  {
    match style
    case IntBE => Format(byteLength, byteLength == 1 || byteLength == 2 || byteLength == 4, BE)
    case IntLE => Format(byteLength, false, LE)
    case UIntBE => Format(byteLength, false, BE)
    case UIntLE => Format(byteLength, false, LE)
  }

  /** writeData as written. */
  function WriteDataAsWritten(buf: seq<Byte>, value: int, offset: int, byteLength: int, style: Style)
    : (r: Result<Written, Error>)
    ensures !(1 <= byteLength <= 6) ==> r == Failure(RangeError("byteLength"))
  {
    if !(1 <= byteLength <= 6) then Failure(RangeError("byteLength"))
    else WriteAsWritten(buf, value, offset, WriterFormatAsWritten(byteLength, style))
  }

  /** writeData with each style writing the field its reader reads: signed styles accept
      the signed range of every width. */
  function WriteData(buf: seq<Byte>, value: int, offset: int, byteLength: int, style: Style)
    : (r: Result<Written, Error>)
    ensures !(1 <= byteLength <= 6) ==> r == Failure(RangeError("byteLength"))
    ensures r.Success? <==>
      1 <= byteLength <= 6 && OffsetOk(|buf|, offset, byteLength) &&
      Fits(value, byteLength, style.Signed())
  {
    if !(1 <= byteLength <= 6) then Failure(RangeError("byteLength"))
    else Write(buf, value, offset, Format(byteLength, style.Signed(), style.Order()))
  }

  // ---------------------------------------------------------------------------------
  // The source's formulas against the reference encoding
  // ---------------------------------------------------------------------------------

  /** Every reader computes the reference reading of its field. */
  lemma ReadDecodes(s: seq<Byte>, signed: bool, e: Endian)
    requires ValidSize(|s|)
    ensures ReadAsWritten(s, signed, e) == Decode(s, signed, e)
  {
    var n := |s|;
    Pow256Values();
    if n == 1 {
      SignFillSigned(s[0], 1);
      assert ValueBE(s) == s[0] && ValueLE(s) == s[0] by {
        assert s[..0] == [] && s[1..] == [];
      }
    } else if n == 2 {
      assert ValueBE(s) == (s[0] as int) * 256 + s[1] && ValueLE(s) == s[0] + (s[1] as int) * 256 by {
        ValueBESplit(s, 1);
        ValueLESplit(s, 1);
        Pow256Values();
        assert ValueBE(s[..1]) == s[0] && ValueBE(s[1..]) == s[1] by {
          assert s[..1][..0] == [] && s[1..][..0] == [];
        }
        assert ValueLE(s[..1]) == s[0] && ValueLE(s[1..]) == s[1] by {
          assert s[..1][1..] == [] && s[1..][1..] == [];
        }
      }
      var v := if e == BE then (s[0] as int) * 256 + s[1] else s[0] + (s[1] as int) * 256;
      SignFillSigned(v, 2);
    } else if n == 3 {
      SignFillSigned(Value(s, e), 3);
    } else if n == 5 {
      ReadDecodes5(s, signed, e);
    } else if n == 6 {
      ReadDecodes6(s, signed, e);
    } else if n == 8 {
      ReadDecodes8(s, signed, e);
    }
  }

  lemma ReadDecodes5(s: seq<Byte>, signed: bool, e: Endian)
    requires |s| == 5
    ensures ReadAsWritten(s, signed, e) == Decode(s, signed, e)
  {
    Pow256Values();
    if e == BE {
      SignFillSigned(s[0], 1);
      ValueBESplit(s, 1);
      ValueOfOne(s[..1]);
      SignedHigh(s[0], ValueBE(s[1..]), 1, 4);
    } else {
      SignFillSigned(s[4], 1);
      ValueLESplit(s, 4);
      ValueOfOne(s[4..]);
      SignedHigh(s[4], ValueLE(s[..4]), 1, 4);
    }
  }

  lemma ReadDecodes6(s: seq<Byte>, signed: bool, e: Endian)
    requires |s| == 6
    ensures ReadAsWritten(s, signed, e) == Decode(s, signed, e)
  {
    Pow256Values();
    if e == BE {
      SignFillSigned(ValueBE(s[..2]), 2);
      ValueBESplit(s, 2);
      SignedHigh(ValueBE(s[..2]), ValueBE(s[2..]), 2, 4);
    } else {
      SignFillSigned(ValueLE(s[4..]), 2);
      ValueLESplit(s, 4);
      SignedHigh(ValueLE(s[4..]), ValueLE(s[..4]), 2, 4);
    }
  }

  lemma ReadDecodes8(s: seq<Byte>, signed: bool, e: Endian)
    requires |s| == 8
    ensures ReadAsWritten(s, signed, e) == Decode(s, signed, e)
  {
    Pow256Values();
    if e == BE {
      var hi := s[..4];
      ValueBESplit(s, 4);
      assert hi[..1] == s[..1] && hi[1..] == s[1..4];
      ValueBESplit(hi, 1);
      ValueOfOne(s[..1]);
      Shl24Byte(s[0]);
      SignedHigh(s[0], ValueBE(s[1..4]), 1, 3);
      SignedHigh(ValueBE(hi), ValueBE(s[4..]), 4, 4);
    } else {
      var hi := s[4..];
      ValueLESplit(s, 4);
      assert hi[..3] == s[4..7] && hi[3..] == s[7..];
      ValueLESplit(hi, 3);
      ValueOfOne(s[7..]);
      Shl24Byte(s[7]);
      SignedHigh(s[7], ValueLE(s[4..7]), 1, 3);
      SignedHigh(ValueLE(hi), ValueLE(s[..4]), 4, 4);
    }
  }

  lemma ValueOfOne(s: seq<Byte>)
    requires |s| == 1
    ensures ValueBE(s) == s[0] && ValueLE(s) == s[0]
  {
    assert s[..0] == [] && s[1..] == [];
  }

  lemma ValueBESplit(s: seq<Byte>, k: nat)
    requires k <= |s|
    ensures ValueBE(s) == ValueBE(s[..k]) * Pow256(|s| - k) + ValueBE(s[k..])
  {
    assert s[..k] + s[k..] == s;
    ValueBEAppend(s[..k], s[k..]);
  }

  lemma ValueLESplit(s: seq<Byte>, k: nat)
    requires k <= |s|
    ensures ValueLE(s) == ValueLE(s[..k]) + Pow256(k) * ValueLE(s[k..])
  {
    assert s[..k] + s[k..] == s;
    ValueLEAppend(s[..k], s[k..]);
  }

  /** The signed reading of a high part of `nh` bytes above an unsigned low part of `nl`
      bytes is the signed reading of the whole field. */
  lemma SignedHigh(hi: int, lo: int, nh: nat, nl: nat)
    requires (nh, nl) in {(1, 3), (1, 4), (2, 4), (4, 4)}
    requires 0 <= hi < Pow256(nh) && 0 <= lo < Pow256(nl)
    ensures Signed(hi, nh) * Pow256(nl) + lo == Signed(hi * Pow256(nl) + lo, nh + nl)
  {
    Pow256Values();
    if nh == 4 {
      assert Pow256(7) == 0x100_0000_0000_0000;
    }
  }

  /** The reading of any field lies in the field's range. */
  lemma DecodeFits(s: seq<Byte>, signed: bool, e: Endian)
    requires |s| > 0
    ensures Fits(Decode(s, signed, e), |s|, signed)
  {
    assert Pow256(|s|) == 256 * Pow256(|s| - 1);
  }

  /** Every writer stores the reference encoding of its value. */
  lemma StoredBytesEncode(v: int, n: nat, e: Endian)
    requires ValidSize(n)
    ensures StoredBytes(v, n, e) == Encode(v, n, e)
  {
    if n <= 3 {
      StoredShort(v, n, e);
    } else if n == 5 || n == 6 {
      StoredWide(v, n, e);
    } else if n == 8 {
      Stored64(v, e);
    }
  }

  /** Byte `j` of `v` sits at position `n - 1 - j` (BE) or `j` (LE) of its encoding. */
  lemma EncodeAt(v: int, n: nat, e: Endian, k: nat)
    requires k < n
    ensures Encode(v, n, e)[k] == ByteOf(v, if e == BE then n - 1 - k else k)
  {
    if e == BE {
      BytesBEAt(v, n, n - 1 - k);
    } else {
      BytesLEAt(v, n, k);
    }
  }

  lemma StoredShort(v: int, n: nat, e: Endian)
    requires 1 <= n <= 3
    ensures StoredBytes(v, n, e) == Encode(v, n, e)
  {
    var s, t := StoredBytes(v, n, e), Encode(v, n, e);
    UshrBytes(v);
    forall k | 0 <= k < n
      ensures s[k] == t[k]
    {
      EncodeAt(v, n, e, k);
    }
  }

  lemma StoredWide(v: int, n: nat, e: Endian)
    requires n == 5 || n == 6
    ensures StoredBytes(v, n, e) == Encode(v, n, e)
  {
    var s, t := StoredBytes(v, n, e), Encode(v, n, e);
    UshrBytes(v);
    UshrBytes(High32(v));
    High32Bytes(v, 0);
    High32Bytes(v, 1);
    forall k | 0 <= k < n
      ensures s[k] == t[k]
    {
      EncodeAt(v, n, e, k);
    }
  }

  /** The four bytes `>> 8` extracts from ToUint32(x) are bytes 0 to 3 of `x`. */
  lemma WordBytes(x: int)
    ensures Low8(ToUint32(x)) == ByteOf(x, 0)
    ensures Low8(Sar8(ToUint32(x))) == ByteOf(x, 1)
    ensures Low8(Sar8(Sar8(ToUint32(x)))) == ByteOf(x, 2)
    ensures Low8(Sar8(Sar8(Sar8(ToUint32(x))))) == ByteOf(x, 3)
  {
    var u := ToUint32(x);
    SarBytes(u);
    UshrBytes(u);
    LowBytesOfUint32(x, 0);
    LowBytesOfUint32(x, 1);
    LowBytesOfUint32(x, 2);
    LowBytesOfUint32(x, 3);
  }

  lemma Stored64(v: int, e: Endian)
    ensures StoredBytes(v, 8, e) == Encode(v, 8, e)
  {
    var s, t := StoredBytes(v, 8, e), Encode(v, 8, e);
    forall k | 0 <= k < 8
      ensures s[k] == t[k]
    {
      var j := if e == BE then 7 - k else k;
      Stored64At(v, e, j);
      EncodeAt(v, 8, e, k);
    }
  }

  /** convertToBig64BE/LE store byte `j` of the value at its place. */
  lemma Stored64At(v: int, e: Endian, j: nat)
    requires j < 8
    ensures StoredBytes(v, 8, e)[if e == BE then 7 - j else j] == ByteOf(v, j)
  {
    if j < 4 {
      WordBytes(v);
    } else {
      WordBytes(High32(v));
      High32Bytes(v, j - 4);
    }
  }

  // ---------------------------------------------------------------------------------
  // Properties of reads and writes
  // ---------------------------------------------------------------------------------

  /** Apart from the signed 64-bit writers, the source's value guard accepts exactly the
      values the field represents. */
  lemma SourceRangeIsFits(n: nat, signed: bool, v: int)
    requires SourceRange(n, signed).Some? && !(n == 8 && signed)
    ensures var range := SourceRange(n, signed).value;
      range.0 <= v <= range.1 <==> Fits(v, n, signed)
  {
    Pow256Values();
  }

  /** Every writer of the source except the signed 64-bit ones behaves as Write. */
  lemma WriteAsWrittenAgrees(buf: seq<Byte>, value: int, offset: int, f: Format)
    requires ValidSize(f.size) && SourceRange(f.size, f.signed).Some? && !(f.size == 8 && f.signed)
    ensures WriteAsWritten(buf, value, offset, f) == Write(buf, value, offset, f)
  {
    SourceRangeIsFits(f.size, f.signed, value);
    StoredBytesEncode(value, f.size, f.endian);
  }

  /** Reading a field just written gives the value back, and no byte outside the field
      changes. */
  lemma WriteThenRead(buf: seq<Byte>, value: int, offset: int, f: Format)
    requires ValidSize(f.size) && Write(buf, value, offset, f).Success?
    ensures Read(Write(buf, value, offset, f).value.buf, offset, f) == Success(value)
    ensures forall i :: 0 <= i < |buf| && !(offset <= i < offset + f.size) ==>
      Write(buf, value, offset, f).value.buf[i] == buf[i]
  {
    DecodeEncode(value, f.size, f.signed, f.endian);
  }

  /** Writing back the value just read changes nothing. */
  lemma ReadThenWrite(buf: seq<Byte>, offset: int, f: Format)
    requires ValidSize(f.size) && Read(buf, offset, f).Success?
    ensures Write(buf, Read(buf, offset, f).value, offset, f) == Success(Written(buf, offset + f.size))
  {
    WriteDecoded(buf, offset, f, Read(buf, offset, f).value);
  }

  lemma WriteDecoded(buf: seq<Byte>, offset: nat, f: Format, v: int)
    requires ValidSize(f.size) && offset + f.size <= |buf|
    requires v == Decode(buf[offset..offset + f.size], f.signed, f.endian)
    ensures Write(buf, v, offset, f) == Success(Written(buf, offset + f.size))
  {
    var s := buf[offset..offset + f.size];
    DecodeFits(s, f.signed, f.endian);
    EncodeDecode(s, f.signed, f.endian);
    StoreSame(buf, offset, f.size);
  }

  /** Storing the bytes already in place gives the same buffer. */
  lemma StoreSame(buf: seq<Byte>, offset: nat, n: nat)
    requires offset + n <= |buf|
    ensures Store(buf, offset, buf[offset..offset + n]) == buf
  {
    assert buf[..offset] + buf[offset..offset + n] + buf[offset + n..] == buf;
  }

  /** writeUInt16BE stores the high byte, then the low byte, and returns `offset + 2`. */
  lemma UInt16BEStoresHighByteFirst(buf: seq<Byte>, value: int, offset: int)
    requires WriteAsWritten(buf, value, offset, Format(2, false, BE)).Success?
    ensures var w := WriteAsWritten(buf, value, offset, Format(2, false, BE)).value;
      w.next == offset + 2 && w.buf[offset] == value / 256 && w.buf[offset + 1] == value % 256
  {
    UshrBytes(value);
    ModSmall(value, TwoPow32);
    Pow256Values();
  }

  /** writeBigInt64BE/LE as written accept 2^63, which the matching reader gives back as
      -2^63. */
  lemma BigInt64AcceptsTwoPow63(e: Endian)
    ensures !Fits(0x8000_0000_0000_0000, 8, true)
    ensures var w := WriteAsWritten(Zeros8(), 0x8000_0000_0000_0000, 0, Format(8, true, e));
      w.Success? && Read(w.value.buf, 0, Format(8, true, e)) == Success(-0x8000_0000_0000_0000)
    ensures Write(Zeros8(), 0x8000_0000_0000_0000, 0, Format(8, true, e)) == Failure(RangeError("value"))
  {
    var v, f := 0x8000_0000_0000_0000, Format(8, true, e);
    Pow256Values();
    var bytes := StoredBytes(v, 8, e);
    var w := WriteAsWritten(Zeros8(), v, 0, f);
    assert w == Success(Written(Store(Zeros8(), 0, bytes), 8));
    assert w.value.buf[0..8] == bytes;
    assert Decode(bytes, true, e) == -0x8000_0000_0000_0000 by {
      StoredBytesEncode(v, 8, e);
      EncodedTwoPow63(e);
    }
  }

  lemma EncodedTwoPow63(e: Endian)
    ensures Value(Encode(0x8000_0000_0000_0000, 8, e), e) == 0x8000_0000_0000_0000
  {
    var v := 0x8000_0000_0000_0000;
    Pow256Values();
    if e == BE { ValueOfBytesBE(v, 8); } else { ValueOfBytesLE(v, 8); }
    ModSmall(v, Pow256(8));
  }

  function Zeros8(): (z: seq<Byte>)
    ensures |z| == 8
  {
    [0, 0, 0, 0, 0, 0, 0, 0]
  }

  /** writeIntLE as written rejects every negative value: all its widths go through the
      unsigned little-endian writers.  WriteData accepts the signed range. */
  lemma WriteIntLERejectsNegative(buf: seq<Byte>, value: int, offset: int, byteLength: int)
    requires 1 <= byteLength <= 6 && OffsetOk(|buf|, offset, byteLength) && value < 0
    ensures WriteDataAsWritten(buf, value, offset, byteLength, IntLE) == Failure(RangeError("value"))
    ensures WriteData(buf, value, offset, byteLength, IntLE).Success? <==> Fits(value, byteLength, true)
  {
  }

  /** writeIntBE as written with 3 bytes accepts 0xFFFFFF, which readIntBE gives back as -1;
      WriteData refuses it. */
  lemma WriteIntBE24Misread()
    ensures var w := WriteDataAsWritten([0, 0, 0], 0xFF_FFFF, 0, 3, IntBE);
      w.Success? && ReadData(w.value.buf, 0, 3, IntBE) == Success(-1)
    ensures WriteData([0, 0, 0], 0xFF_FFFF, 0, 3, IntBE) == Failure(RangeError("value"))
  {
    Pow256Values();
    var w := WriteDataAsWritten([0, 0, 0], 0xFF_FFFF, 0, 3, IntBE).value;
    WriteAsWrittenAgrees([0, 0, 0], 0xFF_FFFF, 0, Format(3, false, BE));
    WriteThenRead([0, 0, 0], 0xFF_FFFF, 0, Format(3, false, BE));
  }

  /** With WriteData, readIntBE/readIntLE/readUIntBE/readUIntLE give back what the matching
      write stored. */
  lemma WriteDataThenReadData(buf: seq<Byte>, value: int, offset: int, byteLength: int, style: Style)
    requires WriteData(buf, value, offset, byteLength, style).Success?
    ensures ReadData(WriteData(buf, value, offset, byteLength, style).value.buf, offset, byteLength, style)
      == Success(value)
  {
    WriteThenRead(buf, value, offset, Format(byteLength, style.Signed(), style.Order()));
  }

  /** The unsigned styles, and the signed big-endian style at 1, 2 and 4 bytes, are
      unaffected by the correction. */
  lemma WriteDataAgrees(buf: seq<Byte>, value: int, offset: int, byteLength: int, style: Style)
    requires 1 <= byteLength <= 6
    requires !style.Signed() || (style == IntBE && byteLength in {1, 2, 4})
    ensures WriteDataAsWritten(buf, value, offset, byteLength, style)
      == WriteData(buf, value, offset, byteLength, style)
  {
    WriteAsWrittenAgrees(buf, value, offset, WriterFormatAsWritten(byteLength, style));
  }
}

=== FILE: ByteCodec.dfy ===
/** Reference definitions for integers stored as byte runs: the unsigned value of a run in
    either byte order, the two's-complement encoding of an integer into `n` bytes, and the
    signed reading.  The buffer's read and write methods are proved against these. */
module ByteCodec {
  import opened IntArith

  type Byte = x: int | 0 <= x < 256

  datatype Endian = BE | LE

  function Pow256(n: nat): (r: nat)
    ensures r > 0
  {
    if n == 0 then 1 else 256 * Pow256(n - 1)
  }

  lemma Pow256Values()
    ensures Pow256(1) == 0x100 && Pow256(2) == 0x1_0000 && Pow256(3) == 0x100_0000
    ensures Pow256(4) == 0x1_0000_0000 && Pow256(5) == 0x100_0000_0000
    ensures Pow256(6) == 0x1_0000_0000_0000
    ensures Pow256(8) == 0x1_0000_0000_0000_0000
  {
    assert Pow256(7) == 0x100_0000_0000_0000 by {
      assert Pow256(6) == 0x1_0000_0000_0000 by {
        assert Pow256(5) == 0x100_0000_0000;
      }
    }
  }

  lemma {:induction false} Pow256Add(a: nat, b: nat)
    ensures Pow256(a + b) == Pow256(a) * Pow256(b)
    decreases a
  {
    if a > 0 {
      Pow256Add(a - 1, b);
      assert Pow256(a + b) == 256 * Pow256(a - 1 + b);
    }
  }

  /** Unsigned value of a run, most significant byte first (the sum calculationBE forms). */
  function ValueBE(s: seq<Byte>): (v: nat)
    ensures v < Pow256(|s|)
  {
    if s == [] then 0 else ValueBE(s[..|s| - 1]) * 256 + s[|s| - 1]
  }

  /** Unsigned value of a run, least significant byte first (the sum calculationLE forms). */
  function ValueLE(s: seq<Byte>): (v: nat)
    ensures v < Pow256(|s|)
  {
    if s == [] then 0 else s[0] + 256 * ValueLE(s[1..])
  }

  function Value(s: seq<Byte>, e: Endian): (v: nat)
    ensures v < Pow256(|s|)
  {
    match e
    case BE => ValueBE(s)
    case LE => ValueLE(s)
  }

  /** The `n` low-order bytes of `v`'s two's complement, most significant first. */
  function BytesBE(v: int, n: nat): (s: seq<Byte>)
    ensures |s| == n
    decreases n
  {
    if n == 0 then [] else BytesBE(v / 256, n - 1) + [v % 256]
  }

  /** The `n` low-order bytes of `v`'s two's complement, least significant first. */
  function BytesLE(v: int, n: nat): (s: seq<Byte>)
    ensures |s| == n
    decreases n
  {
    if n == 0 then [] else [v % 256] + BytesLE(v / 256, n - 1)
  }

  function Encode(v: int, n: nat, e: Endian): (s: seq<Byte>)
    ensures |s| == n
  {
    match e
    case BE => BytesBE(v, n)
    case LE => BytesLE(v, n)
  }

  /** Two's-complement reading of an `n`-byte unsigned value. */
  function Signed(u: int, n: nat): int {
    if u >= Pow256(n) / 2 then u - Pow256(n) else u
  }

  function Decode(s: seq<Byte>, signed: bool, e: Endian): int {
    if signed then Signed(Value(s, e), |s|) else Value(s, e)
  }

  /** The values an `n`-byte field represents. */
  predicate Fits(v: int, n: nat, signed: bool) {
    if signed then -(Pow256(n) / 2) <= v < Pow256(n) / 2 else 0 <= v < Pow256(n)
  }

  /** Byte `j` (counting from the least significant) of `v`'s two's complement. */
  function ByteOf(v: int, j: nat): Byte {
    (v / Pow256(j)) % 256
  }

  // ---------------------------------------------------------------------------------
  // Round trips
  // ---------------------------------------------------------------------------------

  lemma {:induction false} ValueOfBytesBE(v: int, n: nat)
    ensures ValueBE(BytesBE(v, n)) == v % Pow256(n)
    decreases n
  {
    if n == 0 {
      ModUnique(v, 1, v, 0);
    } else {
      var init := BytesBE(v / 256, n - 1);
      var s := BytesBE(v, n);
      assert s[..|s| - 1] == init;
      ValueOfBytesBE(v / 256, n - 1);
      ModSplit(v, Pow256(n - 1));
    }
  }

  lemma {:induction false} ValueOfBytesLE(v: int, n: nat)
    ensures ValueLE(BytesLE(v, n)) == v % Pow256(n)
    decreases n
  {
    if n == 0 {
      ModUnique(v, 1, v, 0);
    } else {
      var s := BytesLE(v, n);
      assert s[1..] == BytesLE(v / 256, n - 1);
      ValueOfBytesLE(v / 256, n - 1);
      ModSplit(v, Pow256(n - 1));
    }
  }

  lemma {:induction false} BytesOfValueBE(s: seq<Byte>)
    ensures BytesBE(ValueBE(s), |s|) == s
  {
    if s != [] {
      var init, last := s[..|s| - 1], s[|s| - 1];
      var v := ValueBE(s);
      ModUnique(v, 256, ValueBE(init), last);
      BytesOfValueBE(init);
      assert s == init + [last];
    }
  }

  lemma {:induction false} BytesOfValueLE(s: seq<Byte>)
    ensures BytesLE(ValueLE(s), |s|) == s
  {
    if s != [] {
      var v := ValueLE(s);
      ModUnique(v, 256, ValueLE(s[1..]), s[0]);
      BytesOfValueLE(s[1..]);
      assert s == [s[0]] + s[1..];
    }
  }

  /** Decoding an encoded value that fits gives the value back. */
  lemma DecodeEncode(v: int, n: nat, signed: bool, e: Endian)
    requires n > 0 && Fits(v, n, signed)
    ensures Decode(Encode(v, n, e), signed, e) == v
  {
    var p := Pow256(n);
    assert Value(Encode(v, n, e), e) == v % p by {
      if e == BE { ValueOfBytesBE(v, n); } else { ValueOfBytesLE(v, n); }
    }
    assert p == 256 * Pow256(n - 1);
    if v >= 0 {
      ModSmall(v, p);
    } else {
      ModUnique(v, p, -1, v + p);
    }
  }

  /** Encoding the decoded value of a run gives the run back. */
  lemma EncodeDecode(s: seq<Byte>, signed: bool, e: Endian)
    ensures Encode(Decode(s, signed, e), |s|, e) == s
  {
    var n, u := |s|, Value(s, e);
    assert Encode(u, n, e) == s by {
      if e == BE { BytesOfValueBE(s); } else { BytesOfValueLE(s); }
    }
    if signed && u >= Pow256(n) / 2 {
      var w := u - Pow256(n);
      assert Encode(w, n, e) == Encode(u, n, e) by {
        if e == BE {
          ValueOfBytesBE(w, n);
          ValueOfBytesBE(u, n);
          DivShift(w, Pow256(n), 1);
          BytesOfValueBE(BytesBE(w, n));
          BytesOfValueBE(BytesBE(u, n));
        } else {
          ValueOfBytesLE(w, n);
          ValueOfBytesLE(u, n);
          DivShift(w, Pow256(n), 1);
          BytesOfValueLE(BytesLE(w, n));
          BytesOfValueLE(BytesLE(u, n));
        }
      }
    }
  }

  // ---------------------------------------------------------------------------------
  // Positions and splits
  // ---------------------------------------------------------------------------------

  lemma {:induction false} BytesLEAt(v: int, n: nat, j: nat)
    requires j < n
    ensures BytesLE(v, n)[j] == ByteOf(v, j)
    decreases j
  {
    if j > 0 {
      assert BytesLE(v, n)[j] == BytesLE(v / 256, n - 1)[j - 1];
      BytesLEAt(v / 256, n - 1, j - 1);
      ByteOfQuotient(v, j);
    }
  }

  /** Byte `j` of `v` is byte `j - 1` of `v / 256`. */
  lemma ByteOfQuotient(v: int, j: nat)
    requires j > 0
    ensures ByteOf(v / 256, j - 1) == ByteOf(v, j)
  {
    DivDiv(v, 256, Pow256(j - 1));
    assert 256 * Pow256(j - 1) == Pow256(j);
  }

  lemma {:induction false} BytesBEAt(v: int, n: nat, j: nat)
    requires j < n
    ensures BytesBE(v, n)[n - 1 - j] == ByteOf(v, j)
    decreases j
  {
    if j > 0 {
      assert BytesBE(v, n)[n - 1 - j] == BytesBE(v / 256, n - 1)[(n - 1) - 1 - (j - 1)];
      BytesBEAt(v / 256, n - 1, j - 1);
      ByteOfQuotient(v, j);
    }
  }

  lemma {:induction false} ValueBEAppend(a: seq<Byte>, b: seq<Byte>)
    ensures ValueBE(a + b) == ValueBE(a) * Pow256(|b|) + ValueBE(b)
  {
    if b != [] {
      var ab, b' := a + b, b[..|b| - 1];
      assert ab[..|ab| - 1] == a + b';
      ValueBEAppend(a, b');
      ShiftStep(ValueBE(a), Pow256(|b'|), ValueBE(b'), b[|b| - 1]);
    } else {
      assert a + b == a;
    }
  }

  /** Arithmetic of one Horner step: `(x * q + y) * 256 + z == x * (q * 256) + (y * 256 + z)`. */
  lemma ShiftStep(x: int, q: int, y: int, z: int)
    ensures (x * q + y) * 256 + z == x * (q * 256) + (y * 256 + z)
  {
  }

  lemma {:induction false} ValueLEAppend(a: seq<Byte>, b: seq<Byte>)
    ensures ValueLE(a + b) == ValueLE(a) + Pow256(|a|) * ValueLE(b)
  {
    if a != [] {
      var ab := a + b;
      assert ab[1..] == a[1..] + b;
      ValueLEAppend(a[1..], b);
      ScaleStep(a[0], ValueLE(a[1..]), Pow256(|a| - 1), ValueLE(b));
    } else {
      assert a + b == b;
    }
  }

  /** Arithmetic of one little-endian step. */
  lemma ScaleStep(z: int, x: int, q: int, y: int)
    ensures z + 256 * (x + q * y) == (z + 256 * x) + (256 * q) * y
  {
  }
}

=== FILE: Deque.dfy ===
/** The Deque container of js_deque.ts: a ring of numbered slots with `front`, `rear` and
    `capacity` fields. The code as written advances some positions modulo `capacity + 1`
    and reads position `rear - 1` without wrapping; both versions are here. The
    `...AsWritten` functions follow the code, and the others keep every position modulo
    `capacity`, which is the ring the `length` getter, `isFull` and `increaseCapacity`
    assume. */
module Deque {
  import opened Wrappers
  import opened IntArith

  /** The one error the deque raises itself: reading a negative index through the proxy. */
  datatype Error = RangeError

  /** The fields of a deque object. A slot never written reads as `undefined`. */
  datatype Deque<T> = Deque(front: nat, rear: nat, capacity: nat, slots: map<nat, T>)

  /** The constructor: an empty ring of eight slots. */
  function New<T>(): (d: Deque<T>)
    ensures Valid(d) && Elems(d) == []
  {
    Deque(0, 0, 8, map[])
  }

  /** The positions the code can reach: `front` and `rear` within `0..capacity`. */
  predicate Shape<T>(d: Deque<T>) {
    d.capacity >= 1 && d.front <= d.capacity && d.rear <= d.capacity
  }

  /** The `length` getter: the slots from the front up to the rear, going round the
      ring; below the capacity, and 0 exactly when the two positions meet. */
  function Length<T>(d: Deque<T>): (r: nat)
    requires Shape(d)
    ensures r < d.capacity
    ensures d.front < d.capacity && d.rear < d.capacity ==> (r == 0 <==> d.front == d.rear)
    ensures d.front <= d.rear < d.capacity ==> r == d.rear - d.front
  {
    (d.rear - d.front + d.capacity) % d.capacity
  }

  /** isFull: the slot after the rear is the front, so one slot always stays free. */
  function IsFull<T>(d: Deque<T>): (r: bool)
    requires Shape(d)
    ensures r && d.front < d.capacity && d.rear < d.capacity ==> Length(d) == d.capacity - 1
  {
    (d.rear + 1) % d.capacity == d.front
  }

  /** `this[i]` for `i >= 0`. */
  function Peek<T>(d: Deque<T>, i: nat): Option<T> {
    if i in d.slots then Some(d.slots[i]) else None
  }

  /** `this[i]` through the proxy, which refuses a negative index. */
  function Read<T>(d: Deque<T>, i: int): (r: Result<Option<T>, Error>)
    ensures r.Failure? <==> i < 0
  {
    if i < 0 then Failure(RangeError) else Success(Peek(d, i))
  }

  // ---------------------------------------------------------------------------------
  // Ring arithmetic
  // ---------------------------------------------------------------------------------

  lemma Wrap(x: int, c: int)
    requires c > 0 && 0 <= x < 2 * c
    ensures x % c == if x < c then x else x - c
  {
    if x < c {
      ModSmall(x, c);
    } else {
      ModUnique(x, c, 1, x - c);
    }
  }

  /** The slot `k` places after the front, for `k` below the capacity. */
  function At<T>(d: Deque<T>, k: nat): nat {
    if d.front + k < d.capacity then d.front + k else d.front + k - d.capacity
  }

  /** The length without the remainder, when both positions are inside the ring. */
  lemma LengthLinear<T>(d: Deque<T>)
    requires d.front < d.capacity && d.rear < d.capacity
    ensures Length(d) == if d.rear >= d.front then d.rear - d.front
                         else d.rear - d.front + d.capacity
  {
    Wrap(d.rear as int - d.front + d.capacity, d.capacity);
  }

  // ---------------------------------------------------------------------------------
  // The ring invariant and the elements it holds
  // ---------------------------------------------------------------------------------

  /** Both positions inside the ring and every slot from the front on, up to the length,
      written. */
  predicate Valid<T>(d: Deque<T>) {
    d.capacity >= 2 && d.front < d.capacity && d.rear < d.capacity &&
    forall k :: 0 <= k < Length(d) ==> At(d, k) in d.slots
  }

  /** The elements from first to last. */
  function Elems<T>(d: Deque<T>): (r: seq<T>)
    requires Valid(d)
    ensures |r| == Length(d)
  {
    seq(Length(d), k requires 0 <= k < Length(d) => d.slots[At(d, k)])
  }

  /** The length is below the capacity, and the rear is the slot just past the last
      element. */
  lemma RearAt<T>(d: Deque<T>)
    requires Valid(d)
    ensures Length(d) < d.capacity && At(d, Length(d)) == d.rear
  {
    LengthLinear(d);
  }

  /** A deque is full exactly when it holds one element fewer than its capacity. */
  lemma FullIff<T>(d: Deque<T>)
    requires Valid(d)
    ensures IsFull(d) <==> Length(d) == d.capacity - 1
  {
    LengthLinear(d);
    Wrap(d.rear + 1, d.capacity);
  }

  // ---------------------------------------------------------------------------------
  // increaseCapacity
  // ---------------------------------------------------------------------------------

  /** The first loop of increaseCapacity: from slot `i`, collect the slot and step on
      modulo the capacity until the step lands on `rear`. None when `fuel` steps do not
      get there. */
  function Gather<T>(d: Deque<T>, i: nat, fuel: nat): Option<seq<Option<T>>>
    requires d.capacity > 0
    decreases fuel
  {
    if fuel == 0 then None
    else
      var j := (i + 1) % d.capacity;
      if j == d.rear then Some([Peek(d, i)])
      else match Gather(d, j, fuel - 1)
        case None => None
        case Some(rest) => Some([Peek(d, i)] + rest)
  }

  /** The second loop: slots `0..n-1` take the collected values (`undefined` past the
      end of the collection). */
  function CopyIn<T>(slots: map<nat, T>, arr: seq<Option<T>>, n: nat): map<nat, T>
    decreases n
  {
    if n == 0 then slots
    else
      var m := CopyIn(slots, arr, n - 1);
      if n - 1 < |arr| && arr[n - 1].Some? then m[n - 1 := arr[n - 1].value]
      else m - {n - 1}
  }

  /** increaseCapacity: None when its first loop never ends. Otherwise the elements move to
      slots `0..length-1`, the capacity doubles, `front` is 0 and `rear` the length. */
  function IncreaseCapacity<T>(d: Deque<T>): (r: Option<Deque<T>>)
    requires Shape(d)
    ensures r.Some? ==> Shape(r.value) && r.value.capacity == 2 * d.capacity
  {
    match Gather(d, d.front, d.capacity + 1)
    case None => None
    case Some(arr) => Some(Deque(0, Length(d), 2 * d.capacity, CopyIn(d.slots, arr, Length(d))))
  }

  /** With `rear` at `capacity` the step modulo the capacity never lands on it. */
  lemma {:induction false} GatherNeverMeets<T>(d: Deque<T>, i: nat, fuel: nat)
    requires d.capacity > 0 && d.rear >= d.capacity
    ensures Gather(d, i, fuel).None?
    decreases fuel
  {
    if fuel > 0 {
      GatherNeverMeets(d, (i + 1) % d.capacity, fuel - 1);
    }
  }

  /** The loop collected, from element `k` on, the slots of the elements. */
  ghost predicate Collected<T>(d: Deque<T>, k: nat, g: Option<seq<Option<T>>>)
    requires Valid(d)
  {
    g.Some? && |g.value| == Length(d) - k &&
    forall i :: 0 <= i < |g.value| ==> g.value[i] == Some(d.slots[At(d, k + i)])
  }

  /** In a valid deque the loop started at element `k` collects the elements from `k`
      to the last. */
  lemma {:induction false} GatherElems<T>(d: Deque<T>, k: nat, fuel: nat)
    requires Valid(d) && k < Length(d) && fuel >= Length(d) - k
    ensures Collected(d, k, Gather(d, At(d, k), fuel))
    decreases Length(d) - k
  {
    var n := Length(d);
    RearAt(d);
    Wrap(At(d, k) + 1, d.capacity);
    assert (At(d, k) + 1) % d.capacity == At(d, k + 1);
    if k + 1 < n {
      GatherElems(d, k + 1, fuel - 1);
      var rest := Gather(d, At(d, k + 1), fuel - 1).value;
      assert Gather(d, At(d, k), fuel) == Some([Peek(d, At(d, k))] + rest);
      forall i | 1 <= i < n - k
        ensures ([Peek(d, At(d, k))] + rest)[i] == Some(d.slots[At(d, k + i)])
      {
        assert rest[i - 1] == Some(d.slots[At(d, k + 1 + (i - 1))]);
      }
    }
  }

  lemma {:induction false} CopyInAt<T>(slots: map<nat, T>, arr: seq<Option<T>>, n: nat, i: nat)
    requires i < n && i < |arr| && arr[i].Some?
    ensures i in CopyIn(slots, arr, n) && CopyIn(slots, arr, n)[i] == arr[i].value
    decreases n
  {
    if i < n - 1 {
      CopyInAt(slots, arr, n - 1, i);
    }
  }

  /** Growing a valid full deque ends, keeps the elements in order and leaves room. */
  lemma GrowFull<T>(d: Deque<T>)
    requires Valid(d) && IsFull(d)
    ensures IncreaseCapacity(d).Some?
    ensures var g := IncreaseCapacity(d).value;
            Valid(g) && Elems(g) == Elems(d) && !IsFull(g) && g.capacity == 2 * d.capacity
  {
    var c, n := d.capacity, Length(d);
    FullIff(d);
    assert At(d, 0) == d.front;
    GatherElems(d, 0, c + 1);
    var arr := Gather(d, d.front, c + 1).value;
    var g := Deque(0, n, 2 * c, CopyIn(d.slots, arr, n));
    assert IncreaseCapacity(d) == Some(g);
    LengthLinear(g);
    forall k | 0 <= k < n
      ensures At(g, k) == k && k in g.slots && g.slots[k] == d.slots[At(d, k)]
    {
      assert arr[k] == Some(d.slots[At(d, 0 + k)]);
      CopyInAt(d.slots, arr, n, k);
    }
    assert Elems(g) == Elems(d);
    ModSmall(n + 1, 2 * c);
  }

  /** When the deque is full, grow it first. */
  function Grown<T>(d: Deque<T>): (g: Deque<T>)
    requires Valid(d)
    ensures Valid(g) && Elems(g) == Elems(d) && !IsFull(g)
  {
    if IsFull(d) then GrowFull(d); IncreaseCapacity(d).value else d
  }

  // ---------------------------------------------------------------------------------
  // The operations, every position modulo the capacity
  // ---------------------------------------------------------------------------------

  /** insertFront: the element becomes the first. */
  function InsertFront<T>(d: Deque<T>, e: T): (r: Deque<T>)
    requires Valid(d)
    ensures Valid(r) && Elems(r) == [e] + Elems(d)
  {
    var g := Grown(d);
    var f := (g.front - 1 + g.capacity) % g.capacity;
    InsertFrontStep(g, e);
    g.(front := f, slots := g.slots[f := e])
  }

  lemma InsertFrontStep<T>(d: Deque<T>, e: T)
    requires Valid(d) && !IsFull(d)
    ensures var f := (d.front - 1 + d.capacity) % d.capacity;
            var r := d.(front := f, slots := d.slots[f := e]);
            Valid(r) && Elems(r) == [e] + Elems(d)
  {
    var c, n := d.capacity, Length(d);
    Wrap(d.front - 1 + c, c);
    var f := (d.front - 1 + c) % c;
    var r := d.(front := f, slots := d.slots[f := e]);
    FullIff(d);
    RearAt(d);
    LengthLinear(d);
    LengthLinear(r);
    assert Length(r) == n + 1;
    forall k | 0 <= k < n
      ensures At(r, k + 1) == At(d, k) && At(d, k) in r.slots && r.slots[At(d, k)] == d.slots[At(d, k)]
    {
    }
    forall k | 0 <= k < n + 1
      ensures At(r, k) in r.slots && r.slots[At(r, k)] == ([e] + Elems(d))[k]
    {
      if k > 0 {
        assert At(r, (k - 1) + 1) == At(d, k - 1);
      }
    }
    assert Valid(r);
    assert Elems(r) == [e] + Elems(d);
  }

  /** insertEnd: the element becomes the last. */
  function InsertEnd<T>(d: Deque<T>, e: T): (r: Deque<T>)
    requires Valid(d)
    ensures Valid(r) && Elems(r) == Elems(d) + [e]
  {
    var g := Grown(d);
    InsertEndStep(g, e);
    g.(slots := g.slots[g.rear := e], rear := (g.rear + 1) % g.capacity)
  }

  lemma InsertEndStep<T>(d: Deque<T>, e: T)
    requires Valid(d) && !IsFull(d)
    ensures var r := d.(slots := d.slots[d.rear := e], rear := (d.rear + 1) % d.capacity);
            Valid(r) && Elems(r) == Elems(d) + [e]
  {
    var c, n := d.capacity, Length(d);
    Wrap(d.rear + 1, c);
    var r := d.(slots := d.slots[d.rear := e], rear := (d.rear + 1) % d.capacity);
    FullIff(d);
    RearAt(d);
    LengthLinear(d);
    LengthLinear(r);
    assert Length(r) == n + 1;
    forall k | 0 <= k < n + 1
      ensures At(r, k) in r.slots && r.slots[At(r, k)] == (Elems(d) + [e])[k]
    {
      assert At(r, k) == At(d, k);
      if k < n {
        assert At(d, k) != d.rear;
      }
    }
    assert Valid(r);
    assert Elems(r) == Elems(d) + [e];
  }

  /** getFirst: undefined when empty, else the first element. */
  function GetFirst<T>(d: Deque<T>): (r: Option<T>)
    requires Valid(d)
    ensures r.None? <==> Elems(d) == []
    ensures r.Some? ==> r.value == Elems(d)[0]
  {
    if Length(d) == 0 then None
    else
      assert At(d, 0) == d.front;
      Peek(d, d.front)
  }

  /** The slot before the rear, around the ring, holds the last element. */
  lemma LastAt<T>(d: Deque<T>)
    requires Valid(d) && Length(d) > 0
    ensures (d.rear - 1 + d.capacity) % d.capacity == At(d, Length(d) - 1)
  {
    LengthLinear(d);
    Wrap(d.rear - 1 + d.capacity, d.capacity);
  }

  /** getLast: undefined when empty, else the last element. */
  function GetLast<T>(d: Deque<T>): (r: Option<T>)
    requires Valid(d)
    ensures r.None? <==> Elems(d) == []
    ensures r.Some? ==> r.value == Elems(d)[|Elems(d)| - 1]
  {
    if Length(d) == 0 then None
    else
      LastAt(d);
      Peek(d, (d.rear - 1 + d.capacity) % d.capacity)
  }

  /** popFirst: undefined and no change when empty, else the first element comes off. */
  function PopFirst<T>(d: Deque<T>): (r: (Option<T>, Deque<T>))
    requires Valid(d)
    ensures Valid(r.1)
    ensures Elems(d) == [] ==> r == (None, d)
    ensures Elems(d) != [] ==> r.0 == Some(Elems(d)[0]) && Elems(r.1) == Elems(d)[1..]
  {
    if Length(d) == 0 then (None, d)
    else
      PopFirstStep(d);
      (GetFirst(d), d.(front := (d.front + 1) % d.capacity))
  }

  lemma PopFirstStep<T>(d: Deque<T>)
    requires Valid(d) && Length(d) > 0
    ensures var r := d.(front := (d.front + 1) % d.capacity);
            Valid(r) && Elems(r) == Elems(d)[1..]
  {
    var c, n := d.capacity, Length(d);
    Wrap(d.front + 1, c);
    var r := d.(front := (d.front + 1) % d.capacity);
    RearAt(d);
    LengthLinear(d);
    LengthLinear(r);
    assert Length(r) == n - 1;
    forall k | 0 <= k < n - 1
      ensures At(r, k) == At(d, k + 1)
    {
    }
    assert Elems(r) == Elems(d)[1..];
  }

  /** popLast: undefined and no change when empty, else the last element comes off. */
  function PopLast<T>(d: Deque<T>): (r: (Option<T>, Deque<T>))
    requires Valid(d)
    ensures Valid(r.1)
    ensures Elems(d) == [] ==> r == (None, d)
    ensures Elems(d) != [] ==>
              r.0 == Some(Elems(d)[|Elems(d)| - 1]) && Elems(r.1) == Elems(d)[..|Elems(d)| - 1]
  {
    if Length(d) == 0 then (None, d)
    else
      PopLastStep(d);
      (GetLast(d), d.(rear := (d.rear - 1 + d.capacity) % d.capacity))
  }

  lemma PopLastStep<T>(d: Deque<T>)
    requires Valid(d) && Length(d) > 0
    ensures var r := d.(rear := (d.rear - 1 + d.capacity) % d.capacity);
            Valid(r) && Elems(r) == Elems(d)[..Length(d) - 1]
  {
    var c, n := d.capacity, Length(d);
    Wrap(d.rear - 1 + c, c);
    var r := d.(rear := (d.rear - 1 + d.capacity) % d.capacity);
    LengthLinear(d);
    LengthLinear(r);
    assert Length(r) == n - 1;
    forall k | 0 <= k < n - 1
      ensures At(r, k) == At(d, k)
    {
    }
    assert Valid(r);
    assert Elems(r) == Elems(d)[..n - 1];
  }

  /** Inserting at one end and popping at the same end gives back the element and the
      elements. */
  lemma InsertThenPop<T>(d: Deque<T>, e: T)
    requires Valid(d)
    ensures PopFirst(InsertFront(d, e)).0 == Some(e)
    ensures Elems(PopFirst(InsertFront(d, e)).1) == Elems(d)
    ensures PopLast(InsertEnd(d, e)).0 == Some(e)
    ensures Elems(PopLast(InsertEnd(d, e)).1) == Elems(d)
  {
    assert ([e] + Elems(d))[1..] == Elems(d);
    var s := Elems(d) + [e];
    assert s[..|s| - 1] == Elems(d);
  }

  // ---------------------------------------------------------------------------------
  // The operations as written
  // ---------------------------------------------------------------------------------

  /** insertFront as written; None when growing never ends. */
  function InsertFrontAsWritten<T>(d: Deque<T>, e: T): (r: Option<Deque<T>>)
    requires Shape(d)
    ensures r.Some? ==> Shape(r.value)
  {
    var g := if IsFull(d) then IncreaseCapacity(d) else Some(d);
    match g
    case None => None
    case Some(g) =>
      var f := (g.front - 1 + g.capacity) % g.capacity;
      Some(g.(front := f, slots := g.slots[f := e]))
  }

  /** insertEnd as written: `rear` steps on modulo `capacity + 1`. */
  function InsertEndAsWritten<T>(d: Deque<T>, e: T): (r: Option<Deque<T>>)
    requires Shape(d)
    ensures r.Some? ==> Shape(r.value)
  {
    var g := if IsFull(d) then IncreaseCapacity(d) else Some(d);
    match g
    case None => None
    case Some(g) => Some(g.(slots := g.slots[g.rear := e], rear := (g.rear + 1) % (g.capacity + 1)))
  }

  /** getFirst as written. */
  function GetFirstAsWritten<T>(d: Deque<T>): (r: Option<T>)
    requires Shape(d)
    ensures Length(d) == 0 ==> r.None?
  {
    if Length(d) == 0 then None else Peek(d, d.front)
  }

  /** getLast as written: it reads position `rear - 1`, which is -1 when `rear` is 0. */
  function GetLastAsWritten<T>(d: Deque<T>): (r: Result<Option<T>, Error>)
    requires Shape(d)
    ensures r.Failure? <==> Length(d) > 0 && d.rear == 0
  {
    if Length(d) == 0 then Success(None) else Read(d, d.rear - 1)
  }

  /** popFirst as written: `front` steps on modulo `capacity + 1`. */
  function PopFirstAsWritten<T>(d: Deque<T>): (r: (Option<T>, Deque<T>))
    requires Shape(d)
    ensures Shape(r.1)
    ensures Length(d) == 0 ==> r == (None, d)
  {
    if Length(d) == 0 then (None, d)
    else (Peek(d, d.front), d.(front := (d.front + 1) % (d.capacity + 1)))
  }

  /** popLast as written: it reads position `rear - 1`, then steps `rear` back modulo
      `capacity + 1`. */
  function PopLastAsWritten<T>(d: Deque<T>): (r: Result<(Option<T>, Deque<T>), Error>)
    requires Shape(d)
    ensures r.Failure? <==> Length(d) > 0 && d.rear == 0
    ensures r.Success? ==> Shape(r.value.1)
  {
    if Length(d) == 0 then Success((None, d))
    else match Read(d, d.rear - 1)
      case Failure(e) => Failure(e)
      case Success(v) => Success((v, d.(rear := (d.rear + d.capacity) % (d.capacity + 1))))
  }

  /** At the front the code as written does what the ring does. */
  lemma FrontAgrees<T>(d: Deque<T>, e: T)
    requires Valid(d)
    ensures InsertFrontAsWritten(d, e) == Some(InsertFront(d, e))
    ensures GetFirstAsWritten(d) == GetFirst(d)
  {
    var g := if IsFull(d) then IncreaseCapacity(d) else Some(d);
    if IsFull(d) {
      GrowFull(d);
    }
    assert g == Some(Grown(d));
  }

  /** insertEnd as written does what the ring does unless `rear` is the last slot of a
      deque that is not full. */
  lemma InsertEndAgrees<T>(d: Deque<T>, e: T)
    requires Valid(d) && (d.rear + 1 < d.capacity || IsFull(d))
    ensures InsertEndAsWritten(d, e) == Some(InsertEnd(d, e))
  {
    if IsFull(d) {
      GrowFull(d);
      var g := IncreaseCapacity(d).value;
      FullIff(d);
      ModSmall(g.rear + 1, g.capacity);
      ModSmall(g.rear + 1, g.capacity + 1);
    } else {
      ModSmall(d.rear + 1, d.capacity);
      ModSmall(d.rear + 1, d.capacity + 1);
    }
  }

  /** At the rear the code as written does what the ring does unless `rear` is 0. */
  lemma LastAgrees<T>(d: Deque<T>)
    requires Valid(d) && d.rear >= 1
    ensures GetLastAsWritten(d) == Success(GetLast(d))
    ensures PopLastAsWritten(d) == Success(PopLast(d))
  {
    Wrap(d.rear - 1 + d.capacity, d.capacity);
    Wrap(d.rear + d.capacity, d.capacity + 1);
  }

  /** popFirst as written does what the ring does unless `front` is the last slot. */
  lemma PopFirstAgrees<T>(d: Deque<T>)
    requires Valid(d) && d.front + 1 < d.capacity
    ensures PopFirstAsWritten(d) == PopFirst(d)
  {
    ModSmall(d.front + 1, d.capacity);
    ModSmall(d.front + 1, d.capacity + 1);
  }

  /** insertEnd as written on a deque with room: no growth. */
  lemma EndWithRoom<T>(d: Deque<T>, e: T)
    requires Shape(d) && !IsFull(d)
    ensures InsertEndAsWritten(d, e) ==
              Some(d.(slots := d.slots[d.rear := e], rear := (d.rear + 1) % (d.capacity + 1)))
  {
  }

  /** The state reached by `insertFront(x)` on a new deque: one element, `rear` still 0. */
  lemma OneInFront<T>(x: T)
    ensures InsertFrontAsWritten(New(), x) == Some(Deque(7, 0, 8, map[7 := x]))
  {
  }

  /** getLast after `insertFront(x)` on a new deque (the state of OneInFront): the code as
      written reads position -1 and raises a range error; the ring answers `x`. */
  lemma LastAfterInsertFront<T>(x: T)
    ensures GetLastAsWritten(Deque(7, 0, 8, map[7 := x])) == Failure(RangeError)
    ensures GetLast(InsertFront(New(), x)) == Some(x)
  {
    assert Elems(InsertFront(New(), x)) == [x];
  }

  /** `insertFront(a)`, `insertEnd(b)`, `popFirst()` on a new deque: as written `front`
      steps to slot 8, outside the ring, so getFirst answers `undefined` while the length
      is 1. */
  lemma FirstAfterWrap<T>(a: T, b: T)
    ensures InsertFrontAsWritten(New(), a) == Some(Deque(7, 0, 8, map[7 := a]))
    ensures InsertEndAsWritten(Deque(7, 0, 8, map[7 := a]), b) ==
              Some(Deque(7, 1, 8, map[7 := a, 0 := b]))
    ensures var d := PopFirstAsWritten(Deque(7, 1, 8, map[7 := a, 0 := b])).1;
            d.front == 8 && Length(d) == 1 && GetFirstAsWritten(d).None?
  {
    OneInFront(a);
    var d1 := Deque(7, 0, 8, map[7 := a]);
    EndWithRoom(d1, b);
    var d2 := Deque(7, 1, 8, map[7 := a, 0 := b]);
    assert d1.slots[d1.rear := b] == d2.slots;
  }

  /** The same three calls on the ring leave `b` first. */
  lemma FirstAfterNoWrap<T>(a: T, b: T)
    ensures GetFirst(PopFirst(InsertEnd(InsertFront(New(), a), b)).1) == Some(b)
  {
    var e := Elems(InsertEnd(InsertFront(New(), a), b));
    assert e == [a, b];
    assert e[1..] == [b];
  }

  /** `n` calls of `insertEnd(x)` on a new deque, as written. */
  function Ends<T>(x: T, n: nat): (d: Deque<T>)
    requires n <= 7
    ensures Shape(d) && d.front == 0 && d.rear == n && d.capacity == 8
  {
    if n == 0 then New()
    else
      var p := Ends(x, n - 1);
      ModSmall(n, 8);
      EndWithRoom(p, x);
      InsertEndAsWritten(p, x).value
  }

  /** With `rear` at the capacity, an `insertEnd` that finds the deque full never
      ends. */
  lemma InsertEndNeverEnds<T>(d: Deque<T>, x: T)
    requires Shape(d) && d.rear == d.capacity && IsFull(d)
    ensures InsertEndAsWritten(d, x).None?
  {
    GatherNeverMeets(d, d.front, d.capacity + 1);
  }

  /** Seven `insertEnd`s, a `popFirst` and one more `insertEnd` on a new deque leave
      `rear` at the capacity while the deque counts as full, so the next `insertEnd` grows
      it with a loop that never ends. */
  lemma EndlessGrowth<T>(x: T)
    ensures var d := PopFirstAsWritten(Ends(x, 7)).1;
            InsertEndAsWritten(d, x).Some? &&
            var d := InsertEndAsWritten(d, x).value;
            d.rear == d.capacity && IsFull(d) && InsertEndAsWritten(d, x).None?
  {
    var d := PopFirstAsWritten(Ends(x, 7)).1;
    assert d.front == 1 && d.rear == 7 && d.capacity == 8;
    EndWithRoom(d, x);
    var d2 := InsertEndAsWritten(d, x).value;
    assert d2.front == 1 && d2.rear == 8 && d2.capacity == 8;
    InsertEndNeverEnds(d2, x);
  }
}

=== FILE: IntArith.dfy ===
/** Facts about Euclidean division and remainder that the byte-level models rely on.
    Dafny's `/` and `%` on `int` are Euclidean; with a positive divisor they agree with
    JavaScript's `Math.floor(x / d)` and with the low bits kept by a bit mask. */
module IntArith {

  lemma MulAtLeast(d: int, t: int)
    requires d > 0 && t >= 1
    ensures d * t >= d
  {
    assert d * t == d * (t - 1) + d;
    assert d * (t - 1) >= 0;
  }

  /** Quotient and remainder are determined by any decomposition with `0 <= r < d`. */
  lemma ModUnique(v: int, d: int, k: int, r: int)
    requires d > 0 && 0 <= r < d && v == d * k + r
    ensures v / d == k && v % d == r
  {
    var k', r' := v / d, v % d;
    if k' > k {
      assert d * k' == d * k + d * (k' - k);
      MulAtLeast(d, k' - k);
    } else if k' < k {
      assert d * k == d * k' + d * (k - k');
      MulAtLeast(d, k - k');
    }
  }

  /** Adding a multiple of the divisor shifts the quotient and keeps the remainder. */
  lemma DivShift(x: int, d: int, c: int)
    requires d > 0
    ensures (x + d * c) / d == x / d + c
    ensures (x + d * c) % d == x % d
  {
    assert x + d * c == d * (x / d + c) + x % d;
    ModUnique(x + d * c, d, x / d + c, x % d);
  }

  /** Dividing twice is dividing by the product. */
  lemma DivDiv(v: int, a: int, b: int)
    requires a > 0 && b > 0
    ensures (v / a) / b == v / (a * b)
  {
    var q, r := v / a, v % a;
    var q2, r2 := q / b, q % b;
    Regroup(a, b, q2, r2, r);
    MulAtMost(a, r2, b - 1);
    ModUnique(v, a * b, q2, a * r2 + r);
  }

  lemma Regroup(a: int, b: int, q: int, m: int, r: int)
    ensures a * (b * q + m) + r == (a * b) * q + (a * m + r)
  {
  }

  /** Multiplying by a positive number keeps the order. */
  lemma MulAtMost(a: int, x: int, y: int)
    requires a > 0 && x <= y
    ensures a * x <= a * y && a * y + a == a * (y + 1)
  {
    assert a * y == a * x + a * (y - x);
    assert a * (y - x) >= 0;
  }

  /** A value already inside `[0, d)` is its own remainder. */
  lemma ModSmall(x: int, d: int)
    requires 0 <= x < d
    ensures x % d == x && x / d == 0
  {
    ModUnique(x, d, 0, x);
  }

  /** The remainder by `256 * p` from the remainder of the quotient by 256. */
  lemma ModSplit(v: int, p: int)
    requires p > 0
    ensures ((v / 256) % p) * 256 + v % 256 == v % (256 * p)
  {
    var q, r := v / 256, v % 256;
    var k, m := q / p, q % p;
    assert q == p * k + m;
    assert v == 256 * (p * k + m) + r;
    assert 256 * (p * k + m) + r == (256 * p) * k + (256 * m + r);
    ModUnique(v, 256 * p, k, 256 * m + r);
  }
}

=== FILE: JsInt.dfy ===
/** JavaScript's 32-bit bit operations applied to integral numbers, as the buffer's read and
    write methods use them, and the byte each shift chain leaves in the low eight bits.
    Only integral operands are modelled; every byte store keeps `x & 0xFF`. */
module JsInt {
  import opened IntArith
  import opened ByteCodec

  const TwoPow32: int := 0x1_0000_0000

  /** ToUint32: the value of `x >>> 0`, and `Number(v & 0xFFFFFFFFn)` for a bigint `v`. */
  function ToUint32(x: int): (r: int)
    ensures 0 <= r < TwoPow32
  {
    x % TwoPow32
  }

  /** ToInt32: the operand conversion of `>>`, and the result of `<<`. */
  function ToInt32(x: int): (r: int)
    ensures -0x8000_0000 <= r < 0x8000_0000
  {
    var u := ToUint32(x);
    if u >= 0x8000_0000 then u - TwoPow32 else u
  }

  /** `x & 0xFF`: the byte kept by every indexed store (utils.getLowerEight). */
  function Low8(x: int): Byte {
    x % 256
  }

  /** `x >>> 8`. */
  function Ushr8(x: int): int {
    ToUint32(x) / 256
  }

  /** `x >> 8`. */
  function Sar8(x: int): int {
    ToInt32(x) / 256
  }

  /** `Math.floor(x * Math.pow(2, -32))`, and `v >> 32n` for a bigint `v`. */
  function High32(x: int): int {
    x / TwoPow32
  }

  /** `b << 24`. */
  function Shl24(b: int): int {
    ToInt32(b * 0x100_0000)
  }

  // ---------------------------------------------------------------------------------
  // What the shift chains leave in the low byte
  // ---------------------------------------------------------------------------------

  /** Bytes 0 to 3 of an integer are bytes 0 to 3 of its ToUint32. */
  lemma LowBytesOfUint32(x: int, j: nat)
    requires j <= 3
    ensures ByteOf(ToUint32(x), j) == ByteOf(x, j)
  {
    var p, k, a := Pow256(j), Pow256(3 - j), x / TwoPow32;
    assert TwoPow32 == p * (256 * k) by {
      Pow256Values();
      Pow256Add(j, 3 - j);
    }
    assert x == ToUint32(x) + p * (256 * k * a) by {
      Regroup(p, 256 * k, a, 0, 0);
    }
    ShiftedByte(ToUint32(x), a, p, k);
  }

  /** Adding a multiple of `256 * p` does not change the byte at scale `p`. */
  lemma ShiftedByte(u: int, a: int, p: int, k: int)
    requires p > 0
    ensures ((u + p * (256 * k * a)) / p) % 256 == (u / p) % 256
  {
    DivShift(u, p, 256 * k * a);
    assert 256 * k * a == 256 * (k * a);
    DivShift(u / p, 256, k * a);
  }

  lemma SameLowBytes(x: int, y: int, j: nat)
    requires j <= 3 && ToUint32(x) == ToUint32(y)
    ensures ByteOf(x, j) == ByteOf(y, j)
  {
    LowBytesOfUint32(x, j);
    LowBytesOfUint32(y, j);
  }

  lemma ToInt32Congruent(x: int)
    ensures ToUint32(ToInt32(x)) == ToUint32(x)
  {
    var u := ToUint32(x);
    if u >= 0x8000_0000 {
      DivShift(u - TwoPow32, TwoPow32, 1);
    }
    ModSmall(u, TwoPow32);
  }

  lemma ToInt32Small(x: int)
    requires -0x8000_0000 <= x < 0x8000_0000
    ensures ToInt32(x) == x
  {
    if x >= 0 {
      ModSmall(x, TwoPow32);
    } else {
      ModUnique(x, TwoPow32, -1, x + TwoPow32);
    }
  }

  /** `x >>> 8` applied k times is ToUint32(x) divided by 256^k. */
  lemma UshrChain(x: int)
    ensures Ushr8(x) == ToUint32(x) / 0x100
    ensures Ushr8(Ushr8(x)) == ToUint32(x) / 0x1_0000
    ensures Ushr8(Ushr8(Ushr8(x))) == ToUint32(x) / 0x100_0000
  {
    var u := ToUint32(x);
    ModSmall(u / 0x100, TwoPow32);
    DivDiv(u, 0x100, 0x100);
    ModSmall(u / 0x1_0000, TwoPow32);
    DivDiv(u, 0x1_0000, 0x100);
  }

  /** The bytes a chain of `>>> 8` and `& 0xFF` extracts. */
  lemma UshrBytes(x: int)
    ensures Low8(x) == ByteOf(x, 0)
    ensures Low8(Ushr8(x)) == ByteOf(x, 1)
    ensures Low8(Ushr8(Ushr8(x))) == ByteOf(x, 2)
    ensures Low8(Ushr8(Ushr8(Ushr8(x)))) == ByteOf(x, 3)
  {
    Pow256Values();
    UshrChain(x);
    LowBytesOfUint32(x, 1);
    LowBytesOfUint32(x, 2);
    LowBytesOfUint32(x, 3);
  }

  /** `x >> 8` applied k times is ToInt32(x) divided by 256^k. */
  lemma SarChain(x: int)
    ensures Sar8(x) == ToInt32(x) / 0x100
    ensures Sar8(Sar8(x)) == ToInt32(x) / 0x1_0000
    ensures Sar8(Sar8(Sar8(x))) == ToInt32(x) / 0x100_0000
  {
    var t := ToInt32(x);
    ToInt32Small(t / 0x100);
    DivDiv(t, 0x100, 0x100);
    ToInt32Small(t / 0x1_0000);
    DivDiv(t, 0x1_0000, 0x100);
  }

  /** The bytes a chain of `>> 8` and `& 0xFF` extracts: the arithmetic shift fills with
      copies of bit 31, which never reach the low byte within three shifts. */
  lemma SarBytes(x: int)
    ensures Low8(Sar8(x)) == ByteOf(x, 1)
    ensures Low8(Sar8(Sar8(x))) == ByteOf(x, 2)
    ensures Low8(Sar8(Sar8(Sar8(x)))) == ByteOf(x, 3)
  {
    Pow256Values();
    SarChain(x);
    ToInt32Congruent(x);
    SameLowBytes(ToInt32(x), x, 1);
    SameLowBytes(ToInt32(x), x, 2);
    SameLowBytes(ToInt32(x), x, 3);
  }

  /** Byte `j` of the high word is byte `4 + j` of the value. */
  lemma High32Bytes(x: int, j: nat)
    ensures ByteOf(High32(x), j) == ByteOf(x, 4 + j)
  {
    Pow256Values();
    Pow256Add(4, j);
    DivDiv(x, TwoPow32, Pow256(j));
  }

  /** `b << 24` of a byte is its signed value scaled by 2^24. */
  lemma Shl24Byte(b: Byte)
    ensures Shl24(b) == Signed(b, 1) * 0x100_0000
  {
    Pow256Values();
    ModSmall(b * 0x100_0000, TwoPow32);
  }
  // ---------------------------------------------------------------------------------
  // `&` and `|`, and the int32 sign fill of the signed readers
  // ---------------------------------------------------------------------------------

  /** 2^j. */
  function Pow2(j: nat): (r: nat)
    ensures r > 0
  {
    if j == 0 then 1 else 2 * Pow2(j - 1)
  }

  /** The bitwise and of two non-negative integers, one bit at a time from the lowest. */
  function BitAnd(a: nat, b: nat): nat
  {
    if a == 0 || b == 0 then 0
    else 2 * BitAnd(a / 2, b / 2) + (if a % 2 == 1 && b % 2 == 1 then 1 else 0)
  }

  /** The bitwise or of two non-negative integers, one bit at a time from the lowest. */
  function BitOr(a: nat, b: nat): nat
    decreases a + b
  {
    if a == 0 then b
    else if b == 0 then a
    else 2 * BitOr(a / 2, b / 2) + (if a % 2 == 1 || b % 2 == 1 then 1 else 0)
  }

  /** `x & y`: both operands as 32-bit patterns, the result read back as an int32. */
  function And32(x: int, y: int): int {
    ToInt32(BitAnd(ToUint32(x), ToUint32(y)))
  }

  /** `x | y`: both operands as 32-bit patterns, the result read back as an int32. */
  function Or32(x: int, y: int): int {
    ToInt32(BitOr(ToUint32(x), ToUint32(y)))
  }

  /** The sign fill of the signed 8, 16 and 24-bit readers, `val | (val & 2^(8n-1)) * m`,
      with the multipliers the source writes out: 0x1fffffe, 0x1fffe and 0x1fe. */
  function SignFill(v: int, n: nat): int
    requires 1 <= n <= 3
  {
    var top := if n == 1 then 0x80 else if n == 2 then 0x8000 else 0x80_0000;
    var m := if n == 1 then 0x1FF_FFFE else if n == 2 then 0x1_FFFE else 0x1FE;
    Or32(v, And32(v, top) * m)
  }

  /** Masking with 2^j a value below 2^(j+1) keeps exactly its top bit. */
  lemma {:induction false} AndPow2(v: nat, j: nat)
    requires v < 2 * Pow2(j)
    ensures BitAnd(v, Pow2(j)) == if v >= Pow2(j) then Pow2(j) else 0
    decreases j
  {
    if j > 0 && v > 0 {
      AndPow2(v / 2, j - 1);
    }
  }

  /** Or-ing a value below 2^j with a multiple of 2^j adds them. */
  lemma {:induction false} OrDisjoint(a: nat, c: nat, j: nat)
    requires a < Pow2(j)
    ensures BitOr(a, c * Pow2(j)) == a + c * Pow2(j)
    decreases j
  {
    var b := c * Pow2(j);
    if j > 0 && a > 0 && c > 0 {
      assert b == 2 * (c * Pow2(j - 1));
      OrDisjoint(a / 2, c, j - 1);
    }
  }

  /** The sign fill of an `n`-byte value is its signed reading. */
  lemma SignFillSigned(v: int, n: nat)
    requires 1 <= n <= 3 && 0 <= v < Pow256(n)
    ensures SignFill(v, n) == Signed(v, n)
  {
    Pow256Values();
    if n == 1 {
      assert Pow2(8) == 0x100 && Pow2(7) == 0x80;
      SignFillOf(v, 7, 0x1FF_FFFE, 0xFF_FFFF);
    } else if n == 2 {
      assert Pow2(16) == 0x1_0000 && Pow2(15) == 0x8000;
      SignFillOf(v, 15, 0x1_FFFE, 0xFFFF);
    } else {
      assert Pow2(24) == 0x100_0000 && Pow2(23) == 0x80_0000;
      SignFillOf(v, 23, 0x1FE, 0xFF);
    }
  }

  /** `v | (v & 2^j) * m` for `v` below 2^(j+1), when the filled bits `2^j * m` are the
      multiple `c` of 2^(j+1) that reaches bit 31. */
  lemma SignFillOf(v: nat, j: nat, m: nat, c: nat)
    requires 2 * Pow2(j) <= 0x100_0000 && v < 2 * Pow2(j)
    requires Pow2(j) * m == c * (2 * Pow2(j)) == TwoPow32 - 2 * Pow2(j)
    ensures Or32(v, And32(v, Pow2(j)) * m) == if v >= Pow2(j) then v - 2 * Pow2(j) else v
  {
    var t := Pow2(j);
    assert Pow2(j + 1) == 2 * t;
    ModSmall(v, TwoPow32);
    ModSmall(t, TwoPow32);
    AndPow2(v, j);
    if v >= t {
      ModSmall(t * m, TwoPow32);
      OrDisjoint(v, c, j + 1);
      ModSmall(v + c * (2 * t), TwoPow32);
    } else {
      ModSmall(0, TwoPow32);
    }
  }
}

=== FILE: JsString.dfy ===
/** The JavaScript string operations the URL, URI and buffer helpers build on:
    `indexOf`, `split` and `join` on one character, `replace` with a global pattern, and
    `toLowerCase` on the ASCII letters. */
module JsString {
  import opened Wrappers

  /** `s.indexOf(c, from)`. */
  function IndexOf(s: string, c: char, from: nat): (r: Option<nat>)
    ensures r.Some? ==> from <= r.value < |s| && s[r.value] == c
    ensures r.Some? ==> forall k :: from <= k < r.value ==> s[k] != c
    ensures r.None? ==> forall k :: from <= k < |s| ==> s[k] != c
    decreases |s| - from
  {
    if from >= |s| then None
    else if s[from] == c then Some(from)
    else IndexOf(s, c, from + 1)
  }

  /** `s.length`: the number of UTF-16 code units, two for a character above U+FFFF. */
  function Utf16Length(s: string): (n: nat)
    ensures |s| <= n <= 2 * |s|
    ensures (forall i :: 0 <= i < |s| ==> s[i] as int < 0x1_0000) ==> n == |s|
  {
    if s == [] then 0
    else (if s[0] as int < 0x1_0000 then 1 else 2) + Utf16Length(s[1..])
  }

  /** A character beyond the Basic Multilingual Plane is a surrogate pair of two units. */
  lemma AstralLength()
    ensures Utf16Length("\U{1F600}") == 2
  {
  }

  /** `toLowerCase` on the letters A to Z; other characters are kept. */
  function Lower(s: string): (r: string)
    ensures |r| == |s|
  {
    seq(|s|, i requires 0 <= i < |s| =>
      if 'A' <= s[i] <= 'Z' then (s[i] as int + 32) as char else s[i])
  }

  lemma LowerLower(s: string)
    ensures Lower(Lower(s)) == Lower(s)
  {
  }

  // ---------------------------------------------------------------------------------
  // split and join
  // ---------------------------------------------------------------------------------

  /** `s.split(sep)`: the pieces between separators; never empty ("" gives [""]). */
  function Split(s: string, sep: char): (r: seq<string>)
    ensures |r| >= 1
    ensures forall i :: 0 <= i < |r| ==> sep !in r[i]
    decreases |s|
  {
    match IndexOf(s, sep, 0)
    case None => [s]
    case Some(i) => [s[..i]] + Split(s[i + 1..], sep)
  }

  /** `parts.join(sep)`. */
  function Join(parts: seq<string>, sep: char): string {
    if |parts| == 0 then ""
    else if |parts| == 1 then parts[0]
    else parts[0] + [sep] + Join(parts[1..], sep)
  }

  /** `parts.join('')`. */
  function Concat(parts: seq<string>): string {
    if parts == [] then "" else parts[0] + Concat(parts[1..])
  }

  /** Splitting text that holds no separator gives it back alone. */
  lemma SplitNone(s: string, sep: char)
    requires sep !in s
    ensures Split(s, sep) == [s]
  {
  }

  /** Text holding the separator splits into at least two parts. */
  lemma SplitFound(s: string, sep: char)
    requires sep in s
    ensures |Split(s, sep)| >= 2
  {
  }

  /** Splitting `a + [sep] + b` where `a` has no separator. */
  lemma SplitFirst(a: string, b: string, sep: char)
    requires sep !in a
    ensures Split(a + [sep] + b, sep) == [a] + Split(b, sep)
  {
    var s := a + [sep] + b;
    assert s[|a|] == sep;
    assert forall k :: 0 <= k < |a| ==> s[k] == a[k];
    assert IndexOf(s, sep, 0) == Some(|a|);
    assert s[..|a|] == a && s[|a| + 1..] == b;
  }

  /** Joining then splitting gives the parts back, when no part holds the separator. */
  lemma {:induction false} SplitJoin(parts: seq<string>, sep: char)
    requires |parts| >= 1 && forall i :: 0 <= i < |parts| ==> sep !in parts[i]
    ensures Split(Join(parts, sep), sep) == parts
  {
    if |parts| == 1 {
      SplitNone(parts[0], sep);
    } else {
      SplitJoin(parts[1..], sep);
      SplitFirst(parts[0], Join(parts[1..], sep), sep);
    }
  }

  /** Splitting then joining gives the text back. */
  lemma {:induction false} JoinSplit(s: string, sep: char)
    ensures Join(Split(s, sep), sep) == s
    decreases |s|
  {
    match IndexOf(s, sep, 0)
    case None =>
    case Some(i) =>
      JoinSplit(s[i + 1..], sep);
      Around(s, i);
  }

  /** Text is what comes before position `i`, the character there, and what follows. */
  lemma Around(s: string, i: nat)
    requires i < |s|
    ensures s == s[..i] + [s[i]] + s[i + 1..]
  {
  }

  // ---------------------------------------------------------------------------------
  // replace with a global pattern
  // ---------------------------------------------------------------------------------

  predicate StartsWith(s: string, p: string) {
    |p| <= |s| && s[..|p|] == p
  }

  /** `p` occurs in `s` at position `i`. */
  predicate OccursAt(s: string, p: string, i: int) {
    0 <= i <= |s| - |p| && s[i..i + |p|] == p
  }

  /** Whether `p` occurs in `s`. */
  predicate Occurs(s: string, p: string) {
    exists i :: 0 <= i <= |s| && OccursAt(s, p, i)
  }

  lemma OccursTail(c: char, t: string, p: string, i: int)
    requires OccursAt([c] + t, p, i) && i > 0
    ensures OccursAt(t, p, i - 1)
  {
    assert ([c] + t)[i..i + |p|] == t[i - 1..i - 1 + |p|];
  }

  /** `s.replace(/pat/g, rep)`: occurrences found left to right, without overlap. */
  function ReplaceAll(s: string, pat: string, rep: string): (r: string)
    requires |pat| > 0
    decreases |s|
  {
    if |s| == 0 then ""
    else if StartsWith(s, pat) then rep + ReplaceAll(s[|pat|..], pat, rep)
    else [s[0]] + ReplaceAll(s[1..], pat, rep)
  }

  /** Text without the pattern comes back unchanged. */
  lemma {:induction false} ReplaceAllAbsent(s: string, pat: string, rep: string)
    requires |pat| > 0 && !Occurs(s, pat)
    ensures ReplaceAll(s, pat, rep) == s
    decreases |s|
  {
    if |s| > 0 {
      assert !OccursAt(s, pat, 0);
      forall i | OccursAt(s[1..], pat, i)
        ensures false
      {
        assert s[1..] == ([s[0]] + s[1..])[1..];
        assert s[i + 1..i + 1 + |pat|] == s[1..][i..i + |pat|];
        assert OccursAt(s, pat, i + 1);
      }
      ReplaceAllAbsent(s[1..], pat, rep);
      assert s == [s[0]] + s[1..];
    }
  }

  /** Every prefix of the output either copies the input's prefix or holds a character of
      the replacement. */
  lemma {:induction false} ReplaceAllPrefix(s: string, pat: string, rep: string, j: nat)
    requires |pat| > 0 && |rep| > 0 && j <= |ReplaceAll(s, pat, rep)|
    ensures (j <= |s| && ReplaceAll(s, pat, rep)[..j] == s[..j]) ||
            (exists k :: 0 <= k < j && ReplaceAll(s, pat, rep)[k] in rep)
    decreases |s|
  {
    var r := ReplaceAll(s, pat, rep);
    if j > 0 {
      if StartsWith(s, pat) {
        assert r[0] == rep[0];
      } else {
        var t := ReplaceAll(s[1..], pat, rep);
        assert r == [s[0]] + t;
        ReplaceAllPrefix(s[1..], pat, rep, j - 1);
        if j - 1 <= |s[1..]| && t[..j - 1] == s[1..][..j - 1] {
          assert r[..j] == [s[0]] + t[..j - 1];
          assert s[..j] == [s[0]] + s[1..][..j - 1];
        } else {
          var k :| 0 <= k < j - 1 && t[k] in rep;
          assert r[k + 1] == t[k];
        }
      }
    }
  }

  /** When the replacement shares no character with the pattern, no occurrence is left. */
  lemma {:induction false} ReplaceAllRemoves(s: string, pat: string, rep: string)
    requires |pat| > 0 && |rep| > 0 && forall c :: c in rep ==> c !in pat
    ensures !Occurs(ReplaceAll(s, pat, rep), pat)
    decreases |s|
  {
    if |s| > 0 {
      if StartsWith(s, pat) {
        ReplaceAllRemoves(s[|pat|..], pat, rep);
        NoOccurrenceAfter(rep, ReplaceAll(s[|pat|..], pat, rep), pat);
      } else {
        var t := ReplaceAll(s[1..], pat, rep);
        ReplaceAllRemoves(s[1..], pat, rep);
        NotAtStart(s, pat, rep);
        forall i | 0 < i
          ensures !OccursAt([s[0]] + t, pat, i)
        {
          if OccursAt([s[0]] + t, pat, i) {
            OccursTail(s[0], t, pat, i);
          }
        }
      }
    }
  }

  /** Without a match at the front, the output has none at the front either. */
  lemma NotAtStart(s: string, pat: string, rep: string)
    requires |pat| > 0 && |rep| > 0 && forall c :: c in rep ==> c !in pat
    requires |s| > 0 && !StartsWith(s, pat)
    ensures !OccursAt(ReplaceAll(s, pat, rep), pat, 0)
  {
    var t := ReplaceAll(s[1..], pat, rep);
    var r := [s[0]] + t;
    assert ReplaceAll(s, pat, rep) == r;
    if |pat| <= |r| {
      ReplaceAllPrefix(s[1..], pat, rep, |pat| - 1);
      if |pat| - 1 <= |s[1..]| && t[..|pat| - 1] == s[1..][..|pat| - 1] {
        TakeCons(s, |pat|);
        assert r[..|pat|] == [s[0]] + t[..|pat| - 1];
      } else {
        var k :| 0 <= k < |pat| - 1 && t[k] in rep;
        assert r[..|pat|][k + 1] == t[k] && pat[k + 1] in pat;
      }
    }
  }

  lemma TakeCons(s: string, n: nat)
    requires 0 < n <= |s|
    ensures s[..n] == [s[0]] + s[1..][..n - 1]
  {
    assert forall i :: 0 <= i < n ==> s[..n][i] == ([s[0]] + s[1..][..n - 1])[i];
  }

  /** A prefix whose characters are not in the pattern cannot start or straddle an
      occurrence. */
  lemma NoOccurrenceAfter(a: string, t: string, pat: string)
    requires |pat| > 0 && forall c :: c in a ==> c !in pat
    requires !Occurs(t, pat)
    ensures !Occurs(a + t, pat)
  {
    forall i | 0 <= i <= |a + t|
      ensures !OccursAt(a + t, pat, i)
    {
      if i < |a| {
        if i <= |a + t| - |pat| {
          assert (a + t)[i..i + |pat|][0] == a[i] && a[i] in a && pat[0] in pat;
        }
      } else if OccursAt(a + t, pat, i) {
        assert (a + t)[i..i + |pat|] == t[i - |a|..i - |a| + |pat|];
        assert OccursAt(t, pat, i - |a|);
      }
    }
  }

  /** A character in neither the text nor the replacement is not in the result. */
  lemma {:induction false} ReplaceAllKeepsOut(s: string, pat: string, rep: string, c: char)
    requires |pat| > 0 && c !in s && c !in rep
    ensures c !in ReplaceAll(s, pat, rep)
    decreases |s|
  {
    if |s| > 0 {
      if StartsWith(s, pat) {
        ReplaceAllKeepsOut(s[|pat|..], pat, rep, c);
      } else {
        ReplaceAllKeepsOut(s[1..], pat, rep, c);
      }
    }
  }

  /** A replacement as long as the pattern keeps the length. */
  lemma {:induction false} ReplaceAllLength(s: string, pat: string, rep: string)
    requires |pat| > 0 && |rep| == |pat|
    ensures |ReplaceAll(s, pat, rep)| == |s|
    decreases |s|
  {
    if |s| > 0 {
      if StartsWith(s, pat) {
        ReplaceAllLength(s[|pat|..], pat, rep);
      } else {
        ReplaceAllLength(s[1..], pat, rep);
      }
    }
  }

  lemma NotInConcat(x: string, y: string, c: char)
    requires c !in x && c !in y
    ensures c !in x + y
  {
  }

  /** A character of the text is an occurrence of the one-character pattern. */
  lemma CharOccurs(s: string, c: char)
    requires c in s
    ensures Occurs(s, [c])
  {
    var i :| 0 <= i < |s| && s[i] == c;
    assert OccursAt(s, [c], i);
  }
}

=== FILE: LinkedList.dfy ===
/** The LinkedList container of js_linkedlist.ts, with its node chain abstracted to the
    sequence of elements from head to tail. Errors the class raises through its error
    helper are `Failure`s; `undefined` results are `None`. */
module LinkedList {
  import opened Wrappers

  /** The errors raised: an index outside its range, a JavaScript TypeError (as when
      reading a property of `undefined`), and the "container is empty" error. */
  datatype Error = RangeError | TypeError | EmptyError

  // ---------------------------------------------------------------------------------
  // Adding and reading
  // ---------------------------------------------------------------------------------

  /** add: the element becomes the new tail; the earlier elements keep their places. */
  function Add<T>(l: seq<T>, e: T): (r: seq<T>)
    ensures |r| == |l| + 1 && r[|l|] == e
    ensures forall k :: 0 <= k < |l| ==> r[k] == l[k]
  {
    l + [e]
  }

  /** addFirst: the element becomes the new head; the others move up one place. */
  function AddFirst<T>(l: seq<T>, e: T): (r: seq<T>)
    ensures |r| == |l| + 1 && r[0] == e
    ensures forall k :: 0 <= k < |l| ==> r[k + 1] == l[k]
  {
    [e] + l
  }

  /** get: the element at `index`, `undefined` outside `0..length-1`. */
  function Get<T>(l: seq<T>, index: int): (r: Option<T>)
    ensures r.Some? <==> 0 <= index < |l|
    ensures r.Some? ==> r.value == l[index]
  {
    if 0 <= index < |l| then Some(l[index]) else None
  }

  /** getFirst: the head's element, `undefined` for an empty list. */
  function GetFirst<T>(l: seq<T>): (r: Option<T>)
    ensures r == Get(l, 0)
  {
    if l == [] then None else Some(l[0])
  }

  /** getLast: the tail's element, `undefined` for an empty list. */
  function GetLast<T>(l: seq<T>): (r: Option<T>)
    ensures r == Get(l, |l| - 1)
  {
    if l == [] then None else Some(l[|l| - 1])
  }

  /** The list built by `add` then read by `get`: the new element sits at the end. */
  lemma AddThenGet<T>(l: seq<T>, e: T, i: int)
    ensures Get(Add(l, e), |l|) == Some(e) && GetLast(Add(l, e)) == Some(e)
    ensures 0 <= i < |l| ==> Get(Add(l, e), i) == Get(l, i)
  {
  }

  /** The list built by `addFirst` then read by `get`: the new element is first. */
  lemma AddFirstThenGet<T>(l: seq<T>, e: T, i: int)
    ensures GetFirst(AddFirst(l, e)) == Some(e)
    ensures 0 <= i < |l| ==> Get(AddFirst(l, e), i + 1) == Get(l, i)
  {
  }

  // ---------------------------------------------------------------------------------
  // insert and set
  // ---------------------------------------------------------------------------------

  /** insert: a range error unless `0 <= index <= length`; otherwise the element is
      placed at `index` and the ones from `index` on move up. */
  function Insert<T>(l: seq<T>, index: int, e: T): (r: Result<seq<T>, Error>)
    ensures r.Failure? <==> !(0 <= index <= |l|)
    ensures r.Failure? ==> r.error == RangeError
    ensures r.Success? ==> |r.value| == |l| + 1 && r.value[index] == e
    ensures r.Success? ==> forall k :: 0 <= k < |l| ==>
              r.value[if k < index then k else k + 1] == l[k]
  {
    if 0 <= index <= |l| then Success(l[..index] + [e] + l[index..]) else Failure(RangeError)
  }

  /** set: a range error unless `0 <= index <= length-1`; otherwise only the element at
      `index` is replaced, and the new element is returned. */
  function Set<T>(l: seq<T>, index: int, e: T): (r: Result<(seq<T>, T), Error>)
    ensures r.Failure? <==> !(0 <= index < |l|)
    ensures r.Failure? ==> r.error == RangeError
    ensures r.Success? ==> r.value.1 == e && |r.value.0| == |l| && r.value.0[index] == e
    ensures r.Success? ==> forall k :: 0 <= k < |l| && k != index ==> r.value.0[k] == l[k]
  {
    if 0 <= index < |l| then Success((l[index := e], e)) else Failure(RangeError)
  }

  // ---------------------------------------------------------------------------------
  // removeByIndex
  // ---------------------------------------------------------------------------------

  /** removeByIndex as written. Removing index 0 first moves the head to its successor and
      then clears that node's back link, which for a one-element list is a property read
      on `undefined`. The node it returns is the old head, except when the last index is
      removed, where it is the node before it. */
  function RemoveByIndexAsWritten<T>(l: seq<T>, index: int): (r: Result<(seq<T>, T), Error>)
    ensures r.Failure? <==> !(0 <= index < |l|) || |l| == 1
  {
    if !(0 <= index < |l|) then Failure(RangeError)
    else if index == 0 then
      if |l| == 1 then Failure(TypeError) else Success((l[1..], l[0]))
    else if index == |l| - 1 then Success((l[..index], l[index - 1]))
    else Success((l[..index] + l[index + 1..], l[0]))
  }

  /** removeByIndex: a range error unless `0 <= index <= length-1`; otherwise the element
      at `index` is taken out and returned. */
  function RemoveByIndex<T>(l: seq<T>, index: int): (r: Result<(seq<T>, T), Error>)
    ensures r.Failure? <==> !(0 <= index < |l|)
    ensures r.Failure? ==> r.error == RangeError
    ensures r.Success? ==> r.value.1 == l[index] && |r.value.0| == |l| - 1
    ensures r.Success? ==> forall k :: 0 <= k < |l| - 1 ==>
              r.value.0[k] == l[if k < index then k else k + 1]
  {
    if 0 <= index < |l| then Success((l[..index] + l[index + 1..], l[index]))
    else Failure(RangeError)
  }

  /** Inserting and then removing at the same index gives back the list and the element. */
  lemma InsertThenRemove<T>(l: seq<T>, index: int, e: T)
    requires 0 <= index <= |l|
    ensures Insert(l, index, e).Success?
    ensures RemoveByIndex(Insert(l, index, e).value, index) == Success((l, e))
  {
    var m := Insert(l, index, e).value;
    assert m[..index] + m[index + 1..] == l;
  }

  /** Removing and then inserting the removed element at its index restores the list. */
  lemma RemoveThenInsert<T>(l: seq<T>, index: int)
    requires 0 <= index < |l|
    ensures RemoveByIndex(l, index).Success?
    ensures var (rest, e) := RemoveByIndex(l, index).value;
            Insert(rest, index, e) == Success(l)
  {
    var rest := RemoveByIndex(l, index).value.0;
    assert rest[..index] + [l[index]] + rest[index..] == l;
  }

  /** On a one-element list, removeByIndex(0) as written throws where the element should
      come back and leave the list empty. */
  lemma RemoveOnlyElement<T>(x: T)
    ensures RemoveByIndexAsWritten([x], 0) == Failure(TypeError)
    ensures RemoveByIndex([x], 0) == Success(([], x))
  {
  }

  /** Removing the last or a middle element as written leaves the right list but returns
      the wrong element: for `[a, b, c]` with distinct elements, index 2 returns `b` and
      index 1 returns `a`. */
  lemma RemoveReturnsWrongElement<T>(a: T, b: T, c: T)
    requires a != b && b != c
    ensures RemoveByIndexAsWritten([a, b, c], 2) == Success(([a, b], b))
    ensures RemoveByIndex([a, b, c], 2) == Success(([a, b], c))
    ensures RemoveByIndexAsWritten([a, b, c], 1) == Success(([a, c], a))
    ensures RemoveByIndex([a, b, c], 1) == Success(([a, c], b))
    ensures RemoveByIndexAsWritten([a, b, c], 2).value.1 != RemoveByIndex([a, b, c], 2).value.1
    ensures RemoveByIndexAsWritten([a, b, c], 1).value.1 != RemoveByIndex([a, b, c], 1).value.1
  {
    assert [a, b, c][..2] == [a, b] && [a, b, c][..2] + [a, b, c][3..] == [a, b];
    assert [a, b, c][..1] + [a, b, c][2..] == [a, c];
  }

  /** Apart from the one-element case the code as written removes the right element; the
      element it returns is the right one only for index 0. */
  lemma RemoveAsWrittenAgrees<T>(l: seq<T>, index: int)
    requires 0 <= index < |l| && |l| >= 2
    ensures RemoveByIndexAsWritten(l, index).Success?
    ensures RemoveByIndexAsWritten(l, index).value.0 == RemoveByIndex(l, index).value.0
    ensures index == 0 ==> RemoveByIndexAsWritten(l, index).value.1 == l[index]
    ensures index == |l| - 1 ==> RemoveByIndexAsWritten(l, index).value.1 == l[index - 1]
    ensures 0 < index < |l| - 1 ==> RemoveByIndexAsWritten(l, index).value.1 == l[0]
  {
    if index == 0 {
      assert l[..0] + l[1..] == l[1..];
    } else if index == |l| - 1 {
      assert l[..index] + l[index + 1..] == l[..index];
    }
  }

  // ---------------------------------------------------------------------------------
  // Removing by position and by value
  // ---------------------------------------------------------------------------------

  /** removeFirst: the empty-container error on an empty list, else the head comes off. */
  function RemoveFirst<T>(l: seq<T>): (r: Result<(seq<T>, T), Error>)
    ensures r.Failure? <==> l == []
    ensures r.Failure? ==> r.error == EmptyError
    ensures r.Success? ==> r.value.1 == l[0] && [r.value.1] + r.value.0 == l
  {
    if l == [] then Failure(EmptyError)
    else
      var rest := RemoveByIndex(l, 0).value.0;
      assert [l[0]] + rest == l;
      Success((rest, l[0]))
  }

  /** removeLast: the empty-container error on an empty list, else the tail comes off. */
  function RemoveLast<T>(l: seq<T>): (r: Result<(seq<T>, T), Error>)
    ensures r.Failure? <==> l == []
    ensures r.Failure? ==> r.error == EmptyError
    ensures r.Success? ==> r.value.1 == l[|l| - 1] && r.value.0 + [r.value.1] == l
  {
    if l == [] then Failure(EmptyError)
    else
      var rest := RemoveByIndex(l, |l| - 1).value.0;
      assert rest + [l[|l| - 1]] == l;
      Success((rest, l[|l| - 1]))
  }

  /** removeFirst undoes addFirst, and removeLast undoes add. */
  lemma RemoveUndoesAdd<T>(l: seq<T>, e: T)
    ensures RemoveFirst(AddFirst(l, e)) == Success((l, e))
    ensures RemoveLast(Add(l, e)) == Success((l, e))
  {
    assert ([e] + l)[1..] == l;
  }

  /** The position of the first element equal to `e`, or -1. */
  function FirstIndex<T(==)>(l: seq<T>, e: T): (r: int)
    ensures -1 <= r < |l|
    ensures r == -1 <==> e !in l
    ensures r >= 0 ==> l[r] == e && forall k :: 0 <= k < r ==> l[k] != e
  {
    if l == [] then -1
    else if l[0] == e then 0
    else
      var i := FirstIndex(l[1..], e);
      if i == -1 then -1 else i + 1
  }

  /** The position of the last element equal to `e`, or -1. */
  function LastIndex<T(==)>(l: seq<T>, e: T): (r: int)
    ensures -1 <= r < |l|
    ensures r == -1 <==> e !in l
    ensures r >= 0 ==> l[r] == e && forall k :: r < k < |l| ==> l[k] != e
  {
    if l == [] then -1
    else if l[|l| - 1] == e then |l| - 1
    else LastIndex(l[..|l| - 1], e)
  }

  /** getIndexOf: the loop from the head. */
  method GetIndexOf<T(==)>(l: seq<T>, e: T) returns (r: int)
    ensures r == -1 <==> e !in l
    ensures r >= 0 ==> r < |l| && l[r] == e && forall k :: 0 <= k < r ==> l[k] != e
    ensures r == FirstIndex(l, e)
  {
    var i := 0;
    while i < |l|
      invariant 0 <= i <= |l|
      invariant forall k :: 0 <= k < i ==> l[k] != e
    {
      if l[i] == e {
        return i;
      }
      i := i + 1;
    }
    return -1;
  }

  /** getLastIndexOf: the loop from the tail. */
  method GetLastIndexOf<T(==)>(l: seq<T>, e: T) returns (r: int)
    ensures r == -1 <==> e !in l
    ensures r >= 0 ==> r < |l| && l[r] == e && forall k :: r < k < |l| ==> l[k] != e
    ensures r == LastIndex(l, e)
  {
    var i := |l| - 1;
    while i >= 0
      invariant -1 <= i < |l|
      invariant forall k :: i < k < |l| ==> l[k] != e
    {
      if l[i] == e {
        return i;
      }
      i := i - 1;
    }
    return -1;
  }

  /** has: the walk from the head. */
  method Has<T(==)>(l: seq<T>, e: T) returns (r: bool)
    ensures r <==> e in l
  {
    var i := 0;
    while i < |l|
      invariant 0 <= i <= |l|
      invariant forall k :: 0 <= k < i ==> l[k] != e
    {
      if l[i] == e {
        return true;
      }
      i := i + 1;
    }
    return false;
  }

  /** remove: false and no change when `e` is absent; otherwise its first occurrence is
      taken out. */
  function Remove<T(==)>(l: seq<T>, e: T): (r: (seq<T>, bool))
    ensures r.1 <==> e in l
    ensures !r.1 ==> r.0 == l
    ensures r.1 ==> var i := FirstIndex(l, e); r.0 == l[..i] + l[i + 1..]
  {
    if l == [] || e !in l then (l, false)
    else (RemoveByIndex(l, FirstIndex(l, e)).value.0, true)
  }

  /** removeFirstFound: the empty-container error on an empty list, else remove. */
  function RemoveFirstFound<T(==)>(l: seq<T>, e: T): (r: Result<(seq<T>, bool), Error>)
    ensures r.Failure? <==> l == []
    ensures r.Success? ==> r.value == Remove(l, e)
  {
    if l == [] then Failure(EmptyError) else Success(Remove(l, e))
  }

  /** removeLastFound: the empty-container error on an empty list; false and no change
      when `e` is absent; otherwise its last occurrence is taken out. */
  function RemoveLastFound<T(==)>(l: seq<T>, e: T): (r: Result<(seq<T>, bool), Error>)
    ensures r.Failure? <==> l == []
    ensures r.Success? ==> (r.value.1 <==> e in l)
    ensures r.Success? && !r.value.1 ==> r.value.0 == l
    ensures r.Success? && r.value.1 ==>
              var i := LastIndex(l, e); r.value.0 == l[..i] + l[i + 1..]
  {
    if l == [] then Failure(EmptyError)
    else if e !in l then Success((l, false))
    else Success((RemoveByIndex(l, LastIndex(l, e)).value.0, true))
  }

  /** remove takes out exactly one occurrence of `e` and keeps the others in order. */
  lemma RemoveOneOccurrence<T>(l: seq<T>, e: T)
    requires e in l
    ensures multiset(Remove(l, e).0) == multiset(l) - multiset{e}
    ensures |Remove(l, e).0| == |l| - 1
  {
    var i := FirstIndex(l, e);
    assert l == l[..i] + [e] + l[i + 1..];
    assert multiset(l) == multiset(l[..i]) + multiset{e} + multiset(l[i + 1..]);
  }

  // ---------------------------------------------------------------------------------
  // The callers of removeByIndex as written
  // ---------------------------------------------------------------------------------

  /** The list and element of removeByIndex as written, or its error. */
  function Taken<T>(l: seq<T>, index: int): Result<seq<T>, Error> {
    match RemoveByIndexAsWritten(l, index)
    case Success((rest, _)) => Success(rest)
    case Failure(e) => Failure(e)
  }

  /** removeFirst as written: the head's element is read before removeByIndex(0), so a
      one-element list throws the TypeError of removeByIndex. */
  function RemoveFirstAsWritten<T>(l: seq<T>): (r: Result<(seq<T>, T), Error>)
    ensures r.Failure? <==> |l| <= 1
    ensures |l| == 1 ==> r == Failure(TypeError)
    ensures |l| != 1 ==> r == RemoveFirst(l)
  {
    if l == [] then Failure(EmptyError)
    else
      match Taken(l, 0)
      case Success(rest) =>
        assert rest == RemoveByIndex(l, 0).value.0 by { RemoveAsWrittenAgrees(l, 0); }
        Success((rest, l[0]))
      case Failure(e) => Failure(e)
  }

  /** removeLast as written: removeByIndex(length - 1), which is index 0 on a one-element
      list. */
  function RemoveLastAsWritten<T>(l: seq<T>): (r: Result<(seq<T>, T), Error>)
    ensures r.Failure? <==> |l| <= 1
    ensures |l| == 1 ==> r == Failure(TypeError)
    ensures |l| != 1 ==> r == RemoveLast(l)
  {
    if l == [] then Failure(EmptyError)
    else
      match Taken(l, |l| - 1)
      case Success(rest) =>
        assert rest == RemoveByIndex(l, |l| - 1).value.0 by { RemoveAsWrittenAgrees(l, |l| - 1); }
        Success((rest, l[|l| - 1]))
      case Failure(e) => Failure(e)
  }

  /** remove as written: the element found on a one-element list is at index 0, where
      removeByIndex throws. */
  function RemoveAsWritten<T(==)>(l: seq<T>, e: T): (r: Result<(seq<T>, bool), Error>)
    ensures r.Failure? <==> l == [e]
    ensures r.Failure? ==> r.error == TypeError
    ensures r.Success? ==> r.value == Remove(l, e)
  {
    if l == [] || e !in l then Success((l, false))
    else
      match Taken(l, FirstIndex(l, e))
      case Success(rest) =>
        assert rest == Remove(l, e).0 by { RemoveAsWrittenAgrees(l, FirstIndex(l, e)); }
        Success((rest, true))
      case Failure(err) => Failure(err)
  }

  /** removeFirstFound as written: the empty-container error, then remove as written. */
  function RemoveFirstFoundAsWritten<T(==)>(l: seq<T>, e: T): (r: Result<(seq<T>, bool), Error>)
    ensures r.Failure? <==> l == [] || l == [e]
    ensures l == [e] ==> r == Failure(TypeError)
    ensures l != [e] ==> r == RemoveFirstFound(l, e)
  {
    if l == [] then Failure(EmptyError) else RemoveAsWritten(l, e)
  }

  /** removeLastFound as written: the last occurrence on a one-element list is index 0. */
  function RemoveLastFoundAsWritten<T(==)>(l: seq<T>, e: T): (r: Result<(seq<T>, bool), Error>)
    ensures r.Failure? <==> l == [] || l == [e]
    ensures l == [e] ==> r == Failure(TypeError)
    ensures l != [e] ==> r == RemoveLastFound(l, e)
  {
    if l == [] then Failure(EmptyError)
    else if e !in l then Success((l, false))
    else
      match Taken(l, LastIndex(l, e))
      case Success(rest) =>
        assert rest == RemoveByIndex(l, LastIndex(l, e)).value.0 by {
          RemoveAsWrittenAgrees(l, LastIndex(l, e));
        }
        Success((rest, true))
      case Failure(err) => Failure(err)
  }

  /** As written, removeFirst undoes addFirst and removeLast undoes add except on an empty
      starting list, where the one element cannot be taken out again. */
  lemma RemoveUndoesAddAsWritten<T>(l: seq<T>, e: T)
    ensures l == [] ==> RemoveFirstAsWritten(AddFirst(l, e)) == Failure(TypeError)
    ensures l == [] ==> RemoveLastAsWritten(Add(l, e)) == Failure(TypeError)
    ensures l != [] ==> RemoveFirstAsWritten(AddFirst(l, e)) == Success((l, e))
    ensures l != [] ==> RemoveLastAsWritten(Add(l, e)) == Success((l, e))
  {
    RemoveUndoesAdd(l, e);
  }

  // ---------------------------------------------------------------------------------
  // Copies
  // ---------------------------------------------------------------------------------

  /** convertToArray: the elements from head to tail. */
  method ConvertToArray<T>(l: seq<T>) returns (arr: seq<T>)
    ensures |arr| == |l| && forall k :: 0 <= k < |l| ==> arr[k] == l[k]
  {
    arr := [];
    if |l| == 0 {
      return;
    }
    var index := 0;
    while index < |l|
      invariant 0 <= index <= |l|
      invariant arr == l[..index]
    {
      arr := arr + [l[index]];
      index := index + 1;
    }
  }

  /** clone: a new list filled by `add`, one element of the array at a time. */
  method Clone<T>(l: seq<T>) returns (c: seq<T>)
    ensures c == l
  {
    var arr := ConvertToArray(l);
    c := [];
    var i := 0;
    while i < |arr|
      invariant 0 <= i <= |arr|
      invariant c == arr[..i]
    {
      c := Add(c, arr[i]);
      i := i + 1;
    }
    assert arr == l;
  }

  // ---------------------------------------------------------------------------------
  // Indexing through the proxy
  // ---------------------------------------------------------------------------------

  /** Reading `list[index]` for an integer index: a range error outside `0..length-1`. */
  function ProxyGet<T>(l: seq<T>, index: int): (r: Result<T, Error>)
    ensures r.Failure? <==> !(0 <= index < |l|)
    ensures r.Success? ==> Get(l, index) == Some(r.value)
  {
    if 0 <= index < |l| then Success(l[index]) else Failure(RangeError)
  }

  /** Writing `list[index] = v`: the proxy admits `0..length`, and `set` then refuses
      `length`, so only existing positions can be written. */
  function ProxySet<T>(l: seq<T>, index: int, v: T): (r: Result<seq<T>, Error>)
    ensures r.Failure? <==> !(0 <= index < |l|)
    ensures r.Success? ==> Set(l, index, v) == Success((r.value, v))
  {
    if !(0 <= index <= |l|) then Failure(RangeError)
    else match Set(l, index, v)
      case Success((m, _)) => Success(m)
      case Failure(e) => Failure(e)
  }

  /** `delete list[index]`: a range error outside `0..length-1`, else removeByIndex. */
  function ProxyDelete<T>(l: seq<T>, index: int): (r: Result<seq<T>, Error>)
    ensures r.Failure? <==> !(0 <= index < |l|)
    ensures r.Success? ==> |r.value| == |l| - 1 && RemoveByIndex(l, index).value.0 == r.value
  {
    if !(0 <= index < |l|) then Failure(RangeError)
    else Success(RemoveByIndex(l, index).value.0)
  }

  /** `delete list[index]` as written: index 0 of a one-element list passes the range check
      and then throws in removeByIndex. */
  function ProxyDeleteAsWritten<T>(l: seq<T>, index: int): (r: Result<seq<T>, Error>)
    ensures r.Failure? <==> !(0 <= index < |l|) || |l| == 1
    ensures |l| == 1 && index == 0 ==> r == Failure(TypeError)
    ensures |l| != 1 ==> r == ProxyDelete(l, index)
  {
    if !(0 <= index < |l|) then Failure(RangeError)
    else if |l| == 1 then Taken(l, index)
    else
      RemoveAsWrittenAgrees(l, index);
      Taken(l, index)
  }
}

=== FILE: SequenceRunner.dfy ===
/** The SequenceRunner of sequence_runner.cpp: construction with an optional name and
    priority, `execute` that starts a task at once when the runner is idle and queues it
    otherwise, and the destructor's two branches. */
module SequenceRunner {
  import opened Wrappers
  import opened JsInt
  import opened TaskTypes

  /** A runner: its id, name, priority, whether it is shared by name, the task it is
      running (0 for none), the tasks waiting behind it, and the references held on it. */
  datatype Runner = Runner(
    id: nat,
    name: string,
    priority: Priority,
    isGlobal: bool,
    currentTaskId: nat,
    queue: seq<nat>,
    refCount: nat)

  /** A number argument as a priority: GetUint32Value, then a type error from NUMBER on. */
  function PriorityArg(n: int): (r: Result<Priority, Error>)
    ensures r.Success? <==> ToUint32(n) < PriorityCount
    ensures r.Success? ==> Ordinal(r.value) == ToUint32(n)
  {
    match PriorityOf(ToUint32(n))
    case None => Failure(TypeError)
    case Some(p) => Success(p)
  }

  /** The constructor's argument checks: with two arguments a string then a number, with
      one a string or a number; any other count keeps the defaults (no name, DEFAULT). */
  function ParseArgs(args: seq<Value>): (r: Result<(string, Priority), Error>)
    ensures |args| == 0 || |args| > 2 ==> r == Success(("", DefaultPriority))
    ensures |args| == 2 ==>
              (r.Success? <==> args[0].Str? && args[1].Num? && ToUint32(args[1].n) < PriorityCount)
    ensures |args| == 1 ==>
              (r.Success? <==> args[0].Str? || (args[0].Num? && ToUint32(args[0].n) < PriorityCount))
    ensures r.Success? && 1 <= |args| <= 2 ==>
              && r.value.0 == (if args[0].Str? then args[0].s else "")
              && Ordinal(r.value.1) ==
                   (if args[|args| - 1].Num? then ToUint32(args[|args| - 1].n) else Ordinal(DefaultPriority))
  {
    if |args| == 2 then
      if args[0].Str? && args[1].Num? then
        match PriorityArg(args[1].n)
        case Failure(e) => Failure(e)
        case Success(p) => Success((args[0].s, p))
      else Failure(TypeError)
    else if |args| == 1 then
      if args[0].Str? then Success((args[0].s, DefaultPriority))
      else if args[0].Num? then
        match PriorityArg(args[0].n)
        case Failure(e) => Failure(e)
        case Success(p) => Success(("", p))
      else Failure(TypeError)
    else Success(("", DefaultPriority))
  }

  /** Every priority from NUMBER on is refused, whatever the argument count. */
  lemma PriorityBoundEnforced(args: seq<Value>)
    requires 1 <= |args| <= 2 && args[|args| - 1].Num? && ToUint32(args[|args| - 1].n) >= PriorityCount
    ensures ParseArgs(args) == Failure(TypeError)
  {
  }

  /** The constructor. A named runner comes from CreateOrGetGlobalRunner, which is not
      part of this model: `global` is its answer, None when it failed. An unnamed runner
      is new, idle, with the given priority and the id `id`. */
  function Construct(args: seq<Value>, id: nat, global: Option<Runner>): (r: Result<Runner, Error>)
    ensures ParseArgs(args).Failure? ==> r == Failure(TypeError)
    ensures ParseArgs(args).Success? && ParseArgs(args).value.0 != "" ==>
              r == (if global.Some? then Success(global.value) else Failure(Refused))
    ensures ParseArgs(args).Success? && ParseArgs(args).value.0 == "" ==>
              r.Success? && !r.value.isGlobal && r.value.currentTaskId == 0 && r.value.queue == [] &&
              r.value.priority == ParseArgs(args).value.1
  {
    match ParseArgs(args)
    case Failure(e) => Failure(e)
    case Success((name, priority)) =>
      if name != "" then
        if global.Some? then Success(global.value) else Failure(Refused)
      else Success(Runner(id, "", priority, false, 0, [], 0))
  }

  /** execute. `runner` is the runner found by id (None when it is gone), `canForRunner`
      the answer of CanForSequenceRunner and `promised` whether GetTaskInfoPromise made a
      promise; both are not part of this model. An idle runner makes the task current,
      waiting and enqueued at the runner's priority; a busy one queues it. */
  function Execute(runner: Option<Runner>, pool: Pool, args: seq<Value>, canForRunner: bool, promised: bool)
    : (r: Result<(Runner, Pool), Error>)
    ensures |args| == 0 || !args[0].Obj? || !args[0].hasTaskId ==> r == Failure(TypeError)
    ensures r.Success? ==> runner.Some? && |args| >= 1 && args[0].Obj? && args[0].wrapped.Some?
    ensures r.Success? ==> Dispatched(runner.value, pool, args[0].wrapped.value, r.value.0, r.value.1)
  {
    if |args| < 1 then Failure(TypeError)
    else if !args[0].Obj? || !args[0].hasTaskId then Failure(TypeError)
    else if runner.None? then Failure(Refused)
    else if args[0].wrapped.None? || args[0].wrapped.value !in pool.tasks then Failure(TypeError)
    else if !canForRunner || !promised then Failure(Refused)
    else
      var s := runner.value;
      var id := args[0].wrapped.value;
      var t := pool.tasks[id].(seqRunnerId := s.id);
      var s1 := s.(refCount := s.refCount + 1);
      if s.currentTaskId == 0 then
        var t1 := t.(refCount := t.refCount + 1, state := Waiting);
        Success((s1.(currentTaskId := id),
                 Pool(pool.tasks[id := t1], pool.log + [Enqueue(id, s.priority)])))
      else
        Success((s1.(queue := s.queue + [id]), pool.(tasks := pool.tasks[id := t])))
  }

  /** What a successful execute did with task `id`: idle, it started the task; busy, it
      queued it and enqueued nothing. Either way the task belongs to the runner and no
      other task changed. */
  ghost predicate Dispatched(s: Runner, pool: Pool, id: nat, s2: Runner, pool2: Pool) {
    && id in pool.tasks && id in pool2.tasks
    && pool2.tasks[id].seqRunnerId == s.id
    && pool2.tasks.Keys == pool.tasks.Keys
    && (forall k :: k in pool.tasks && k != id ==> pool2.tasks[k] == pool.tasks[k])
    && s2.refCount == s.refCount + 1
    && if s.currentTaskId == 0 then
         && s2 == s.(currentTaskId := id, refCount := s2.refCount)
         && pool2.tasks[id].state == Waiting
         && pool2.log == pool.log + [Enqueue(id, s.priority)]
       else
         && s2 == s.(queue := s.queue + [id], refCount := s2.refCount)
         && pool2.tasks[id].state == pool.tasks[id].state
         && pool2.log == pool.log
  }

  /** A runner is in order when it holds queued tasks only while one runs. */
  predicate InOrder(s: Runner) {
    s.queue != [] ==> s.currentTaskId != 0
  }

  /** execute keeps a runner in order when task ids are not 0, and of two tasks given to
      an idle runner only the first is enqueued. */
  lemma ExecuteInOrder(s: Runner, pool: Pool, args: seq<Value>, canForRunner: bool, promised: bool)
    requires InOrder(s) && 0 !in pool.tasks
    requires Execute(Some(s), pool, args, canForRunner, promised).Success?
    ensures InOrder(Execute(Some(s), pool, args, canForRunner, promised).value.0)
  {
  }

  /** Two tasks given in turn to an idle runner: the first starts, the second waits. */
  lemma TwoExecutes(s: Runner, pool: Pool, a: nat, b: nat)
    requires s.currentTaskId == 0 && a != 0 && a in pool.tasks && b in pool.tasks
    ensures var r1 := Execute(Some(s), pool, [Obj(Some(a), true)], true, true);
            && r1.Success?
            && var r2 := Execute(Some(r1.value.0), r1.value.1, [Obj(Some(b), true)], true, true);
            && r2.Success?
            && r2.value.0.currentTaskId == a && r2.value.0.queue == s.queue + [b]
            && r2.value.1.log == pool.log + [Enqueue(a, s.priority)]
  {
  }

  /** What the destructor does: a global runner goes to the global destructor; a local
      one leaves the registry. */
  datatype Disposal = ToGlobalDestructor | Removed(registry: map<nat, Runner>)

  /** SequenceRunnerDestructor. */
  function Destruct(s: Runner, registry: map<nat, Runner>): (r: Disposal)
    ensures s.isGlobal <==> r.ToGlobalDestructor?
    ensures r.Removed? ==> s.id !in r.registry && r.registry.Keys == registry.Keys - {s.id}
    ensures r.Removed? ==> forall k :: k in r.registry ==> r.registry[k] == registry[k]
  {
    if s.isGlobal then ToGlobalDestructor else Removed(registry - {s.id})
  }

  /** Destroying a local runner undoes its registration: the registry is as it was before
      the runner was entered. */
  lemma DestructUndoesRegister(s: Runner, registry: map<nat, Runner>)
    requires !s.isGlobal && s.id !in registry
    ensures Destruct(s, registry[s.id := s]) == Removed(registry)
  {
  }
}

=== FILE: Stack.dfy ===
/** The Stack container of js_stack.ts: elements in slots `0..elementNum-1`, the top at
    the highest slot, and a `capacity` field that only decides when `increaseCapacity`
    multiplies it by 1.5. Number fields are modelled as reals where the code can make them
    fractional. */
module Stack {
  import opened Wrappers

  /** The one error the stack raises itself: an index outside `0..length-1`. */
  datatype Error = RangeError

  /** The elements bottom to top, and the capacity. */
  datatype Stack<T> = Stack(elems: seq<T>, capacity: real)

  /** The constructor: empty, capacity 10. */
  function New<T>(): (s: Stack<T>)
    ensures s.elems == [] && s.capacity == 10.0
  {
    Stack([], 10.0)
  }

  function Length<T>(s: Stack<T>): nat {
    |s.elems|
  }

  /** isEmpty: the length is 0. */
  function IsEmpty<T>(s: Stack<T>): (r: bool)
    ensures r <==> Length(s) == 0
  {
    |s.elems| == 0
  }

  /** isFull: the element count equals the capacity exactly, which a capacity with a
      fractional part never does. */
  function IsFull<T>(s: Stack<T>): (r: bool)
    ensures r ==> s.capacity.Floor as real == s.capacity && s.capacity.Floor == Length(s)
  {
    |s.elems| as real == s.capacity
  }

  /** push: grow the capacity when full, then put the element on top; answers the
      element. */
  function Push<T>(s: Stack<T>, x: T): (r: (T, Stack<T>))
    ensures r.0 == x && r.1.elems == s.elems + [x]
    ensures r.1.capacity == if IsFull(s) then 1.5 * s.capacity else s.capacity
  {
    var c := if IsFull(s) then 1.5 * s.capacity else s.capacity;
    (x, Stack(s.elems + [x], c))
  }

  /** pop: undefined and no change when empty, else the top element comes off. */
  function Pop<T>(s: Stack<T>): (r: (Option<T>, Stack<T>))
    ensures r.1.capacity == s.capacity
    ensures IsEmpty(s) <==> r.0.None?
    ensures IsEmpty(s) ==> r.1 == s
    ensures !IsEmpty(s) ==> r.0 == Some(s.elems[|s.elems| - 1]) && r.1.elems + [r.0.value] == s.elems
  {
    if IsEmpty(s) then (None, s)
    else
      var n := |s.elems|;
      (Some(s.elems[n - 1]), s.(elems := s.elems[..n - 1]))
  }

  /** peek: undefined when empty, else the top element, which pop would return. */
  function Peek<T>(s: Stack<T>): (r: Option<T>)
    ensures r == Pop(s).0
  {
    if IsEmpty(s) then None else Some(s.elems[|s.elems| - 1])
  }

  /** Pushing then popping gives back the element and the elements. */
  lemma PushThenPop<T>(s: Stack<T>, x: T)
    ensures Pop(Push(s, x).1).0 == Some(x)
    ensures Pop(Push(s, x).1).1.elems == s.elems
  {
    assert (s.elems + [x])[..|s.elems|] == s.elems;
  }

  /** Popping then pushing the popped element back restores the elements. */
  lemma PopThenPush<T>(s: Stack<T>)
    requires !IsEmpty(s)
    ensures Push(Pop(s).1, Pop(s).0.value).1.elems == s.elems
  {
  }

  /** Once the capacity is not a whole number no count of elements equals it, so it never
      grows again; the stack itself does not depend on it. */
  lemma CapacityFrozen<T>(s: Stack<T>, x: T)
    requires s.capacity != s.capacity.Floor as real
    ensures !IsFull(s) && Push(s, x).1.capacity == s.capacity
  {
  }

  /** From a new stack the capacity goes 10, 15, 22.5 and then stays. */
  lemma CapacityGrowth<T>(s: Stack<T>, x: T)
    ensures |s.elems| == 10 && s.capacity == 10.0 ==> Push(s, x).1.capacity == 15.0
    ensures |s.elems| == 15 && s.capacity == 15.0 ==> Push(s, x).1.capacity == 22.5
    ensures s.capacity == 22.5 ==> Push(s, x).1.capacity == 22.5
  {
    if s.capacity == 22.5 {
      assert s.capacity.Floor == 22;
      CapacityFrozen(s, x);
    }
  }

  /** locate: the lowest index holding the element (strict equality), or -1. */
  method Locate<T(==)>(s: Stack<T>, x: T) returns (r: int)
    ensures r == -1 <==> x !in s.elems
    ensures r != -1 ==> 0 <= r < |s.elems| && s.elems[r] == x &&
                        forall k :: 0 <= k < r ==> s.elems[k] != x
  {
    var i := 0;
    while i < |s.elems|
      invariant 0 <= i <= |s.elems|
      invariant forall k :: 0 <= k < i ==> s.elems[k] != x
    {
      if s.elems[i] == x {
        return i;
      }
      i := i + 1;
    }
    return -1;
  }

  /** Reading `stack[i]` through the proxy: a range error outside `0..length-1`. */
  function ProxyGet<T>(s: Stack<T>, i: int): (r: Result<T, Error>)
    ensures r.Failure? <==> !(0 <= i < |s.elems|)
    ensures r.Success? ==> r.value == s.elems[i]
  {
    if 0 <= i <= |s.elems| - 1 then Success(s.elems[i]) else Failure(RangeError)
  }

  /** Writing `stack[i] = v` through the proxy: a range error outside `0..length-1`, else
      only slot `i` changes. */
  function ProxySet<T>(s: Stack<T>, i: int, v: T): (r: Result<Stack<T>, Error>)
    ensures r.Failure? <==> !(0 <= i < |s.elems|)
    ensures r.Success? ==>
              && |r.value.elems| == |s.elems| && r.value.capacity == s.capacity
              && r.value.elems[i] == v
              && forall k :: 0 <= k < |s.elems| && k != i ==> r.value.elems[k] == s.elems[k]
  {
    if 0 <= i <= |s.elems| - 1 then Success(s.(elems := s.elems[i := v])) else Failure(RangeError)
  }

  /** A write then a read of the same index answers the written value. */
  lemma SetThenGet<T>(s: Stack<T>, i: int, v: T)
    requires 0 <= i < |s.elems|
    ensures ProxySet(s, i, v).Success? && ProxyGet(ProxySet(s, i, v).value, i) == Success(v)
  {
  }
}

=== FILE: TaskGroup.dfy ===
/** The TaskGroup of task_group.cpp: members added before the first execution, a FIFO of
    pending executions promoted one at a time, and the cancellation bookkeeping. The
    TaskGroupManager and TaskManager calls become updates of a Pool and events in its
    log. */
module TaskGroup {
  import opened Wrappers
  import opened TaskTypes

  /** One execution of the group: its promise, its priority and how many members have
      finished. */
  datatype GroupInfo = GroupInfo(deferred: nat, priority: Priority, finishedTaskNum: nat)

  /** A group: its id, state, members in order of addition, member count for the current
      execution, pending executions and the current one. */
  datatype Group = Group(
    groupId: nat,
    state: ExecuteState,
    taskIds: seq<nat>,
    taskNum: nat,
    pending: seq<GroupInfo>,
    current: Option<GroupInfo>)

  /** The constructor: at most one argument, a string naming the group. Answers the new
      group and its name. */
  function Construct(args: seq<Value>, groupId: nat): (r: Result<(Group, string), Error>)
    ensures r.Failure? <==> |args| > 1 || (|args| == 1 && !args[0].Str?)
    ensures r.Success? ==>
              && r.value.0 == Group(groupId, NotFound, [], 0, [], None)
              && r.value.1 == (if |args| == 1 then args[0].s else "")
  {
    if |args| > 1 then Failure(TypeError)
    else if |args| == 1 then
      if args[0].Str? then Success((Group(groupId, NotFound, [], 0, [], None), args[0].s))
      else Failure(TypeError)
    else Success((Group(groupId, NotFound, [], 0, [], None), ""))
  }

  // ---------------------------------------------------------------------------------
  // addTask
  // ---------------------------------------------------------------------------------

  /** The group gained member `id`, stored in the pool as a group task of this group, and
      nothing else changed. */
  ghost predicate Added(g: Group, pool: Pool, g2: Group, pool2: Pool, id: nat) {
    && g2 == g.(taskIds := g.taskIds + [id])
    && pool2.log == pool.log
    && id in pool2.tasks
    && pool2.tasks[id].groupId == g.groupId
    && pool2.tasks[id].kind in {GroupCommonTask, GroupFunctionTask}
    && (forall k :: k in pool.tasks && k != id ==> k in pool2.tasks && pool2.tasks[k] == pool.tasks[k])
    && (forall k :: k in pool2.tasks && k != id ==> k in pool.tasks)
  }

  /** addTask. An object argument must wrap a stored task that passes CanForTaskGroup
      (`canForGroup`); it is retyped as a group common task. A function argument becomes
      the task `generated` by GenerateFunctionTask, None when that failed. Both code paths
      are not part of this model and come in as parameters. */
  function AddTask(g: Group, pool: Pool, args: seq<Value>, canForGroup: bool, generated: Option<Task>)
    : (r: Result<(Group, Pool), Error>)
    requires generated.Some? ==> generated.value.kind == GroupFunctionTask
    ensures |args| == 0 || g.state != NotFound ==> r == Failure(TypeError)
    ensures r.Success? ==>
              && g.state == NotFound && |args| >= 1 && |r.value.0.taskIds| == |g.taskIds| + 1
              && Added(g, pool, r.value.0, r.value.1, r.value.0.taskIds[|g.taskIds|])
    ensures r.Success? && args[0].Obj? ==>
              && args[0].wrapped.Some? && args[0].wrapped.value in pool.tasks
              && var id := args[0].wrapped.value;
                 && r.value.0.taskIds[|g.taskIds|] == id
                 && r.value.1.tasks[id] == pool.tasks[id].(kind := GroupCommonTask, groupId := g.groupId)
    ensures r.Success? && args[0].Fn? ==>
              && generated.Some?
              && r.value.0.taskIds[|g.taskIds|] == generated.value.id
              && r.value.1.tasks[generated.value.id] == generated.value.(groupId := g.groupId)
    ensures r.Failure? <==>
              || |args| == 0 || g.state != NotFound
              || !(args[0].Obj? || args[0].Fn?)
              || (args[0].Obj? && (args[0].wrapped.None? || args[0].wrapped.value !in pool.tasks || !canForGroup))
              || (args[0].Fn? && generated.None?)
  {
    if |args| < 1 then Failure(TypeError)
    else if g.state != NotFound then Failure(TypeError)
    else match args[0]
      case Obj(wrapped, _) =>
        if wrapped.None? || wrapped.value !in pool.tasks then Failure(TypeError)
        else if !canForGroup then Failure(Refused)
        else
          var id := wrapped.value;
          var t := pool.tasks[id].(kind := GroupCommonTask, groupId := g.groupId);
          Success((g.(taskIds := g.taskIds + [id]), pool.(tasks := pool.tasks[id := t])))
      case Fn =>
        if generated.None? then Failure(Refused)
        else
          var t := generated.value.(groupId := g.groupId);
          Success((g.(taskIds := g.taskIds + [t.id]), pool.(tasks := pool.tasks[t.id := t])))
      case _ => Failure(TypeError)
  }

  // ---------------------------------------------------------------------------------
  // GetTaskIndex
  // ---------------------------------------------------------------------------------

  /** The position of `id` among `ids`, or `|ids|` when it is absent. */
  function IndexIn(ids: seq<nat>, id: nat): (r: nat)
    ensures r <= |ids|
    ensures r < |ids| ==> ids[r] == id
    ensures forall k :: 0 <= k < r ==> ids[k] != id
  {
    if ids == [] then 0
    else if ids[0] == id then 0
    else 1 + IndexIn(ids[1..], id)
  }

  /** GetTaskIndex: counts members until it meets `id`. */
  method GetTaskIndex(g: Group, id: nat) returns (index: nat)
    ensures index == IndexIn(g.taskIds, id)
  {
    index := 0;
    while index < |g.taskIds|
      invariant index <= |g.taskIds|
      invariant IndexIn(g.taskIds, id) == index + IndexIn(g.taskIds[index..], id)
    {
      if g.taskIds[index] == id {
        break;
      }
      assert g.taskIds[index..][1..] == g.taskIds[index + 1..];
      index := index + 1;
    }
  }

  /** A new member is found at the end of the old member list, when it was not already a
      member. */
  lemma AddedIsFound(g: Group, pool: Pool, args: seq<Value>, canForGroup: bool, generated: Option<Task>)
    requires generated.Some? ==> generated.value.kind == GroupFunctionTask
    requires AddTask(g, pool, args, canForGroup, generated).Success?
    ensures var g2 := AddTask(g, pool, args, canForGroup, generated).value.0;
            var id := g2.taskIds[|g.taskIds|];
            id !in g.taskIds ==> IndexIn(g2.taskIds, id) == |g.taskIds|
  {
  }

  // ---------------------------------------------------------------------------------
  // NotifyGroupTask
  // ---------------------------------------------------------------------------------

  /** Each member in turn: stop at the first id without a stored task; otherwise count a
      reference, mark the task waiting and enqueue it at the priority. */
  function EnqueueMembers(ids: seq<nat>, pool: Pool, priority: Priority): (r: Pool)
    ensures r.tasks.Keys == pool.tasks.Keys
    ensures |pool.log| <= |r.log| <= |pool.log| + |ids|
    ensures r.log[..|pool.log|] == pool.log
    ensures forall i :: 0 <= i < |r.log| - |pool.log| ==>
              ids[i] in pool.tasks && r.log[|pool.log| + i] == Enqueue(ids[i], priority)
    ensures (forall i :: 0 <= i < |ids| ==> ids[i] in pool.tasks) ==> |r.log| == |pool.log| + |ids|
    decreases |ids|, 1
  {
    if ids == [] || ids[0] !in pool.tasks then pool
    else
      var p := EnqueueOne(ids[0], pool, priority);
      EnqueueStep(ids, pool, priority);
      EnqueueMembers(ids[1..], p, priority)
  }

  /** One member: a reference more, waiting, and enqueued. */
  function EnqueueOne(id: nat, pool: Pool, priority: Priority): (r: Pool)
    requires id in pool.tasks
    ensures r.tasks.Keys == pool.tasks.Keys && r.tasks[id].state == Waiting
    ensures r.log == pool.log + [Enqueue(id, priority)]
  {
    var t := pool.tasks[id];
    Pool(pool.tasks[id := t.(refCount := t.refCount + 1, state := Waiting)],
         pool.log + [Enqueue(id, priority)])
  }

  lemma EnqueueStep(ids: seq<nat>, pool: Pool, priority: Priority)
    requires ids != [] && ids[0] in pool.tasks
    ensures var r := EnqueueMembers(ids[1..], EnqueueOne(ids[0], pool, priority), priority);
            && r.log[..|pool.log|] == pool.log
            && r.log[|pool.log|] == Enqueue(ids[0], priority)
    decreases |ids|, 0
  {
    var p := EnqueueOne(ids[0], pool, priority);
    var r := EnqueueMembers(ids[1..], p, priority);
    assert r.log[..|p.log|][..|pool.log|] == r.log[..|pool.log|];
    assert r.log[..|p.log|][|pool.log|] == r.log[|pool.log|];
  }

  /** A waiting task stays waiting. */
  lemma {:induction false} StaysWaiting(ids: seq<nat>, pool: Pool, priority: Priority, id: nat)
    requires id in pool.tasks && pool.tasks[id].state == Waiting
    ensures EnqueueMembers(ids, pool, priority).tasks[id].state == Waiting
    decreases |ids|
  {
    if ids != [] && ids[0] in pool.tasks {
      StaysWaiting(ids[1..], EnqueueOne(ids[0], pool, priority), priority, id);
    }
  }

  /** Every member the walk enqueued is left waiting. */
  lemma {:induction false} EnqueuedWaiting(ids: seq<nat>, pool: Pool, priority: Priority, i: nat)
    requires i < |EnqueueMembers(ids, pool, priority).log| - |pool.log|
    ensures EnqueueMembers(ids, pool, priority).tasks[ids[i]].state == Waiting
    decreases |ids|
  {
    var p := EnqueueOne(ids[0], pool, priority);
    if i == 0 {
      StaysWaiting(ids[1..], p, priority, ids[0]);
    } else {
      EnqueuedWaiting(ids[1..], p, priority, i - 1);
    }
  }

  /** NotifyGroupTask: nothing when no execution is pending; otherwise the group waits,
      the first pending execution becomes current, and the members are enqueued at its
      priority. */
  function NotifyGroupTask(g: Group, pool: Pool): (r: (Group, Pool))
    ensures g.pending == [] ==> r == (g, pool)
    ensures g.pending != [] ==>
              && r.0 == g.(state := Waiting, current := Some(g.pending[0]), pending := g.pending[1..])
              && r.1 == EnqueueMembers(g.taskIds, pool, g.pending[0].priority)
  {
    if g.pending == [] then (g, pool)
    else
      var info := g.pending[0];
      (g.(state := Waiting, current := Some(info), pending := g.pending[1..]),
       EnqueueMembers(g.taskIds, pool, info.priority))
  }

  /** Once an execution has been promoted the group takes no more members. */
  lemma NoAddAfterNotify(g: Group, pool: Pool, args: seq<Value>, canForGroup: bool, generated: Option<Task>)
    requires g.pending != []
    requires generated.Some? ==> generated.value.kind == GroupFunctionTask
    ensures var (g2, p2) := NotifyGroupTask(g, pool);
            AddTask(g2, p2, args, canForGroup, generated) == Failure(TypeError)
  {
  }

  /** Promoting executions one at a time takes them in the order they were queued. */
  lemma {:induction false} NotifyInOrder(g: Group, pool: Pool, k: nat)
    requires k < |g.pending|
    ensures Promote(g, pool, k).0.current == Some(g.pending[k])
    ensures Promote(g, pool, k).0.pending == g.pending[k + 1..]
    decreases k
  {
    if k > 0 {
      var (g1, p1) := NotifyGroupTask(g, pool);
      NotifyInOrder(g1, p1, k - 1);
      assert g1.pending[k - 1] == g.pending[k];
      assert g1.pending[k..] == g.pending[k + 1..];
    }
  }

  /** `k + 1` calls of NotifyGroupTask. */
  function Promote(g: Group, pool: Pool, k: nat): (Group, Pool)
    decreases k
  {
    var (g1, p1) := NotifyGroupTask(g, pool);
    if k == 0 then (g1, p1) else Promote(g1, p1, k - 1)
  }

  // ---------------------------------------------------------------------------------
  // Cancelling
  // ---------------------------------------------------------------------------------

  /** One rejection per execution, in order. */
  function Rejects(infos: seq<GroupInfo>): (r: seq<Event>)
    ensures |r| == |infos|
    ensures forall i :: 0 <= i < |infos| ==> r[i] == Reject(infos[i].deferred)
  {
    if infos == [] then [] else [Reject(infos[0].deferred)] + Rejects(infos[1..])
  }

  /** CancelPendingGroup: every pending execution's promise is rejected, in queue order,
      and the queue is emptied. */
  function CancelPendingGroup(g: Group, pool: Pool): (r: (Group, Pool))
    ensures r.0 == g.(pending := [])
    ensures r.1.tasks == pool.tasks
    ensures |r.1.log| == |pool.log| + |g.pending|
    ensures r.1.log[..|pool.log|] == pool.log
    ensures forall i :: 0 <= i < |g.pending| ==> r.1.log[|pool.log| + i] == Reject(g.pending[i].deferred)
  {
    if g.pending == [] then (g, pool)
    else (g.(pending := []), pool.(log := pool.log + Rejects(g.pending)))
  }

  /** Cancelling pending executions twice is cancelling them once. */
  lemma CancelPendingIdempotent(g: Group, pool: Pool)
    ensures var (g1, p1) := CancelPendingGroup(g, pool);
            CancelPendingGroup(g1, p1) == (g1, p1)
  {
    var (g1, p1) := CancelPendingGroup(g, pool);
    assert g1.pending == [];
    assert g1.(pending := []) == g1;
  }

  /** RejectResult: the current execution's promise is rejected and there is no current
      execution any more. The code reads the current execution without a check; its one
      caller makes sure there is one. */
  function RejectResult(g: Group, pool: Pool): (r: (Group, Pool))
    requires g.current.Some?
    ensures r.0 == g.(current := None)
    ensures r.1.tasks == pool.tasks && r.1.log == pool.log + [Reject(g.current.value.deferred)]
  {
    (g.(current := None), pool.(log := pool.log + [Reject(g.current.value.deferred)]))
  }

  /** CancelGroupTask, given the group and pool after TaskGroupManager::CancelGroupTask
      (not part of this model): the current execution is rejected exactly when every
      member has finished. */
  function CancelGroupTask(g: Group, pool: Pool): (r: (Group, Pool))
    ensures r != (g, pool) <==> g.current.Some? && g.current.value.finishedTaskNum == g.taskNum
    ensures r != (g, pool) ==> r.0.current.None? && r.1.log == pool.log + [Reject(g.current.value.deferred)]
  {
    if g.current.Some? && g.current.value.finishedTaskNum == g.taskNum then RejectResult(g, pool)
    else (g, pool)
  }

  /** After the current execution is rejected there is nothing left for CancelGroupTask to
      reject. */
  lemma RejectedIsSettled(g: Group, pool: Pool)
    requires g.current.Some?
    ensures var r := RejectResult(g, pool);
            CancelGroupTask(r.0, r.1) == r
  {
  }

  /** Cancelling a group task twice is cancelling it once. */
  lemma CancelGroupTaskIdempotent(g: Group, pool: Pool)
    ensures var r := CancelGroupTask(g, pool);
            CancelGroupTask(r.0, r.1) == r
  {
  }
}

=== FILE: TaskTypes.dfy ===
/** The vocabulary the task group and sequence runner share: the task states and kinds of
    task.h, the priorities of platform/utils.h, the task records they update, the events
    they send to the task manager, and the JavaScript values their callers pass. */
module TaskTypes {
  import opened Wrappers

  /** ExecuteState, in declaration order. */
  datatype ExecuteState = NotFound | Waiting | Running | Canceled | Finished | Delayed | Ending

  /** TaskType, in declaration order (`PlainTask` stands for TASK). */
  datatype TaskType =
    | PlainTask | FunctionTask | SeqRunnerTask | CommonTask | GroupCommonTask | GroupFunctionTask

  /** Priority: HIGH = 0 up to IDLE = 3. */
  datatype Priority = High | Medium | Low | Idle

  /** Priority::NUMBER, one past the last priority. */
  const PriorityCount: nat := 4

  /** Priority::DEFAULT. */
  const DefaultPriority: Priority := Medium

  /** The numeric value of a priority. */
  function Ordinal(p: Priority): (r: nat)
    ensures r < PriorityCount
  {
    match p
    case High => 0
    case Medium => 1
    case Low => 2
    case Idle => 3
  }

  /** A number as a priority: None from NUMBER on. */
  function PriorityOf(v: int): (r: Option<Priority>)
    ensures r.Some? <==> 0 <= v < PriorityCount
    ensures r.Some? ==> Ordinal(r.value) == v
  {
    if v == 0 then Some(High)
    else if v == 1 then Some(Medium)
    else if v == 2 then Some(Low)
    else if v == 3 then Some(Idle)
    else None
  }

  /** Every priority comes back from its number. */
  lemma PriorityRoundTrip(p: Priority)
    ensures PriorityOf(Ordinal(p)) == Some(p)
  {
  }

  /** The fields of a Task the group and the runner update. */
  datatype Task = Task(
    id: nat,
    state: ExecuteState,
    kind: TaskType,
    groupId: nat,      // 0 outside a group
    seqRunnerId: nat,  // 0 outside a runner
    refCount: nat)

  /** What the task manager is asked to do: run a task at a priority, or reject the
      promise behind a deferred. */
  datatype Event = Enqueue(taskId: nat, priority: Priority) | Reject(deferred: nat)

  /** The tasks the task manager stores, by id, and the events sent to it so far. */
  datatype Pool = Pool(tasks: map<nat, Task>, log: seq<Event>)

  /** `TypeError` is thrown here; `Refused` is a plain return after a check made by code
      outside this model, which raises its own error if any. */
  datatype Error = TypeError | Refused

  /** A JavaScript argument: a string, an integral number, an object (the task it wraps,
      if any, and whether it has a `taskId` property), a function, or anything else. */
  datatype Value = Str(s: string) | Num(n: int) | Obj(wrapped: Option<nat>, hasTaskId: bool) | Fn | Other
}

=== FILE: Uri.dfy ===
/** The URI object of js_uri.ts: its construction checks, createFromParts, the query
    lookups, the path segments, and the authority and scheme-specific-part getters that
    keep an IPv6 `[...]` literal verbatim. The native parser is a parameter and its
    result a record of the fields it reports; `encodeURIComponent` and
    `decodeURIComponent` are parameters. */
module Uri {
  import opened Wrappers
  import opened JsString
  import opened UrlCommon

  /** The fields the native parser reports; `isFailed` is empty after a successful parse. */
  datatype NativeUri = NativeUri(
    scheme: Option<string>, authority: Option<string>, ssp: string, path: Option<string>,
    query: Option<string>, fragment: Option<string>, isFailed: string)

  type Parser = string -> NativeUri

  // ---------------------------------------------------------------------------------
  // Construction
  // ---------------------------------------------------------------------------------

  /** The URI constructor: an empty input is a parameter error, a parser complaint a
      syntax error. */
  function New(input: string, parse: Parser): (r: Result<NativeUri, Error>)
    ensures r == Failure(ParamTypeError) <==> input == ""
    ensures r == Failure(SyntaxError) <==> input != "" && parse(input).isFailed != ""
    ensures r.Success? ==> r.value == parse(input) && r.value.isFailed == ""
  {
    if input == "" then Failure(ParamTypeError)
    else if parse(input).isFailed != "" then Failure(SyntaxError)
    else Success(parse(input))
  }

  /** The text createFromParts hands to the constructor. */
  function PartsText(scheme: string, ssp: string, fragment: string, encComp: Encoder): string {
    scheme + ":" + encComp(ssp) + (if fragment != "" then "#" + encComp(fragment) else "")
  }

  /** createFromParts: never a parameter error, since the text always holds the `:`. */
  function CreateFromParts(scheme: string, ssp: string, fragment: string, encComp: Encoder,
                           parse: Parser): (r: Result<NativeUri, Error>)
    ensures r != Failure(ParamTypeError)
    ensures r.Success? <==> parse(PartsText(scheme, ssp, fragment, encComp)).isFailed == ""
  {
    New(PartsText(scheme, ssp, fragment, encComp), parse)
  }

  /** The parts can be read back: the scheme ends at the first `:`, and `#` separates the
      encoded fragment, which is there only when the fragment is not empty. */
  lemma PartsTextReadsBack(scheme: string, ssp: string, fragment: string, encComp: Encoder)
    requires ':' !in scheme && '#' !in scheme && '#' !in encComp(ssp)
    requires fragment != "" ==> '#' !in encComp(fragment)
    ensures Split(PartsText(scheme, ssp, fragment, encComp), ':')[0] == scheme
    ensures Split(PartsText(scheme, ssp, fragment, encComp), '#') ==
            [scheme + ":" + encComp(ssp)] + (if fragment != "" then [encComp(fragment)] else [])
  {
    var head := scheme + ":" + encComp(ssp);
    var tail := if fragment != "" then "#" + encComp(fragment) else "";
    var t := PartsText(scheme, ssp, fragment, encComp);
    assert t == scheme + [':'] + (encComp(ssp) + tail);
    SplitFirst(scheme, encComp(ssp) + tail, ':');
    assert '#' !in head by {
      NotInConcat(scheme, ":", '#');
      NotInConcat(scheme + ":", encComp(ssp), '#');
    }
    if fragment != "" {
      assert t == head + ['#'] + encComp(fragment);
      SplitFirst(head, encComp(fragment), '#');
      SplitNone(encComp(fragment), '#');
    } else {
      assert t == head;
      SplitNone(head, '#');
    }
  }

  // ---------------------------------------------------------------------------------
  // decodeSafelyInner and the bracket-preserving getters
  // ---------------------------------------------------------------------------------

  /** decodeSafelyInner: the empty string comes back as it is, anything else goes through
      decodeURIComponent or, where that throws, decodeSafelyOut. */
  function DecodeInner(s: string, dec: Decoder): (r: string)
    ensures s == "" ==> r == ""
    ensures s != "" && dec(s).Some? ==> r == dec(s).value
    ensures s != "" && dec(s).None? ==> r == DecodeSafelyOut(s, dec)
  {
    if s == "" then "" else DecodeSafely(s, dec)
  }

  /** Text with a `[`: split on `[`, the second piece split on `]`; the first piece and the
      text after the first `]` go through `outer`, and the bracketed text is kept. The text
      after the first `]` takes the place of the piece between the second and third `[`,
      which is lost; the pieces after a third `[` are kept without their `[`, and an absent
      piece joins as the empty string. */
  function BracketForm(text: string, outer: string -> string): string
    requires '[' in text
  {
    SplitFound(text, '[');
    var arr := Split(text, '[');
    var brr := Split(arr[1], ']');
    var post := if |brr| > 1 then outer(brr[1]) else "";
    outer(arr[0]) + "[" + brr[0] + "]" + post + Concat(if |arr| > 3 then arr[3..] else [])
  }

  function Identity(s: string): string {
    s
  }

  /** The encodedAuthority and encodedSSP getters on a present value. */
  function EncodedBracketed(text: string): string {
    if '[' in text then BracketForm(text, Identity) else text
  }

  /** The authority and ssp getters on a present value. */
  function DecodedBracketed(text: string, dec: Decoder): string {
    if '[' in text then BracketForm(text, s => DecodeInner(s, dec)) else DecodeInner(text, dec)
  }

  /** The encodedAuthority getter: null stays null. */
  function EncodedAuthority(u: NativeUri): (r: Option<string>)
    ensures r.Some? <==> u.authority.Some?
    ensures u.authority.Some? && '[' !in u.authority.value ==> r == u.authority
  {
    match u.authority
    case None => None
    case Some(a) => Some(EncodedBracketed(a))
  }

  /** The authority getter: null stays null. */
  function Authority(u: NativeUri, dec: Decoder): (r: Option<string>)
    ensures r.Some? <==> u.authority.Some?
    ensures u.authority.Some? && '[' !in u.authority.value ==>
              r == Some(DecodeInner(u.authority.value, dec))
  {
    match u.authority
    case None => None
    case Some(a) => Some(DecodedBracketed(a, dec))
  }

  /** The encodedSSP getter. */
  function EncodedSsp(u: NativeUri): (r: string)
    ensures '[' !in u.ssp ==> r == u.ssp
  {
    EncodedBracketed(u.ssp)
  }

  /** The ssp getter. */
  function Ssp(u: NativeUri, dec: Decoder): (r: string)
    ensures '[' !in u.ssp ==> r == DecodeInner(u.ssp, dec)
  {
    DecodedBracketed(u.ssp, dec)
  }

  /** For `pre[mid]post` with one bracket pair, the encoded getters give the text back and
      the decoding getters decode only `pre` and `post`, keeping `[mid]` verbatim. */
  lemma BracketsKept(pre: string, mid: string, post: string, dec: Decoder)
    requires '[' !in pre && '[' !in mid && '[' !in post && ']' !in mid && ']' !in post
    ensures EncodedBracketed(pre + "[" + mid + "]" + post) == pre + "[" + mid + "]" + post
    ensures DecodedBracketed(pre + "[" + mid + "]" + post, dec) ==
            DecodeInner(pre, dec) + "[" + mid + "]" + DecodeInner(post, dec)
  {
    var text := pre + "[" + mid + "]" + post;
    assert text[|pre|] == '[';
    var inner := mid + "]" + post;
    assert text == pre + ['['] + inner;
    SplitFirst(pre, inner, '[');
    assert '[' !in inner by {
      NotInConcat(mid, "]", '[');
      NotInConcat(mid + "]", post, '[');
    }
    SplitNone(inner, '[');
    assert inner == mid + [']'] + post;
    SplitFirst(mid, post, ']');
    SplitNone(post, ']');
    assert |Split(text, '[')| == 2;
  }

  // ---------------------------------------------------------------------------------
  // Query lookups
  // ---------------------------------------------------------------------------------

  /** The decoded name of a query item: the text before its first `=`. */
  function NameOf(item: string, dec: Decoder): string {
    DecodeInner(Split(item, '=')[0], dec)
  }

  /** The decoded value of a query item: empty for a bare name, else the text after the
      first `=`, with `+` read as a space first when `plus` is set. */
  function ItemValue(item: string, dec: Decoder, plus: bool): string {
    match IndexOf(item, '=', 0)
    case None => ""
    case Some(i) => DecodeInner(if plus then ReplaceAll(item[i + 1..], "+", " ") else item[i + 1..], dec)
  }

  /** The empty item has the empty name and value. */
  lemma EmptyItem(dec: Decoder, plus: bool)
    ensures NameOf("", dec) == "" && ItemValue("", dec, plus) == ""
  {
    assert Split("", '=') == [""];
  }

  /** The getQueryValue loop over the `&`-items. */
  function QueryValueIn(items: seq<string>, key: string, dec: Decoder): Option<string> {
    if items == [] then None
    else if key == "" && items[0] == "" then Some("")
    else
      var str := Split(items[0], '=');
      if |str| == 1 && DecodeInner(str[0], dec) == key then Some("")
      else if DecodeInner(str[0], dec) == key then
        Some(DecodeInner(ReplaceAll(items[0][|str[0]| + 1..], "+", " "), dec))
      else QueryValueIn(items[1..], key, dec)
  }

  /** getQueryValue: null without a query; else the value of the first `&`-item named
      `key`, and null exactly when there is none. */
  function GetQueryValue(u: NativeUri, key: string, dec: Decoder): (r: Option<string>)
    ensures u.query.None? ==> r.None?
    ensures u.query.Some? ==> (r.Some? <==> HasItemNamed(Split(u.query.value, '&'), key, dec))
    ensures u.query.Some? && r.Some? ==>
      exists i :: (FirstMatch(Split(u.query.value, '&'), key, dec, i) &&
                   r.value == ItemValue(Split(u.query.value, '&')[i], dec, true))
  {
    match u.query
    case None => None
    case Some(q) =>
      var items := Split(q, '&');
      QueryValueIsFirstMatch(items, key, dec);
      QueryValueIn(items, key, dec)
  }

  /** Some item is named `key`. */
  predicate HasItemNamed(items: seq<string>, key: string, dec: Decoder) {
    exists i :: 0 <= i < |items| && NameOf(items[i], dec) == key
  }

  /** Position `i` holds the first item named `key`. */
  predicate FirstMatch(items: seq<string>, key: string, dec: Decoder, i: int) {
    0 <= i < |items| && NameOf(items[i], dec) == key &&
    forall k :: 0 <= k < i ==> NameOf(items[k], dec) != key
  }

  /** One item, as the getQueryValue loop reads it: the value when its name matches. */
  lemma ItemRead(item: string, key: string, dec: Decoder)
    ensures var str := Split(item, '=');
            (|str| == 1 && DecodeInner(str[0], dec) == key ==> NameOf(item, dec) == key && ItemValue(item, dec, true) == "") &&
            (|str| != 1 && DecodeInner(str[0], dec) == key ==>
              NameOf(item, dec) == key && |str[0]| + 1 <= |item| &&
              ItemValue(item, dec, true) == DecodeInner(ReplaceAll(item[|str[0]| + 1..], "+", " "), dec)) &&
            (DecodeInner(str[0], dec) != key ==> NameOf(item, dec) != key)
  {
  }

  /** getQueryValue finds a value exactly when some item is named `key`, and then it is
      the value of the first such item, with `+` read as a space. */
  lemma {:induction false} QueryValueIsFirstMatch(items: seq<string>, key: string, dec: Decoder)
    ensures QueryValueIn(items, key, dec).Some? <==>
            exists i :: 0 <= i < |items| && NameOf(items[i], dec) == key
    ensures QueryValueIn(items, key, dec).Some? ==>
            exists i :: FirstMatch(items, key, dec, i) &&
                        QueryValueIn(items, key, dec).value == ItemValue(items[i], dec, true)
  {
    if items != [] {
      ItemRead(items[0], key, dec);
      if key == "" && items[0] == "" {
        EmptyItem(dec, true);
        assert FirstMatch(items, key, dec, 0);
      } else if NameOf(items[0], dec) == key {
        assert FirstMatch(items, key, dec, 0);
      } else {
        QueryValueIsFirstMatch(items[1..], key, dec);
        if QueryValueIn(items[1..], key, dec).Some? {
          var i :| FirstMatch(items[1..], key, dec, i) &&
                   QueryValueIn(items[1..], key, dec).value == ItemValue(items[1..][i], dec, true);
          FirstMatchCons(items, key, dec, i);
        } else {
          NoMatchCons(items, key, dec);
        }
      }
    }
  }

  /** A first match after a non-matching head is the first match of the whole. */
  lemma FirstMatchCons(items: seq<string>, key: string, dec: Decoder, i: int)
    requires items != [] && NameOf(items[0], dec) != key && FirstMatch(items[1..], key, dec, i)
    ensures FirstMatch(items, key, dec, i + 1) && items[i + 1] == items[1..][i]
  {
    forall k | 1 <= k < i + 1
      ensures NameOf(items[k], dec) != key
    {
      assert items[k] == items[1..][k - 1];
    }
  }

  /** No match in the head nor in the tail is no match at all. */
  lemma NoMatchCons(items: seq<string>, key: string, dec: Decoder)
    requires items != [] && NameOf(items[0], dec) != key
    requires forall i :: 0 <= i < |items[1..]| ==> NameOf(items[1..][i], dec) != key
    ensures forall i :: 0 <= i < |items| ==> NameOf(items[i], dec) != key
  {
    forall i | 1 <= i < |items|
      ensures NameOf(items[i], dec) != key
    {
      assert items[i] == items[1..][i - 1];
    }
  }

  /** The getQueryValues loop as written: an empty item pushes `''` when the key is empty,
      and then again as a bare name matching the empty key. */
  function QueryValuesAsWritten(items: seq<string>, key: string, dec: Decoder): (r: seq<string>)
    ensures |r| <= 2 * |items|
    ensures r == [] <==> forall i :: 0 <= i < |items| ==> NameOf(items[i], dec) != key
  {
    if items == [] then []
    else
      EmptyItem(dec, false);
      var rest := QueryValuesAsWritten(items[1..], key, dec);
      assert forall i :: 1 <= i < |items| ==> items[i] == items[1..][i - 1];
      (if key == "" && items[0] == "" then [""] else []) +
      (if NameOf(items[0], dec) == key then [ItemValue(items[0], dec, false)] else []) + rest
  }

  /** An empty query and the empty key: the one empty item is reported twice. */
  lemma QueryValuesAsWrittenRepeats(dec: Decoder)
    ensures QueryValuesAsWritten(Split("", '&'), "", dec) == ["", ""]
    ensures QueryValues(Split("", '&'), "", dec) == [""]
  {
    assert Split("", '&') == [""];
    EmptyItem(dec, false);
  }

  /** The positions from `from` on of the items named `key`: each such position once, in
      increasing order. */
  function Matches(items: seq<string>, key: string, dec: Decoder, from: nat): (m: seq<nat>)
    requires from <= |items|
    ensures forall j :: 0 <= j < |m| ==> from <= m[j] < |items| && NameOf(items[m[j]], dec) == key
    ensures forall j, k :: 0 <= j < k < |m| ==> m[j] < m[k]
    decreases |items| - from
  {
    if from == |items| then []
    else (if NameOf(items[from], dec) == key then [from] else []) + Matches(items, key, dec, from + 1)
  }

  /** Every item named `key` from `from` on has its position among the matches. */
  lemma {:induction false} MatchesComplete(items: seq<string>, key: string, dec: Decoder, from: nat, i: nat)
    requires from <= i < |items| && NameOf(items[i], dec) == key
    ensures i in Matches(items, key, dec, from)
    decreases i - from
  {
    if from < i {
      MatchesComplete(items, key, dec, from + 1, i);
    }
  }

  /** getQueryValues, corrected: one value per item named `key`, in order. */
  function QueryValues(items: seq<string>, key: string, dec: Decoder): (r: seq<string>)
    ensures |r| <= |items|
    ensures r == [] <==> forall i :: 0 <= i < |items| ==> NameOf(items[i], dec) != key
  {
    if items == [] then []
    else
      var rest := QueryValues(items[1..], key, dec);
      assert forall i :: 1 <= i < |items| ==> items[i] == items[1..][i - 1];
      (if NameOf(items[0], dec) == key then [ItemValue(items[0], dec, false)] else []) + rest
  }

  /** The corrected values from `from` on are those of the matching items, position by
      position. */
  predicate ValuesInOrder(items: seq<string>, key: string, dec: Decoder, from: nat)
    requires from <= |items|
  {
    var r := QueryValues(items[from..], key, dec);
    var m := Matches(items, key, dec, from);
    |r| == |m| && forall j :: 0 <= j < |r| ==> r[j] == ItemValue(items[m[j]], dec, false)
  }

  lemma {:induction false} QueryValuesInOrder(items: seq<string>, key: string, dec: Decoder, from: nat)
    requires from <= |items|
    ensures ValuesInOrder(items, key, dec, from)
    decreases |items| - from
  {
    if from < |items| {
      QueryValuesInOrder(items, key, dec, from + 1);
      if NameOf(items[from], dec) == key {
        InOrderMatch(items, key, dec, from);
      } else {
        InOrderSkip(items, key, dec, from);
      }
    }
  }

  lemma InOrderMatch(items: seq<string>, key: string, dec: Decoder, from: nat)
    requires from < |items| && NameOf(items[from], dec) == key
    requires ValuesInOrder(items, key, dec, from + 1)
    ensures ValuesInOrder(items, key, dec, from)
  {
    var tail := items[from..];
    assert tail[1..] == items[from + 1..] && tail[0] == items[from];
    var r, rest := QueryValues(tail, key, dec), QueryValues(items[from + 1..], key, dec);
    var m, mrest := Matches(items, key, dec, from), Matches(items, key, dec, from + 1);
    assert r == [ItemValue(items[from], dec, false)] + rest && m == [from] + mrest;
    forall j | 1 <= j < |r|
      ensures r[j] == ItemValue(items[m[j]], dec, false)
    {
      assert r[j] == rest[j - 1] && m[j] == mrest[j - 1];
    }
  }

  lemma InOrderSkip(items: seq<string>, key: string, dec: Decoder, from: nat)
    requires from < |items| && NameOf(items[from], dec) != key
    requires ValuesInOrder(items, key, dec, from + 1)
    ensures ValuesInOrder(items, key, dec, from)
  {
    var tail := items[from..];
    assert tail[1..] == items[from + 1..] && tail[0] == items[from];
  }

  /** getQueryValues as written: empty without a query, else the loop over the `&` items,
      which is empty exactly when getQueryValue is null. */
  function GetQueryValues(u: NativeUri, key: string, dec: Decoder): (r: seq<string>)
    ensures u.query.None? ==> r == []
    ensures r == [] <==> GetQueryValue(u, key, dec).None?
    ensures u.query.Some? ==> |r| <= 2 * |Split(u.query.value, '&')|
  {
    match u.query
    case None => []
    case Some(q) => QueryValuesAsWritten(Split(q, '&'), key, dec)
  }

  /** getQueryValues, corrected: the values of the items named `key`, in the order of the
      items, each once. */
  function GetQueryValuesCorrected(u: NativeUri, key: string, dec: Decoder): (r: seq<string>)
    ensures u.query.None? ==> r == []
    ensures r == [] <==> GetQueryValue(u, key, dec).None?
    ensures u.query.Some? ==>
      var items := Split(u.query.value, '&');
      var m := Matches(items, key, dec, 0);
      |r| == |m| && forall j :: 0 <= j < |r| ==> r[j] == ItemValue(items[m[j]], dec, false)
  {
    match u.query
    case None => []
    case Some(q) =>
      var items := Split(q, '&');
      QueryValuesInOrder(items, key, dec, 0);
      assert items[0..] == items;
      assert ValuesInOrder(items, key, dec, 0);
      QueryValues(items, key, dec)
  }

  /** The code and the corrected getQueryValues agree unless the key is empty and the query
      has an empty item. */
  lemma GetQueryValuesAgrees(u: NativeUri, key: string, dec: Decoder)
    ensures u.query.None? || key != "" || "" !in Split(u.query.value, '&') ==>
            GetQueryValues(u, key, dec) == GetQueryValuesCorrected(u, key, dec)
  {
    if u.query.Some? && (key != "" || "" !in Split(u.query.value, '&')) {
      QueryValuesCorrection(Split(u.query.value, '&'), key, dec);
    }
  }

  /** On the empty query with the empty key they differ: the code reports "" twice. */
  lemma GetQueryValuesRepeats(u: NativeUri, dec: Decoder)
    requires u.query == Some("")
    ensures GetQueryValues(u, "", dec) == ["", ""] && GetQueryValuesCorrected(u, "", dec) == [""]
  {
    QueryValuesAsWrittenRepeats(dec);
  }


  /** The two loops differ only by the extra `''` of each empty item under the empty key. */
  lemma {:induction false} QueryValuesCorrection(items: seq<string>, key: string, dec: Decoder)
    requires key != "" || "" !in items
    ensures QueryValuesAsWritten(items, key, dec) == QueryValues(items, key, dec)
  {
    if items != [] {
      assert items[0] in items;
      QueryValuesCorrection(items[1..], key, dec);
    }
  }

  /** getQueryValue and getQueryValues agree: a value exists exactly when the list is not
      empty, and then it is the list's first entry, up to reading `+` as a space. */
  lemma {:induction false} ValueIsFirstOfValues(items: seq<string>, key: string, dec: Decoder)
    ensures QueryValueIn(items, key, dec).Some? <==> QueryValues(items, key, dec) != []
    ensures QueryValues(items, key, dec) != [] ==>
            exists i :: FirstMatch(items, key, dec, i) &&
                        QueryValues(items, key, dec)[0] == ItemValue(items[i], dec, false) &&
                        QueryValueIn(items, key, dec).value == ItemValue(items[i], dec, true)
  {
    QueryValueIsFirstMatch(items, key, dec);
    if QueryValues(items, key, dec) != [] {
      var i :| FirstMatch(items, key, dec, i) &&
               QueryValueIn(items, key, dec).value == ItemValue(items[i], dec, true);
      FirstOfValues(items, key, dec, i);
    }
  }

  lemma {:induction false} FirstOfValues(items: seq<string>, key: string, dec: Decoder, i: int)
    requires FirstMatch(items, key, dec, i)
    ensures QueryValues(items, key, dec) != [] &&
            QueryValues(items, key, dec)[0] == ItemValue(items[i], dec, false)
  {
    if i > 0 {
      assert NameOf(items[0], dec) != key;
      assert FirstMatch(items[1..], key, dec, i - 1);
      FirstOfValues(items[1..], key, dec, i - 1);
    }
  }

  /** Without a `+` in the value the two readings coincide. */
  lemma PlainValue(item: string, dec: Decoder)
    requires '+' !in item
    ensures ItemValue(item, dec, true) == ItemValue(item, dec, false)
  {
    match IndexOf(item, '=', 0)
    case None =>
    case Some(i) =>
      var v := item[i + 1..];
      forall k | 0 <= k <= |v|
        ensures !OccursAt(v, "+", k)
      {
        if k < |v| {
          assert v[k..k + 1][0] == v[k] == item[i + 1 + k];
        }
      }
      ReplaceAllAbsent(v, "+", " ");
  }

  /** getBooleanQueryValue: the default without a value, else false exactly for the
      values that lower-case to `false` or `0`. */
  function GetBooleanQueryValue(u: NativeUri, key: string, default: bool, dec: Decoder): (r: bool)
    ensures GetQueryValue(u, key, dec).None? ==> r == default
    ensures GetQueryValue(u, key, dec).Some? ==>
              (!r <==> Lower(GetQueryValue(u, key, dec).value) in {"false", "0"})
  {
    match GetQueryValue(u, key, dec)
    case None => default
    case Some(flag) => Lower(flag) != "false" && Lower(flag) != "0"
  }

  /** The spellings of false in any letter case, and `0`, read as false; a bare key reads
      as true. */
  lemma BooleanSpellings(u: NativeUri, key: string, dec: Decoder, default: bool)
    ensures GetQueryValue(u, key, dec) == Some("FALSE") ==> !GetBooleanQueryValue(u, key, default, dec)
    ensures GetQueryValue(u, key, dec) == Some("False") ==> !GetBooleanQueryValue(u, key, default, dec)
    ensures GetQueryValue(u, key, dec) == Some("0") ==> !GetBooleanQueryValue(u, key, default, dec)
    ensures GetQueryValue(u, key, dec) == Some("") ==> GetBooleanQueryValue(u, key, default, dec)
    ensures GetQueryValue(u, key, dec) == Some("no") ==> GetBooleanQueryValue(u, key, default, dec)
  {
    assert Lower("FALSE") == "false";
    assert Lower("False") == "false";
    assert Lower("0") == "0";
    assert Lower("no") == "no";
  }

  // ---------------------------------------------------------------------------------
  // getQueryNames
  // ---------------------------------------------------------------------------------

  /** The item from `start` to the next `&` or the end. */
  function ItemEnd(q: string, start: nat): (e: nat)
    ensures start <= |q| ==> start <= e <= |q|
    ensures e < |q| ==> q[e] == '&'
  {
    match IndexOf(q, '&', start)
    case Some(i) => i
    case None => |q|
  }

  /** The items the getQueryNames loop visits from `start`. */
  function ItemsFrom(q: string, start: nat): seq<string>
    decreases |q| - start
  {
    if start >= |q| then [] else [q[start..ItemEnd(q, start)]] + ItemsFrom(q, ItemEnd(q, start) + 1)
  }

  /** `parts` without a last empty piece. */
  function DropTrailingEmpty(parts: seq<string>): seq<string> {
    if |parts| > 0 && parts[|parts| - 1] == "" then parts[..|parts| - 1] else parts
  }

  /** The query's `&`-items, a trailing empty one left out. */
  function QueryItems(q: string): seq<string> {
    if q == "" then [] else DropTrailingEmpty(Split(q, '&'))
  }

  /** indexOf on a slice is indexOf on the whole text, shifted and cut at the slice end. */
  lemma {:induction false} IndexOfSlice(s: string, c: char, lo: nat, hi: nat, k: nat)
    requires lo <= hi <= |s|
    ensures IndexOf(s[lo..hi], c, k) ==
            match IndexOf(s, c, lo + k)
            case Some(i) => if i < hi then Some(i - lo) else None
            case None => None
    decreases hi - lo - k
  {
    if lo + k < hi {
      assert s[lo..hi][k] == s[lo + k];
      if s[lo + k] != c {
        IndexOfSlice(s, c, lo, hi, k + 1);
      }
    }
  }

  /** The loop's items are the `&`-pieces of the rest of the query. */
  lemma {:induction false} ItemsFromSplit(q: string, start: nat)
    requires start < |q|
    ensures ItemsAgree(q, start)
    decreases |q| - start
  {
    if ItemEnd(q, start) + 1 < |q| {
      ItemsFromSplit(q, ItemEnd(q, start) + 1);
    }
    ItemStep(q, start);
  }

  /** From `i` on, the loop's items are the `&`-pieces of the rest of the query. */
  predicate ItemsAgree(q: string, i: nat) {
    i < |q| ==> ItemsFrom(q, i) == DropTrailingEmpty(Split(q[i..], '&'))
  }

  /** The items agree from `start` once they agree after its item. */
  lemma ItemStep(q: string, start: nat)
    requires start < |q| && ItemsAgree(q, ItemEnd(q, start) + 1)
    ensures ItemsAgree(q, start)
  {
    if ItemEnd(q, start) + 1 < |q| {
      InnerItem(q, start);
    } else {
      LastItem(q, start);
    }
  }

  /** An item followed by more: both sides take it off the front. */
  lemma InnerItem(q: string, start: nat)
    requires start < |q| && ItemEnd(q, start) + 1 < |q|
    requires ItemsFrom(q, ItemEnd(q, start) + 1) ==
             DropTrailingEmpty(Split(q[ItemEnd(q, start) + 1..], '&'))
    ensures ItemsFrom(q, start) == DropTrailingEmpty(Split(q[start..], '&'))
  {
    var e := ItemEnd(q, start);
    var item := q[start..e];
    ItemsFromStep(q, start);
    SplitSuffixStep(q, start);
    ConsItem(ItemsFrom(q, start), Split(q[start..], '&'), item, ItemsFrom(q, e + 1),
             Split(q[e + 1..], '&'));
  }

  /** The last item, with or without a `&` after it. */
  lemma LastItem(q: string, start: nat)
    requires start < |q| && ItemEnd(q, start) + 1 >= |q|
    ensures ItemsFrom(q, start) == DropTrailingEmpty(Split(q[start..], '&'))
  {
    var e := ItemEnd(q, start);
    var item := q[start..e];
    ItemsFromStep(q, start);
    SplitSuffixStep(q, start);
    if e < |q| {
      assert q[e + 1..] == "";
      assert Split("", '&') == [""];
      assert Split(q[start..], '&') == [item, ""];
    } else {
      assert Split(q[start..], '&') == [item] && item != "";
    }
  }

  lemma ItemsFromStep(q: string, start: nat)
    requires start < |q|
    ensures ItemsFrom(q, start) == [q[start..ItemEnd(q, start)]] + ItemsFrom(q, ItemEnd(q, start) + 1)
    ensures ItemEnd(q, start) == |q| ==> ItemsFrom(q, ItemEnd(q, start) + 1) == []
  {
  }

  /** Splitting the rest of the query takes off the loop's next item. */
  lemma SplitSuffixStep(q: string, start: nat)
    requires start < |q|
    ensures var e := ItemEnd(q, start);
            (e < |q| ==> Split(q[start..], '&') == [q[start..e]] + Split(q[e + 1..], '&')) &&
            (e == |q| ==> Split(q[start..], '&') == [q[start..e]])
  {
    var t := q[start..];
    var e := ItemEnd(q, start);
    IndexOfSlice(q, '&', start, |q|, 0);
    if e < |q| {
      SplitAt(t, e - start, '&');
      assert t[..e - start] == q[start..e] && t[e - start + 1..] == q[e + 1..];
    } else {
      assert IndexOf(t, '&', 0) == None;
      assert q[start..e] == t;
    }
  }

  lemma SplitAt(t: string, j: nat, sep: char)
    requires IndexOf(t, sep, 0) == Some(j)
    ensures Split(t, sep) == [t[..j]] + Split(t[j + 1..], sep)
  {
  }

  lemma ConsItem(items: seq<string>, parts: seq<string>, item: string, tail: seq<string>,
                 rest: seq<string>)
    requires items == [item] + tail && parts == [item] + rest
    requires |rest| >= 1 && tail == DropTrailingEmpty(rest)
    ensures items == DropTrailingEmpty(parts)
  {
    DropTrailingCons(item, rest);
  }

  lemma DropTrailingCons(x: string, rest: seq<string>)
    requires |rest| >= 1
    ensures DropTrailingEmpty([x] + rest) == [x] + DropTrailingEmpty(rest)
  {
    if rest[|rest| - 1] == "" {
      assert ([x] + rest)[..|rest|] == [x] + rest[..|rest| - 1];
    }
  }

  /** The name the loop computes for the item from `start`: the text up to the first `=`
      before the item's end. */
  function LoopName(q: string, start: nat): string
    requires start < |q|
  {
    var e := ItemEnd(q, start);
    var sep := match IndexOf(q, '=', start)
      case Some(i) => if i > e then e else i
      case None => e;
    q[start..sep]
  }

  lemma LoopNameIsHead(q: string, start: nat)
    requires start < |q|
    ensures LoopName(q, start) == Split(q[start..ItemEnd(q, start)], '=')[0]
  {
    var e := ItemEnd(q, start);
    IndexOfSlice(q, '=', start, e, 0);
    match IndexOf(q, '=', start)
    case Some(i) =>
      if i < e {
        assert q[start..e][..i - start] == q[start..i];
      }
    case None =>
  }

  /** Adds a name to the set unless it is there already. */
  function AddName(names: seq<string>, n: string): seq<string> {
    if n in names then names else names + [n]
  }

  /** Adds names in order, skipping those already present: a `Set`'s insertion order. */
  function AddAll(names: seq<string>, more: seq<string>): seq<string>
    decreases |more|
  {
    if more == [] then names else AddAll(AddName(names, more[0]), more[1..])
  }

  predicate Distinct(s: seq<string>) {
    forall i, j :: 0 <= i < j < |s| ==> s[i] != s[j]
  }

  /** Adding keeps the names distinct, and a name ends up present exactly when it was
      present or added; those present stay first. */
  lemma {:induction false} AddAllSet(names: seq<string>, more: seq<string>)
    requires Distinct(names)
    ensures Distinct(AddAll(names, more))
    ensures forall n :: n in AddAll(names, more) <==> n in names || n in more
    ensures |names| <= |AddAll(names, more)| && AddAll(names, more)[..|names|] == names
    decreases |more|
  {
    if more != [] {
      var next := AddName(names, more[0]);
      AddAllSet(next, more[1..]);
      assert forall n :: n in more <==> n == more[0] || n in more[1..];
      assert next[..|names|] == names;
      var r := AddAll(next, more[1..]);
      assert r[..|names|] == r[..|next|][..|names|];
    }
  }

  /** The decoded names of the items, one per item. */
  function NamesOf(items: seq<string>, dec: Decoder): (r: seq<string>)
    ensures |r| == |items|
    ensures forall i :: 0 <= i < |items| ==> r[i] == NameOf(items[i], dec)
  {
    if items == [] then [] else [NameOf(items[0], dec)] + NamesOf(items[1..], dec)
  }

  /** getQueryNames: the indexOf loop over the query. */
  method GetQueryNames(u: NativeUri, dec: Decoder) returns (names: seq<string>)
    ensures u.query.None? ==> names == []
    ensures u.query.Some? ==> names == AddAll([], NamesOf(QueryItems(u.query.value), dec))
  {
    names := [];
    if u.query.None? {
      return;
    }
    var q := u.query.value;
    ghost var all := AddAll([], NamesOf(QueryItems(q), dec));
    NamesStart(q, dec);
    var start: nat := 0;
    while start < |q|
      invariant start <= |q| + 1
      invariant NamesPending(names, q, start, dec, all)
      decreases |q| + 1 - start
    {
      var end := ItemEnd(q, start);
      var name := LoopName(q, start);
      NamesStep(names, q, start, dec, all);
      names := AddName(names, DecodeInner(name, dec));
      start := end + 1;
    }
    NamesDone(names, q, start, dec, all);
  }

  /** Before the loop, every item is still to come. */
  lemma NamesStart(q: string, dec: Decoder)
    ensures NamesPending([], q, 0, dec, AddAll([], NamesOf(QueryItems(q), dec)))
  {
    if q != "" {
      ItemsFromSplit(q, 0);
    }
  }

  /** After the loop, none is. */
  lemma NamesDone(names: seq<string>, q: string, start: nat, dec: Decoder, all: seq<string>)
    requires start >= |q| && NamesPending(names, q, start, dec, all)
    ensures names == all
  {
  }

  lemma AddAllCons(names: seq<string>, n: string, rest: seq<string>)
    ensures AddAll(names, [n] + rest) == AddAll(AddName(names, n), rest)
  {
    assert ([n] + rest)[1..] == rest;
  }

  /** The loop invariant: adding the names still to come gives all the names. */
  predicate NamesPending(names: seq<string>, q: string, start: nat, dec: Decoder, all: seq<string>) {
    AddAll(names, NamesOf(ItemsFrom(q, start), dec)) == all
  }

  /** One turn of the getQueryNames loop consumes one item's name. */
  lemma NamesStep(names: seq<string>, q: string, start: nat, dec: Decoder, all: seq<string>)
    requires start < |q| && NamesPending(names, q, start, dec, all)
    ensures NamesPending(AddName(names, DecodeInner(LoopName(q, start), dec)), q,
                         ItemEnd(q, start) + 1, dec, all)
  {
    ItemsFromStep(q, start);
    LoopNameIsHead(q, start);
    var rest := NamesOf(ItemsFrom(q, ItemEnd(q, start) + 1), dec);
    assert NamesOf(ItemsFrom(q, start), dec) == [DecodeInner(LoopName(q, start), dec)] + rest;
    AddAllCons(names, DecodeInner(LoopName(q, start), dec), rest);
  }

  /** getQueryNames reports each decoded item name once, and only those. */
  lemma QueryNamesAreItemNames(q: string, dec: Decoder)
    ensures var names := AddAll([], NamesOf(QueryItems(q), dec));
            Distinct(names) &&
            forall n :: n in names <==> exists i :: 0 <= i < |QueryItems(q)| && NameOf(QueryItems(q)[i], dec) == n
  {
    var items := QueryItems(q);
    AddAllSet([], NamesOf(items, dec));
    forall n
      ensures n in NamesOf(items, dec) <==> exists i :: 0 <= i < |items| && NameOf(items[i], dec) == n
    {
      if n in NamesOf(items, dec) {
        var i :| 0 <= i < |items| && NamesOf(items, dec)[i] == n;
      }
    }
  }

  // ---------------------------------------------------------------------------------
  // Path segments
  // ---------------------------------------------------------------------------------

  /** The non-empty pieces, decoded. */
  function DecodedSegments(parts: seq<string>, dec: Decoder): (r: seq<string>)
    ensures |r| <= |parts|
    ensures (forall i :: 0 <= i < |parts| ==> parts[i] != "") ==>
              r == seq(|parts|, i requires 0 <= i < |parts| => DecodeInner(parts[i], dec))
  {
    if parts == [] then []
    else (if parts[0] != "" then [DecodeInner(parts[0], dec)] else []) + DecodedSegments(parts[1..], dec)
  }

  /** getSegment: the encoded path split on `/`, empty pieces dropped; nothing for a null
      or empty path. */
  function GetSegment(u: NativeUri, dec: Decoder): (r: seq<string>)
    ensures u.path.None? || u.path == Some("") ==> r == []
  {
    match u.path
    case None => []
    case Some(p) => if p == "" then [] else DecodedSegments(Split(p, '/'), dec)
  }

  /** An absolute path `/s1/s2/...` of non-empty segments gives those segments, decoded. */
  lemma SegmentsOfAbsolutePath(u: NativeUri, segs: seq<string>, dec: Decoder)
    requires |segs| >= 1 && forall i :: 0 <= i < |segs| ==> segs[i] != "" && '/' !in segs[i]
    requires u.path == Some("/" + Join(segs, '/'))
    ensures var r := GetSegment(u, dec);
            |r| == |segs| && forall i :: 0 <= i < |segs| ==> r[i] == DecodeInner(segs[i], dec)
  {
    AbsolutePathSplit(segs);
    assert DecodedSegments([""] + segs, dec) == DecodedSegments(segs, dec) by {
      assert ([""] + segs)[1..] == segs;
    }
  }

  /** Splitting `/s1/s2/...` on `/` gives an empty piece, then the segments. */
  lemma AbsolutePathSplit(segs: seq<string>)
    requires |segs| >= 1 && forall i :: 0 <= i < |segs| ==> '/' !in segs[i]
    ensures Split("/" + Join(segs, '/'), '/') == [""] + segs
  {
    assert "/" + Join(segs, '/') == [] + ['/'] + Join(segs, '/');
    SplitFirst([], Join(segs, '/'), '/');
    SplitJoin(segs, '/');
  }

  /** getLastSegment: what the native object reports as the last segment, decoded; the
      empty string when it reports nothing. */
  function GetLastSegment(last: Option<string>, dec: Decoder): (r: string)
    ensures last.None? || last == Some("") ==> r == ""
    ensures last.Some? && last.value != "" ==> r == DecodeInner(last.value, dec)
  {
    match last
    case None => ""
    case Some(s) => if s == "" then "" else DecodeInner(s, dec)
  }

  /** When the native object reports the path's last segment, getLastSegment is the last
      of getSegment. */
  lemma LastSegmentIsLastOfSegments(u: NativeUri, segs: seq<string>, dec: Decoder)
    requires |segs| >= 1 && forall i :: 0 <= i < |segs| ==> segs[i] != "" && '/' !in segs[i]
    requires u.path == Some("/" + Join(segs, '/'))
    ensures var s := GetSegment(u, dec);
            |s| == |segs| && GetLastSegment(Some(segs[|segs| - 1]), dec) == s[|s| - 1]
  {
    SegmentsOfAbsolutePath(u, segs, dec);
    LastOfDecoded(GetSegment(u, dec), segs, dec);
  }

  lemma LastOfDecoded(s: seq<string>, segs: seq<string>, dec: Decoder)
    requires |segs| >= 1 && segs[|segs| - 1] != ""
    requires |s| == |segs| && forall i :: 0 <= i < |segs| ==> s[i] == DecodeInner(segs[i], dec)
    ensures GetLastSegment(Some(segs[|segs| - 1]), dec) == s[|s| - 1]
  {
  }
}

=== FILE: Url.dfy ===
/** The URL object of js_url.ts: its cached fields and the href they serialize to, the
    origin rule, the guarded setters, and the search-parameter array with its
    `application/x-www-form-urlencoded` serialization (section 5.2 of the WHATWG URL
    Standard, approximated). The native parser and field setters, `encodeURI`,
    `encodeURIComponent`, `decodeURIComponent` and the native parameter splitter are
    parameters. */
module Url {
  import opened Wrappers
  import opened JsString
  import opened UrlCommon

  /** What the native parser reports: its fields and whether parsing succeeded. */
  datatype NativeUrl = NativeUrl(
    protocol: string, username: string, password: string, hostname: string, host: string,
    port: string, pathname: string, search: string, hash: string,
    isIpv6: bool, onOrOff: bool)

  /** The functions the URL object calls but does not define. */
  datatype Env = Env(
    encodeURI: Encoder,
    encodeURIComponent: Encoder,
    decode: Decoder,
    parse: (string, Option<string>) -> NativeUrl,
    splitParams: string -> seq<string>)

  /** What a native field holds after an assignment, from its old value and the text
      assigned. */
  type NativeSetter = (string, string) -> string

  /** The cached fields of a URL object; `params` is its key/value array, keys at even
      positions. */
  datatype Url = Url(
    href: string, search: string, origin: string, username: string, password: string,
    hostname: string, host: string, hash: string, protocol: string, pathname: string,
    port: string, params: seq<string>)

  /** The object a constructor leaves when the native parser fails: every field empty. */
  const Blank: Url := Url("", "", "", "", "", "", "", "", "", "", "", [])

  // ---------------------------------------------------------------------------------
  // customEncodeURI
  // ---------------------------------------------------------------------------------

  /** Replacement tables: each percent-escape the URI encoder produced that is turned back
      into its character, applied in the order listed. */
  const UserKeep: seq<(string, string)> := [("%25", "%")]
  const PathKeep: seq<(string, string)> := [("%7C", "|"), ("%5B", "["), ("%5D", "]"), ("%25", "%")]
  const HashKeep: seq<(string, string)> :=
    [("%7C", "|"), ("%5B", "["), ("%5D", "]"), ("%7B", "{"), ("%7D", "}"), ("%60", "`"),
     ("%25", "%")]
  const SearchKeep: seq<(string, string)> :=
    [("%7C", "|"), ("%5B", "["), ("%5D", "]"), ("%5E", "^"), ("%25", "%")]

  predicate KeysNonEmpty(keep: seq<(string, string)>) {
    forall p :: p in keep ==> |p.0| > 0
  }

  /** Each pair of `keep` replaces all occurrences, one pair after the other. */
  function ReplaceEach(s: string, keep: seq<(string, string)>): string
    requires KeysNonEmpty(keep)
    decreases |keep|
  {
    if keep == [] then s else ReplaceEach(ReplaceAll(s, keep[0].0, keep[0].1), keep[1..])
  }

  /** customEncodeURI. */
  function CustomEncodeURI(str: string, encodeURI: Encoder, keep: seq<(string, string)>): string
    requires KeysNonEmpty(keep)
  {
    ReplaceEach(encodeURI(str), keep)
  }

  /** Encoded text holding none of the escapes of the table is what the encoder gave. */
  lemma {:induction false} CustomEncodeKeepsPlain(s: string, keep: seq<(string, string)>)
    requires KeysNonEmpty(keep)
    requires forall p :: p in keep ==> !Occurs(s, p.0)
    ensures ReplaceEach(s, keep) == s
  {
    if keep != [] {
      ReplaceAllAbsent(s, keep[0].0, keep[0].1);
      CustomEncodeKeepsPlain(s, keep[1..]);
    }
  }

  // ---------------------------------------------------------------------------------
  // href and origin
  // ---------------------------------------------------------------------------------

  /** `user[:password]@`, or nothing without credentials. */
  function UserInfo(u: Url): string {
    if u.username != "" || u.password != "" then
      u.username + (if u.password != "" then ":" + u.password else "") + "@"
    else ""
  }

  function PortPart(u: Url): string {
    if u.port != "" then ":" + u.port else ""
  }

  /** The part between the protocol and the path. */
  function Authority(u: Url): string {
    if u.hostname != "" then "//" + UserInfo(u) + u.hostname + PortPart(u)
    else if u.protocol == "file:" then "//"
    else ""
  }

  /** setHref: the text the href field is set to.  It opens with the protocol and is at
      least as long as protocol, path, search and hash together. */
  function Serialize(u: Url): (r: string)
    ensures StartsWith(r, u.protocol)
    ensures |r| >= |u.protocol| + |u.pathname| + |u.search| + |u.hash|
  {
    LeadingPart(u.protocol, Authority(u), u.pathname, u.search, u.hash);
    u.protocol + Authority(u) + u.pathname + u.search + u.hash
  }

  /** The first of five concatenated texts opens their concatenation. */
  lemma LeadingPart(a: string, b: string, c: string, d: string, e: string)
    ensures StartsWith(a + b + c + d + e, a)
  {
    assert a + b + c + d + e == a + (b + c + d + e);
    PrefixOf(a, b + c + d + e);
  }

  /** The href field is the serialization of the other fields. */
  predicate HrefConsistent(u: Url) {
    u.href == Serialize(u)
  }

  /** setHref refreshes the href and nothing else. */
  function SetHref(u: Url): (r: Url)
    ensures HrefConsistent(r)
    ensures r.(href := u.href) == u
  {
    u.(href := Serialize(u))
  }

  /** Without a host the href has no authority, except that `file:` keeps its `//`; with
      a host it reads `//` after the protocol and ends with path, search and hash. */
  lemma SerializeShape(u: Url)
    ensures u.hostname == "" && u.protocol != "file:" ==>
              Serialize(u) == u.protocol + u.pathname + u.search + u.hash
    ensures u.hostname == "" && u.protocol == "file:" ==>
              Serialize(u) == "file://" + u.pathname + u.search + u.hash
    ensures u.hostname != "" ==> StartsWith(Serialize(u), u.protocol + "//")
    ensures |Serialize(u)| >= |u.pathname + u.search + u.hash|
    ensures var s := Serialize(u); var t := u.pathname + u.search + u.hash;
              s[|s| - |t|..] == t
  {
    SerializeEndsWithPath(u);
    if u.hostname != "" {
      SerializeWithHost(u);
    }
  }

  lemma SerializeEndsWithPath(u: Url)
    ensures var s := Serialize(u); var t := u.pathname + u.search + u.hash;
              |s| >= |t| && s[|s| - |t|..] == t
  {
    var t := u.pathname + u.search + u.hash;
    assert Serialize(u) == (u.protocol + Authority(u)) + t;
    SuffixOf(u.protocol + Authority(u), t);
  }

  lemma SerializeWithHost(u: Url)
    requires u.hostname != ""
    ensures StartsWith(Serialize(u), u.protocol + "//")
  {
    var auth := Authority(u);
    var a := u.protocol + auth;
    assert auth[..2] == "//";
    assert a[..|u.protocol| + 2] == u.protocol + auth[..2];
    var t := u.pathname + u.search + u.hash;
    assert Serialize(u) == a + t;
    assert (a + t)[..|u.protocol| + 2] == a[..|u.protocol| + 2];
  }

  lemma PrefixOf(p: string, rest: string)
    ensures StartsWith(p + rest, p)
  {
    assert (p + rest)[..|p|] == p;
  }

  lemma SuffixOf(a: string, t: string)
    ensures (a + t)[|a + t| - |t|..] == t
  {
  }

  /** With a host and fields free of `@`, the href holds an `@` exactly when the URL
      carries a username or a password. */
  lemma CredentialsMarked(u: Url)
    requires u.hostname != ""
    requires '@' !in u.protocol && '@' !in u.username && '@' !in u.password
    requires '@' !in u.hostname && '@' !in u.port
    requires '@' !in u.pathname && '@' !in u.search && '@' !in u.hash
    ensures '@' in Serialize(u) <==> (u.username != "" || u.password != "")
  {
    var tail := u.hostname + PortPart(u) + u.pathname + u.search + u.hash;
    SerializeAroundInfo(u);
    NotInConcat(u.protocol, "//", '@');
    TailFreeOfAt(u);
    AtInMiddle(u.protocol + "//", UserInfo(u), tail);
    if u.username != "" || u.password != "" {
      assert UserInfo(u)[|UserInfo(u)| - 1] == '@';
    }
  }

  /** Text free of `@` on both sides: the whole holds `@` exactly when the middle does. */
  lemma AtInMiddle(a: string, b: string, c: string)
    requires '@' !in a && '@' !in c
    ensures '@' in a + b + c <==> '@' in b
  {
    var s := a + b + c;
    if '@' in s {
      var k :| 0 <= k < |s| && s[k] == '@';
      assert |a| <= k < |a| + |b|;
      assert b[k - |a|] == '@';
    }
    if '@' in b {
      var k :| 0 <= k < |b| && b[k] == '@';
      assert s[|a| + k] == '@';
    }
  }

  /** With a host the href is the protocol and `//`, the credentials, then the rest. */
  lemma SerializeAroundInfo(u: Url)
    requires u.hostname != ""
    ensures Serialize(u) == (u.protocol + "//") + UserInfo(u) +
                            (u.hostname + PortPart(u) + u.pathname + u.search + u.hash)
  {
    Regroup(u.protocol, UserInfo(u), u.hostname, PortPart(u), u.pathname, u.search, u.hash);
  }

  lemma Regroup(x: string, i: string, h: string, p: string, q: string, r: string, t: string)
    ensures x + ("//" + i + h + p) + q + r + t == (x + "//") + i + (h + p + q + r + t)
  {
    var a: string := "//";
    calc {
      x + (a + i + h + p) + q + r + t;
      x + (a + i + h + p) + (q + r + t);
      x + ((a + i + h + p) + (q + r + t));
      x + ((a + i) + (h + p + q + r + t));
      (x + a) + i + (h + p + q + r + t);
    }
  }

  /** The fields after the credentials hold no `@` when none of them does. */
  lemma TailFreeOfAt(u: Url)
    requires '@' !in u.hostname && '@' !in u.port
    requires '@' !in u.pathname && '@' !in u.search && '@' !in u.hash
    ensures '@' !in u.hostname + PortPart(u) + u.pathname + u.search + u.hash
  {
    NotInConcat(u.hostname, PortPart(u), '@');
    NotInConcat(u.hostname + PortPart(u), u.pathname, '@');
    NotInConcat(u.hostname + PortPart(u) + u.pathname, u.search, '@');
    NotInConcat(u.hostname + PortPart(u) + u.pathname + u.search, u.hash, '@');
  }

  /** The schemes whose origin is a tuple; every other origin is opaque. */
  const SpecialSchemes: set<string> := {"ftp:", "gopher:", "http:", "https:", "ws:", "wss:"}

  /** The origin getter. */
  function Origin(u: Url): (r: string)
    ensures u.protocol in SpecialSchemes ==> r == u.origin
    ensures u.protocol !in SpecialSchemes ==> r == "null"
  {
    if u.protocol in SpecialSchemes then u.origin else "null"
  }

  // ---------------------------------------------------------------------------------
  // Construction
  // ---------------------------------------------------------------------------------

  /** The fields a successful parse stores, then setHref. */
  function FromNative(n: NativeUrl, env: Env): (r: Url)
    ensures HrefConsistent(r)
    ensures r.protocol == n.protocol && r.port == n.port && r.search == n.search
    ensures r.origin == n.protocol + "//" + n.host
    ensures n.isIpv6 ==> r.hostname == n.hostname && r.host == n.host
  {
    var u := Url(
      "", n.search, n.protocol + "//" + n.host,
      CustomEncodeURI(n.username, env.encodeURI, UserKeep),
      CustomEncodeURI(n.password, env.encodeURI, UserKeep),
      if n.isIpv6 then n.hostname else CustomEncodeURI(n.hostname, env.encodeURI, []),
      if n.isIpv6 then n.host else CustomEncodeURI(n.host, env.encodeURI, []),
      CustomEncodeURI(n.hash, env.encodeURI, HashKeep),
      n.protocol,
      CustomEncodeURI(n.pathname, env.encodeURI, PathKeep),
      n.port,
      ParameterProcessing(CustomEncodeURI(n.search, env.encodeURI, SearchKeep), env));
    SetHref(u)
  }

  /** A parsed URL's origin is opaque exactly when its scheme is not special. */
  lemma OriginOfParsed(n: NativeUrl, env: Env)
    ensures Origin(FromNative(n, env)) == "null" <==> n.protocol !in SpecialSchemes
  {
    var u := FromNative(n, env);
    if n.protocol in SpecialSchemes {
      assert u.origin[|n.protocol| + 1] == '/';
    }
  }

  /** The URL constructor: an empty input without a base, or an empty base, is a parameter
      error; a parse failure leaves every field empty. */
  function New(input: string, base: Option<string>, env: Env): (r: Result<Url, Error>)
    ensures r.Failure? <==> (base.None? && input == "") || base == Some("")
    ensures r.Failure? ==> r.error == ParamTypeError
    ensures r.Success? && !env.parse(input, base).onOrOff ==> r.value == Blank
    ensures r.Success? && env.parse(input, base).onOrOff ==> HrefConsistent(r.value)
  {
    if base.None? && input == "" then Failure(ParamTypeError)
    else if base == Some("") then Failure(ParamTypeError)
    else
      var n := env.parse(input, base);
      if n.onOrOff then Success(FromNative(n, env)) else Success(Blank)
  }

  /** URL.parseURL: an empty input is left to the parser, an empty base is a parameter
      error, and a parse failure is a syntax error. */
  function ParseUrl(input: string, base: Option<string>, env: Env): (r: Result<Url, Error>)
    ensures r == Failure(ParamTypeError) <==> base == Some("")
    ensures r == Failure(SyntaxError) <==> base != Some("") && !env.parse(input, base).onOrOff
    ensures r.Success? ==> HrefConsistent(r.value)
  {
    if base == Some("") then Failure(ParamTypeError)
    else
      var n := env.parse(input, base);
      if n.onOrOff then Success(FromNative(n, env)) else Failure(SyntaxError)
  }

  /** Where both accept the input, the constructor and parseURL build the same object. */
  lemma NewAgreesWithParseUrl(input: string, base: Option<string>, env: Env)
    requires input != "" && base != Some("") && env.parse(input, base).onOrOff
    ensures New(input, base, env) == ParseUrl(input, base, env)
    ensures New(input, base, env).Success?
  {
  }

  // ---------------------------------------------------------------------------------
  // Setters
  // ---------------------------------------------------------------------------------

  /** The protocol setter: ignored for an empty scheme, or for a `file:` URL without a
      host; otherwise the native field decides what is stored. */
  function SetProtocol(u: Url, scheme: string, store: NativeSetter): (r: Url)
    requires HrefConsistent(u)
    ensures |scheme| == 0 || (u.protocol == "file:" && u.host == "") ==> r == u
    ensures !(|scheme| == 0 || (u.protocol == "file:" && u.host == "")) ==>
              r.protocol == store(u.protocol, scheme) && r.(href := u.href, protocol := u.protocol) == u
    ensures HrefConsistent(r)
  {
    if |scheme| == 0 then u
    else if u.protocol == "file:" && u.host == "" then u
    else SetHref(u.(protocol := store(u.protocol, scheme)))
  }

  /** No credentials or port on a URL without a host or with the `file:` scheme. */
  predicate CannotHaveCredentials(u: Url) {
    u.host == "" || u.protocol == "file:"
  }

  /** The username setter. */
  function SetUsername(u: Url, input: string, encodeURI: Encoder, store: NativeSetter): (r: Url)
    requires HrefConsistent(u)
    ensures CannotHaveCredentials(u) ==> r == u
    ensures !CannotHaveCredentials(u) ==>
              r.username == store(u.username, CustomEncodeURI(input, encodeURI, UserKeep)) &&
              r.(href := u.href, username := u.username) == u
    ensures HrefConsistent(r)
  {
    if CannotHaveCredentials(u) then u
    else SetHref(u.(username := store(u.username, CustomEncodeURI(input, encodeURI, UserKeep))))
  }

  /** The password setter. */
  function SetPassword(u: Url, input: string, encodeURI: Encoder, store: NativeSetter): (r: Url)
    requires HrefConsistent(u)
    ensures CannotHaveCredentials(u) ==> r == u
    ensures !CannotHaveCredentials(u) ==>
              r.password == store(u.password, CustomEncodeURI(input, encodeURI, UserKeep)) &&
              r.(href := u.href, password := u.password) == u
    ensures HrefConsistent(r)
  {
    if CannotHaveCredentials(u) then u
    else SetHref(u.(password := store(u.password, CustomEncodeURI(input, encodeURI, UserKeep))))
  }

  /** The port setter: also ignored for an empty port. */
  function SetPort(u: Url, port: string, store: NativeSetter): (r: Url)
    requires HrefConsistent(u)
    ensures CannotHaveCredentials(u) || port == "" ==> r == u
    ensures !(CannotHaveCredentials(u) || port == "") ==>
              r.port == store(u.port, port) && r.(href := u.href, port := u.port) == u
    ensures HrefConsistent(r)
  {
    if CannotHaveCredentials(u) || port == "" then u
    else SetHref(u.(port := store(u.port, port)))
  }

  /** A `file:` URL keeps its href whatever credentials or port are assigned. */
  lemma FileUrlIgnoresCredentials(u: Url, user: string, pass: string, port: string,
                                  encodeURI: Encoder, store: NativeSetter)
    requires HrefConsistent(u) && u.protocol == "file:"
    ensures SetPort(SetPassword(SetUsername(u, user, encodeURI, store), pass, encodeURI, store),
                    port, store).href == u.href
  {
  }

  // ---------------------------------------------------------------------------------
  // Search parameters: serialization
  // ---------------------------------------------------------------------------------

  /** The characters encodeURIComponent leaves alone that the serializer escapes. */
  const Marks: set<char> := {'!', '\'', '(', ')', '~'}

  function UpperHexDigit(d: nat): (c: char)
    requires d < 16
    ensures ('0' <= c <= '9' || 'A' <= c <= 'F') && c !in Marks
  {
    if d < 10 then ('0' as int + d) as char else ('A' as int + d - 10) as char
  }

  /** '%' and the two upper-case hex digits of the character code, padded with '0'. */
  function MarkEscape(c: char): (r: string)
    requires (c as int) < 256
    ensures |r| == 3 && r[0] == '%'
    ensures forall i :: 0 <= i < |r| ==> r[i] !in Marks && r[i] != '&' && r[i] != '='
  {
    ['%', UpperHexDigit(c as int / 16), UpperHexDigit(c as int % 16)]
  }

  /** The escapes the serializer emits for the marks. */
  lemma MarkEscapes()
    ensures MarkEscape('!') == "%21" && MarkEscape('\'') == "%27"
    ensures MarkEscape('(') == "%28" && MarkEscape(')') == "%29" && MarkEscape('~') == "%7E"
  {
  }

  /** `replace(/[!'()~]/g, …)`: every mark becomes its escape. */
  function EscapeMarks(s: string): (r: string)
    ensures forall c :: c in Marks ==> c !in r
    ensures (forall c :: c in Marks ==> c !in s) ==> r == s
    ensures forall c :: c !in s && c != '%' && !('0' <= c <= '9' || 'A' <= c <= 'F') ==> c !in r
  {
    if s == [] then ""
    else (if s[0] in Marks then MarkEscape(s[0]) else [s[0]]) + EscapeMarks(s[1..])
  }

  /** What replacing `%20` by `+` keeps and removes. */
  lemma PlusForSpace(e: string)
    ensures !Occurs(ReplaceAll(e, "%20", "+"), "%20")
    ensures forall c :: c !in e && c != '+' ==> c !in ReplaceAll(e, "%20", "+")
  {
    ReplaceAllRemoves(e, "%20", "+");
    forall c | c !in e && c != '+'
      ensures c !in ReplaceAll(e, "%20", "+")
    {
      ReplaceAllKeepsOut(e, "%20", "+", c);
    }
  }

  /** customEncodeForToString: encodeURIComponent, the marks escaped, and `%20` written as
      `+`. */
  function EncodeForToString(s: string, encComp: Encoder): (r: string)
    ensures forall c :: c in Marks ==> c !in r
    ensures !Occurs(r, "%20")
    ensures '&' !in encComp(s) ==> '&' !in r
  {
    var e := EscapeMarks(encComp(s));
    PlusForSpace(e);
    ReplaceAll(e, "%20", "+")
  }

  /** What escaping `=` keeps and removes. */
  lemma EqualsEscaped(e: string)
    ensures '=' !in ReplaceAll(e, "=", "%3D")
    ensures '&' !in e ==> '&' !in ReplaceAll(e, "=", "%3D")
  {
    ReplaceAllRemoves(e, "=", "%3D");
    if '=' in ReplaceAll(e, "=", "%3D") {
      CharOccurs(ReplaceAll(e, "=", "%3D"), '=');
    }
    if '&' !in e {
      ReplaceAllKeepsOut(e, "=", "%3D", '&');
    }
  }

  /** A key or value as toString writes it: `=` escaped to `%3D` as well. */
  function EncodeParam(s: string, encComp: Encoder): (r: string)
    ensures '=' !in r
    ensures '&' !in encComp(s) ==> '&' !in r
  {
    var e := EncodeForToString(s, encComp);
    EqualsEscaped(e);
    ReplaceAll(e, "=", "%3D")
  }

  /** `array[i]`, or the text `undefined` past the end of an odd-length array. */
  function ValueAt(arr: seq<string>, i: nat): string {
    if i < |arr| then arr[i] else "undefined"
  }

  /** How toString writes one key or value. */
  function ParamEncoder(encComp: Encoder): string -> string {
    s => EncodeParam(s, encComp)
  }

  /** The `key=value` text of the pair at `pos`. */
  function PairText(arr: seq<string>, pos: nat, enc: string -> string): string
    requires pos < |arr|
  {
    enc(arr[pos]) + "=" + enc(ValueAt(arr, pos + 1))
  }

  /** The toString loop from `pos`: each pair, preceded by `&` after the first. */
  function ParamsFrom(arr: seq<string>, pos: nat, enc: string -> string): string
    decreases |arr| - pos
  {
    if pos >= |arr| then ""
    else (if pos > 0 then "&" else "") + PairText(arr, pos, enc) + ParamsFrom(arr, pos + 2, enc)
  }

  /** Params toString: the `key=value` texts of the pairs, one per key, joined with `&`. */
  function ParamsToString(arr: seq<string>, encComp: Encoder): (r: string)
    ensures r == Join(PairList(arr, 0, ParamEncoder(encComp)), '&')
    ensures |arr| <= 2 * |PairList(arr, 0, ParamEncoder(encComp))| <= |arr| + 1
  {
    ParamsFromIsJoin(arr, ParamEncoder(encComp));
    ParamsFrom(arr, 0, ParamEncoder(encComp))
  }

  /** The pair texts from `pos`, one per key. */
  function PairList(arr: seq<string>, pos: nat, enc: string -> string): (r: seq<string>)
    ensures pos <= |arr| ==> |arr| <= pos + 2 * |r| <= |arr| + 1
    decreases |arr| - pos
  {
    if pos >= |arr| then [] else [PairText(arr, pos, enc)] + PairList(arr, pos + 2, enc)
  }

  /** The `j`-th pair text is the pair whose key sits at `pos + 2 * j`. */
  lemma {:induction false} PairListAt(arr: seq<string>, pos: nat, enc: string -> string, j: nat)
    requires j < |PairList(arr, pos, enc)|
    ensures pos + 2 * j < |arr|
    ensures PairList(arr, pos, enc)[j] == PairText(arr, pos + 2 * j, enc)
    decreases j
  {
    if j > 0 {
      PairListAt(arr, pos + 2, enc, j - 1);
      assert (pos + 2) + 2 * (j - 1) == pos + 2 * j;
    }
  }

  lemma {:induction false} ParamsFromJoin(arr: seq<string>, pos: nat, enc: string -> string)
    requires pos > 0
    ensures ParamsFrom(arr, pos, enc) ==
            (if pos < |arr| then "&" + Join(PairList(arr, pos, enc), '&') else "")
    decreases |arr| - pos
  {
    if pos < |arr| {
      ParamsFromJoin(arr, pos + 2, enc);
    }
  }

  /** The toString loop is the pair texts joined with `&`. */
  lemma ParamsFromIsJoin(arr: seq<string>, enc: string -> string)
    ensures ParamsFrom(arr, 0, enc) == Join(PairList(arr, 0, enc), '&')
  {
    if |arr| > 0 {
      ParamsFromJoin(arr, 2, enc);
    }
  }

  /** With an encoding that never emits `&` or `=`, splitting the loop's output on `&`
      and each piece on `=` gives back the encoded keys and values. */
  lemma PairsParse(arr: seq<string>, enc: string -> string)
    requires |arr| > 0
    requires forall x :: '&' !in enc(x) && '=' !in enc(x)
    ensures var pieces := Split(ParamsFrom(arr, 0, enc), '&');
            |pieces| == (|arr| + 1) / 2 &&
            forall j :: 0 <= j < |pieces| ==>
              Split(pieces[j], '=') == [enc(arr[2 * j]), enc(ValueAt(arr, 2 * j + 1))]
  {
    var pairs := PairList(arr, 0, enc);
    ParamsFromIsJoin(arr, enc);
    forall j | 0 <= j < |pairs|
      ensures '&' !in pairs[j]
      ensures Split(pairs[j], '=') == [enc(arr[2 * j]), enc(ValueAt(arr, 2 * j + 1))]
    {
      PairListAt(arr, 0, enc, j);
      var k, v := enc(arr[2 * j]), enc(ValueAt(arr, 2 * j + 1));
      assert pairs[j] == k + "=" + v;
      SplitFirst(k, v, '=');
      SplitNone(v, '=');
    }
    SplitJoin(pairs, '&');
  }

  /** When encodeURIComponent never emits `&`, splitting the serialization on `&` and
      each piece on `=` gives back every encoded key and value, in order; an odd trailing
      key is paired with `undefined`. */
  lemma ParamsToStringParses(arr: seq<string>, encComp: Encoder)
    requires |arr| > 0
    requires forall x :: '&' !in encComp(x)
    ensures var pieces := Split(ParamsToString(arr, encComp), '&');
            |pieces| == (|arr| + 1) / 2 &&
            forall j :: 0 <= j < |pieces| ==>
              Split(pieces[j], '=') ==
              [EncodeParam(arr[2 * j], encComp), EncodeParam(ValueAt(arr, 2 * j + 1), encComp)]
  {
    var enc := ParamEncoder(encComp);
    assert forall x :: enc(x) == EncodeParam(x, encComp);
    PairsParse(arr, enc);
  }

  // ---------------------------------------------------------------------------------
  // Search parameters: the array
  // ---------------------------------------------------------------------------------

  /** Params forEach from `i`: the callback's (value, key) arguments, one call per complete
      pair; a trailing key without a value is skipped. */
  function ForEachFrom(arr: seq<string>, i: nat): (r: seq<(string, string)>)
    ensures i <= |arr| ==> i + 2 * |r| <= |arr| <= i + 2 * |r| + 1
    ensures forall j :: 0 <= j < |r| ==> i + 2 * j + 1 < |arr| && r[j] == (arr[i + 2 * j + 1], arr[i + 2 * j])
    decreases |arr| - i
  {
    if i + 1 < |arr| then [(arr[i + 1], arr[i])] + ForEachFrom(arr, i + 2) else []
  }

  /** Params forEach: one (value, key) call per complete pair, in order. */
  function ForEach(arr: seq<string>): (r: seq<(string, string)>)
    ensures |r| == |arr| / 2
    ensures forall j :: 0 <= j < |r| ==> 2 * j + 1 < |arr| && r[j] == (arr[2 * j + 1], arr[2 * j])
  {
    ForEachFrom(arr, 0)
  }

  /** iteratorMethodThrow: every pair must have exactly two elements, which are laid out
      key then value. */
  function IteratorMethodThrow(pairs: seq<seq<string>>): (r: Result<seq<string>, Error>)
    ensures r.Success? <==> forall i :: 0 <= i < |pairs| ==> |pairs[i]| == 2
    ensures r.Failure? ==> r.error == ParamTypeError
    ensures r.Success? ==> |r.value| == 2 * |pairs|
    ensures r.Success? ==> forall j :: 0 <= j < |pairs| ==>
              r.value[2 * j] == pairs[j][0] && r.value[2 * j + 1] == pairs[j][1]
  {
    if pairs == [] then Success([])
    else if |pairs[0]| != 2 then Failure(ParamTypeError)
    else
      match IteratorMethodThrow(pairs[1..])
      case Failure(e) => Failure(e)
      case Success(rest) =>
        var r := [pairs[0][0], pairs[0][1]] + rest;
        assert forall j :: 1 <= j < |pairs| ==> r[2 * j] == rest[2 * (j - 1)] && r[2 * j + 1] == rest[2 * (j - 1) + 1];
        Success(r)
  }

  /** Iterating an array built from pairs calls back once per pair with value then key. */
  lemma ForEachOfPairs(pairs: seq<seq<string>>)
    requires IteratorMethodThrow(pairs).Success?
    ensures var calls := ForEach(IteratorMethodThrow(pairs).value);
            |calls| == |pairs| &&
            forall j :: 0 <= j < |pairs| ==> calls[j] == (pairs[j][1], pairs[j][0])
  {
  }

  /** The text the native splitter receives: one leading `?` dropped and every `+` read as
      a space. */
  function SearchText(input: string): string {
    var t := if |input| > 0 && input[0] == '?' then input[1..] else input;
    ReplaceAll(t, "+", " ")
  }

  lemma {:induction false} ReplacePlus(s: string)
    ensures ReplaceAll(s, "+", " ") ==
            seq(|s|, i requires 0 <= i < |s| => if s[i] == '+' then ' ' else s[i])
    decreases |s|
  {
    if |s| > 0 {
      ReplacePlus(s[1..]);
    }
  }

  /** The splitter's text is the input after its optional `?`, character for character,
      with spaces for plus signs. */
  lemma SearchTextChars(input: string)
    ensures var t := if |input| > 0 && input[0] == '?' then input[1..] else input;
            SearchText(input) == seq(|t|, i requires 0 <= i < |t| => if t[i] == '+' then ' ' else t[i])
    ensures '+' !in SearchText(input)
  {
    var t := if |input| > 0 && input[0] == '?' then input[1..] else input;
    ReplacePlus(t);
  }

  /** initToStringSeachParams: split natively, then decode every piece. */
  function InitToStringSearchParams(input: string, env: Env): (r: seq<string>)
    ensures |r| == |env.splitParams(SearchText(input))|
    ensures forall i :: 0 <= i < |r| ==> r[i] == DecodeSafely(env.splitParams(SearchText(input))[i], env.decode)
  {
    var items := env.splitParams(SearchText(input));
    seq(|items|, i requires 0 <= i < |items| => DecodeSafely(items[i], env.decode))
  }

  /** parameterProcessing on a string: the empty string gives no parameters. */
  function ParameterProcessing(input: string, env: Env): (r: seq<string>)
    ensures input == "" ==> r == []
    ensures input != "" ==> r == InitToStringSearchParams(input, env)
  {
    if input == "" then [] else InitToStringSearchParams(input, env)
  }

  /** A search-parameter object: its array, and the URL it belongs to (`parentUrl`), if
      any. */
  datatype Params = Params(arr: seq<string>, parent: Option<Url>)

  /** The native `urlClass.append`, which is not part of this model: the array after it
      has taken a key and a value. */
  type NativeAppend = (seq<string>, string, string) -> seq<string>

  /** append. A missing or non-string key, then value (None here), is the 401 error; the
      pair goes to the native array; a parameter object of a URL then stores its
      serialization as the URL's search through the native setter, and the href follows. */
  function Append(p: Params, key: Option<string>, value: Option<string>, push: NativeAppend,
                  encComp: Encoder, store: NativeSetter): (r: Result<Params, Error>)
    ensures r.Failure? <==> key.None? || value.None?
    ensures r.Failure? ==> r.error == ParamTypeError
    ensures r.Success? ==> r.value.arr == push(p.arr, key.value, value.value)
    ensures r.Success? ==> (r.value.parent.Some? <==> p.parent.Some?)
    ensures r.Success? && p.parent.Some? ==>
              var u, u2 := p.parent.value, r.value.parent.value;
              && u2.params == r.value.arr
              && u2.search == store(u.search, ParamsToString(r.value.arr, encComp))
              && u2.(href := u.href, params := u.params, search := u.search) == u
              && HrefConsistent(u2)
  {
    if key.None? || value.None? then Failure(ParamTypeError)
    else
      var a := push(p.arr, key.value, value.value);
      match p.parent
      case None => Success(Params(a, None))
      case Some(u) =>
        Success(Params(a, Some(SetHref(u.(params := a, search := store(u.search, ParamsToString(a, encComp)))))))
  }

  /** When the native append pushes the pair, iteration ends with it after an append to
      an array of complete pairs, and a URL's search text is that of the longer array. */
  lemma AppendIteratesLast(p: Params, key: string, value: string, push: NativeAppend,
                           encComp: Encoder, store: NativeSetter)
    requires |p.arr| % 2 == 0 && push(p.arr, key, value) == p.arr + [key, value]
    ensures var r := Append(p, Some(key), Some(value), push, encComp, store);
            && r.Success?
            && var calls := ForEach(r.value.arr);
               |calls| == |p.arr| / 2 + 1 && calls[|calls| - 1] == (value, key)
  {
    var arr := p.arr + [key, value];
    var calls := ForEach(arr);
    var j := |calls| - 1;
    assert 2 * j == |p.arr|;
    assert arr[2 * j] == key && arr[2 * j + 1] == value;
  }
}

=== FILE: UrlCommon.dfy ===
/** What the URL and URI modules share: the opaque ECMAScript encoders and decoder, the
    error codes of their BusinessError, and the tolerant percent-decoder `decodeSafelyOut`
    that both js_url.ts and js_uri.ts define. */
module UrlCommon {
  import opened Wrappers

  /** `encodeURI` or `encodeURIComponent` (with the fixUSVstring retry folded in). */
  type Encoder = string -> string

  /** `decodeURIComponent`; None where it throws a URIError. */
  type Decoder = string -> Option<string>

  /** The BusinessError kinds: a parameter error and a syntax error. */
  datatype Error = ParamTypeError | SyntaxError

  function Code(e: Error): (c: int)
    ensures c == 401 <==> e == ParamTypeError
  {
    match e
    case ParamTypeError => 401
    case SyntaxError => 10200002
  }

  predicate IsHexDigit(c: char) {
    '0' <= c <= '9' || 'a' <= c <= 'f' || 'A' <= c <= 'F'
  }

  /** `input[index] === '%'` followed by two hex digits. */
  predicate EscapeAt(input: string, index: nat) {
    index + 2 < |input| && input[index] == '%' && IsHexDigit(input[index + 1]) &&
    IsHexDigit(input[index + 2])
  }

  /** The loop of decodeSafelyOut from `index`, with the text decoded so far and the run
      of escapes that has not decoded yet: an escape is tried together with the pending
      run; any other character flushes the run verbatim. */
  function DecodeSafelyFrom(input: string, index: nat, decoded: string, temp: string,
                            dec: Decoder): string
    decreases |input| - index
  {
    if index >= |input| then decoded + temp
    else if EscapeAt(input, index) then
      var encoded := input[index..index + 3];
      match dec(temp + encoded)
      case Some(d) => DecodeSafelyFrom(input, index + 3, decoded + d, "", dec)
      case None => DecodeSafelyFrom(input, index + 3, decoded, temp + encoded, dec)
    else DecodeSafelyFrom(input, index + 1, decoded + temp + [input[index]], "", dec)
  }

  /** decodeSafelyOut: text without escapes, or given to a decoder that rejects every
      escape, comes back unchanged. */
  function DecodeSafelyOut(input: string, dec: Decoder): (r: string)
    ensures (forall i :: 0 <= i < |input| ==> !EscapeAt(input, i)) || RejectsEscapes(dec) ==> r == input
  {
    UndecodedKeepsText(input, dec);
    DecodeSafelyFrom(input, 0, "", "", dec)
  }

  /** The decoder throws on every text holding a '%'. */
  ghost predicate RejectsEscapes(dec: Decoder) {
    forall t :: '%' in t ==> dec(t).None?
  }

  /** What decodeSafelyOut has not decoded it passes through: when no run decodes, the
      result from `index` on is the pending text followed by the rest of the input. */
  lemma {:induction false} UndecodableKept(input: string, index: nat, decoded: string,
                                           temp: string, dec: Decoder)
    requires index <= |input|
    requires (forall i :: index <= i < |input| ==> !EscapeAt(input, i)) || RejectsEscapes(dec)
    ensures DecodeSafelyFrom(input, index, decoded, temp, dec) == decoded + temp + input[index..]
    decreases |input| - index
  {
    if index < |input| {
      if EscapeAt(input, index) {
        var encoded := input[index..index + 3];
        assert (temp + encoded)[|temp|] == '%';
        UndecodableKept(input, index + 3, decoded, temp + encoded, dec);
        assert input[index..] == encoded + input[index + 3..];
      } else {
        UndecodableKept(input, index + 1, decoded + temp + [input[index]], "", dec);
        assert input[index..] == [input[index]] + input[index + 1..];
      }
    }
  }

  /** The whole loop, when nothing in the input can decode. */
  lemma UndecodedKeepsText(input: string, dec: Decoder)
    ensures (forall i :: 0 <= i < |input| ==> !EscapeAt(input, i)) || RejectsEscapes(dec) ==>
            DecodeSafelyFrom(input, 0, "", "", dec) == input
  {
    if (forall i :: 0 <= i < |input| ==> !EscapeAt(input, i)) || RejectsEscapes(dec) {
      UndecodableKept(input, 0, "", "", dec);
    }
  }

  /** A lone escape that decodes is replaced by its decoding, the text around it kept. */
  lemma DecodesOneEscape(a: string, x: char, y: char, b: string, dec: Decoder)
    requires IsHexDigit(x) && IsHexDigit(y) && dec(['%', x, y]).Some?
    requires '%' !in a && '%' !in b
    ensures DecodeSafelyOut(a + ['%', x, y] + b, dec) == a + dec(['%', x, y]).value + b
  {
    var input := a + ['%', x, y] + b;
    var d := dec(['%', x, y]).value;
    forall i | 0 <= i < |a|
      ensures !EscapeAt(input, i)
    {
      assert input[i] == a[i];
    }
    PlainPrefix(input, 0, |a|, "", dec);
    assert "" + input[0..|a|] == a;
    var encoded := input[|a|..|a| + 3];
    assert EscapeAt(input, |a|);
    assert "" + encoded == ['%', x, y];
    assert dec("" + encoded) == Some(d);
    assert DecodeSafelyFrom(input, |a|, a, "", dec) ==
           DecodeSafelyFrom(input, |a| + 3, a + d, "", dec);
    forall i | |a| + 3 <= i < |input|
      ensures !EscapeAt(input, i)
    {
      assert input[i] == b[i - |a| - 3];
    }
    UndecodableKept(input, |a| + 3, a + d, "", dec);
    assert input[|a| + 3..] == b;
    assert a + d + "" + b == a + d + b;
  }

  /** Characters that start no escape are copied one by one. */
  lemma {:induction false} PlainPrefix(input: string, index: nat, end: nat, decoded: string, dec: Decoder)
    requires index <= end <= |input|
    requires forall i :: index <= i < end ==> !EscapeAt(input, i)
    ensures DecodeSafelyFrom(input, index, decoded, "", dec) ==
            DecodeSafelyFrom(input, end, decoded + input[index..end], "", dec)
    decreases end - index
  {
    if index < end {
      assert decoded + "" + [input[index]] + input[index + 1..end] == decoded + input[index..end];
      PlainPrefix(input, index + 1, end, decoded + "" + [input[index]], dec);
    } else {
      assert decoded + input[index..end] == decoded;
    }
  }

  /** decodeStringParmas: decodeURIComponent, or decodeSafelyOut where it throws. */
  function DecodeSafely(input: string, dec: Decoder): string {
    match dec(input)
    case Some(v) => v
    case None => DecodeSafelyOut(input, dec)
  }
}

=== FILE: Wrappers.dfy ===
/** Option and Result types shared by every module of the model: `None` stands for
    JavaScript's `undefined`/`null`, `Failure` for a thrown error. */
module Wrappers {

  datatype Option<+T> = None | Some(value: T) {
    function GetOr(default: T): T {
      match this
      case Some(v) => v
      case None => default
    }
  }

  datatype Result<+R, +E> = Success(value: R) | Failure(error: E)
}
